=== FILE: README.md ===
# pg-dashboard UI logic in Dafny

A model of the decision and transformation logic inside the pg-dashboard
web front end: the count formatter, the two records tables and the pages
that feed them, the sidebar's navigation state, the shared UI state, the
date range picker's label, the API error classifier and request hooks, the
mock records hook and the error box. Each piece is a pure function over
immutable values; the React state a component keeps becomes a state value
and each handler a function from the old state to the new one.

JavaScript is modelled where it matters: values are a union of
`undefined`, `null`, booleans, integers (unbounded here, see "## Left out"), strings and `Date` objects
with explicit truthiness (`js_values.dfy`); plain objects keep their key
order, and object spread assigns the source's keys in order; `new Set`
keeps first occurrences in order (`seqs.dfy`); `String.prototype.trim`,
`\s` and `includes` follow the ECMAScript whitespace set (`js_text.dfy`);
`encodeURIComponent` and `decodeURIComponent` are the UTF-8 percent coding
of ECMA-262 section 19.2.6 (`uri.dfy`); `parseInt(s, 10)` reads an optional
sign and a digit prefix after leading whitespace.

Modules, one per source file, plus shared helpers:

| file | models |
|---|---|
| utils.dfy | `formatNumber`, with the grouping regular expression read position by position |
| filter_state.dfy, records_table.dfy, columns.dfy | the fixed three-filter records table |
| config_records_table.dfy | the configurable records table |
| records_page.dfy, all_records_page.dfy | the two record pages |
| sidebar_nav.dfy, ui_state.dfy, date_range_picker.dfy, dashboard_page.dfy | navigation and UI state |
| api_errors.dfy, api_client.dfy, api_hooks.dfy | HTTP error classification, routing, request hooks |
| mock_data.dfy, error_display.dfy | the mock records hook and the error box |
| wrappers.dfy, js_text.dfy, js_values.dfy, seqs.dfy, uri.dfy, dates.dfy | JavaScript strings, values, sequences, URI coding, calendar dates |

Things the source does that a reader may not expect, each proved below:

- The sidebar's menu click stores the option's display name ("All Records").
  The location effect that follows stores the route segment ("all-records").
- A playground with an empty name is cleared again by the location effect.
- `handleAPIResponse` formats validation issues, then discards them. Its bare `catch`
  replaces every message with one decided by the status code alone.
- A reply envelope with an empty error string throws that empty string, because `??` keeps `""`.
- The "batchno" half of the all-records page's batch-key test never decides anything.
- The "k" branch of `formatNumber` is not idempotent.

## Model

| member | source | states |
|---|---|---|
| Utils.ParsedValue | src/utils.tsx:2-3 | the input is read after removing all whitespace: a plain run of digits reads as its value, and input that is only whitespace reads as `NaN` |
| Utils.PrintParsed | src/utils.tsx:5-8 | no contract of its own: the two branches, 100000 and above and below, are stated by Utils.ThousandsBranch and Utils.GroupedBranch |
| Utils.FormatNumber | src/utils.tsx:1-10 | text with no integer comes back unchanged; a value of 100000 or more prints as text ending in "k" whose rest parses as the value divided by 1000; a smaller value prints as text that, without its spaces, is `String(n)` |
| Utils.ThousandsBranch | src/utils.tsx:5-6 | a value of 100000 or more prints as its whole number of thousands, rounded down, then "k" |
| Utils.GroupedBranch | src/utils.tsx:7-8 | a smaller value, negative ones included, prints as sign plus digits grouped in threes from the right; removing the spaces gives back `String(n)` |
| Utils.InsertSeparators | src/utils.tsx:8 | no contract of its own: the regular expression replacement, one position at a time; Utils.SeparatorsAreThousands and Utils.SeparatorsOnlyAddSpaces state what it inserts |
| Utils.SeparatorsAreThousands | src/utils.tsx:8 | on a run of digits the regular expression `\B(?=(\d{3})+(?!\d))` inserts exactly the spaces of right-to-left grouping in threes |
| Utils.TriplesAheadInDigits | src/utils.tsx:8 | inside a digit run that reaches the end, the lookahead holds exactly where the count of remaining digits is a positive multiple of three |
| Utils.SeparatorsOnlyAddSpaces | src/utils.tsx:8 | the replacement only inserts spaces: the text without spaces is unchanged |
| Utils.GroupedDecimal | src/utils.tsx:8 | what `num.toString().replace(...)` prints for any integer: the sign, then the magnitude grouped in threes |
| Utils.NaNBranch | src/utils.tsx:3 | when no integer can be read, the input comes back unchanged, whitespace included |
| Utils.WhitespaceInsensitive | src/utils.tsx:2 | inputs that differ only in whitespace format identically when one of them parses |
| Utils.TrailingTextIgnored | src/utils.tsx:2 | only the leading integer matters: text after it that does not start with a digit is ignored |
| Utils.SmallValuesUngrouped | src/utils.tsx:8 | values 0 to 999 print as their plain digits |
| Utils.GroupedIdempotent | src/utils.tsx:1-10 | on the grouped branch, formatting the output again gives the same text |
| Utils.ThousandsNotIdempotent | src/utils.tsx:5-6 | on the "k" branch it does not: "523400" gives "523k", which reformats to "523" |
| Utils.FormatOfDecimal | src/utils.tsx:1-10 | a printed natural number is read back as that number and printed by the branch for its size |
| Utils.StartedCountExample | src/pages/workspace/DashboardPage.tsx:37 | "523400" formats as "523k" |
| Utils.HundredThousandExample | src/utils.tsx:5-6 | "100000", the smallest value on the "k" branch, formats as "100k" |
| Utils.FinishedCountExample | src/pages/workspace/DashboardPage.tsx:47 | "32215" formats as "32 215" |
| Utils.FailedCountExample | src/pages/workspace/DashboardPage.tsx:53 | "5000" formats as "5 000" |
| Utils.LargestGroupedExample | src/utils.tsx:7-8 | "99999", the largest value on the grouped branch, formats as "99 999" |
| Utils.SpacedInputExample | src/utils.tsx:2 | "32 215" formats as "32215" does |
| FilterState.Selected | src/components/RecordsTable.tsx:264-278 | no contract of its own: a missing entry reads as the empty string, which every filter test treats as `undefined` |
| FilterState.DateFilterActive | src/components/RecordsTable.tsx:269 | no contract of its own: `d && d.trim() !== ""`; FilterState.DateFilterActiveIffNotBlank states it |
| FilterState.ChoiceFilterActive | src/components/RecordsTable.tsx:273-277 | no contract of its own: `v && v !== "All"`, the batch and status test of both record pages |
| FilterState.HandleFilterChange | src/components/RecordsTable.tsx:238-245 | the chosen field takes the new value, every other field keeps its value and no field appears or vanishes; the same new map goes to `onFilterChange` exactly when that callback is given |
| FilterState.DateFilterActiveIffNotBlank | src/components/RecordsTable.tsx:269 | the date filter is active exactly when its text is not empty or all whitespace |
| FilterState.PickedDate | src/components/RecordsTable.tsx:169-171 | a cleared picker stores "", a picked day stores its `YYYY-MM-DD` text |
| Dates.MonthDay | src/components/DateRangePicker.tsx:56-57 | `MMM DD` is six characters: the month's three-letter name, a space, the two-digit day |
| Dates.MonthDayYear | src/components/DateRangePicker.tsx:67 | `MMM DD, YYYY` starts with `MMM DD` followed by a comma and a space |
| Dates.IsoDate | src/components/RecordsTable.tsx:170 | for a four-digit year `YYYY-MM-DD` is ten characters with dashes at positions 4 and 7; Dates.IsoDateRoundTrip reads it back |
| Dates.IsoDateRoundTrip | src/components/RecordsTable.tsx:170 | the `YYYY-MM-DD` text of a date with a four-digit year reads back as that year, month and day |
| Dates.IsoDateInjective | src/components/dashboard/RecordsTable.tsx:206 | two such dates print the same text only if they are the same day |
| Dates.TwoDigitsIsPadded | src/components/RecordsTable.tsx:170 | the two-digit month and day fields are the shortest decimal padded on the left with "0" to width two |
| Dates.MonthAbbrevInjective | src/components/DateRangePicker.tsx:56 | the "MMM" abbreviations of distinct months differ |
| JsText.TrimEmptyIffBlank | src/components/RecordsTable.tsx:269 | `trim()` gives "" exactly for text made only of ECMAScript whitespace |
| JsText.ParseInt | src/utils.tsx:2 | `parseInt` gives `NaN` exactly when, after the leading whitespace and an optional sign, no decimal digit follows |
| JsText.ParseIntOfDecimal | src/utils.tsx:2 | `parseInt` reads `String(n)` back as `n`, for every integer |
| JsValues.ToString | src/components/RecordsTable.tsx:230 | `String` of a string is the string itself; of a number, text that `parseInt` reads back as that number; a truthy value never prints as empty text |
| JsValues.AssignGet | src/api/hooks.ts:28-31 | after assigning a property, its key reads the new value and every other key reads as before |
| JsValues.Spread | src/api/hooks.ts:28-31 | an object spread keeps the target's properties and adds at most the source's |
| JsValues.SpreadGet | src/api/hooks.ts:28-31 | a property of a spread object comes from the source when the source has the key, from the target otherwise |
| JsValues.SpreadKeysPrefix | src/api/hooks.ts:28-31 | spreading keeps the target's keys first, in their order |
| JsValues.SpreadKeysMembers | src/api/hooks.ts:28-31 | the spread object has exactly the keys of the target and of the source |
| Seqs.Filter | src/components/RecordsTable.tsx:264-282 | `filter` keeps an order-preserving selection of exactly the elements passing the test; with every element passing it keeps all |
| Seqs.FilterCounts | src/components/RecordsTable.tsx:264-282 | each passing element is kept as often as it occurs, every other dropped |
| Seqs.FilterFilter | src/pages/workspace/RecordsPage.tsx:81-98 | two filters in sequence are one filter by the conjunction |
| Seqs.SetOrder | src/components/RecordsTable.tsx:230 | `Array.from(new Set(xs))` holds each value of `xs` once, and nothing else, in first-occurrence order |
| Seqs.SetOrderIsFirstOccurrences | src/components/RecordsTable.tsx:230 | adding the values to the set one by one yields the first occurrences of the whole list |
| Uri.Utf8Decodes | src/components/SidebarNav.tsx:60 | decoding the UTF-8 bytes of any character gives that character back |
| Uri.UriExamples | src/components/SidebarNav.tsx:60-95 | a space encodes as "%20" and a slash as "%2F"; a stray "%" fails to decode and "%41" decodes to "A" |
| RecordsTable.InitialFilterValues | src/components/RecordsTable.tsx:232-236 | no contract of its own: date "", batch "All", status "All"; RecordsTable.InitialFiltersKeepAll states that it keeps every record |
| RecordsTable.ResetFilters | src/components/RecordsTable.tsx:247-254 | whatever the state before, reset yields exactly date "", batch "All" and status "All"; `onResetFilters` is called when given |
| RecordsTable.ResetKeepsAll | src/components/RecordsTable.tsx:247-254 | after a reset every record is shown, in order |
| RecordsTable.InitialFiltersKeepAll | src/components/RecordsTable.tsx:232-236 | with the initial filter values every record is shown, in order |
| RecordsTable.DateExcluded | src/components/RecordsTable.tsx:269 | no contract of its own: the date test of the filter, `record.date?.includes(dateFilter)` negated; RecordsTable.DateExcludedMeaning states it |
| RecordsTable.DateExcludedMeaning | src/components/RecordsTable.tsx:269 | the date test throws exactly on a date that is neither a string nor missing; otherwise it excludes the record exactly when the date is not a string containing the filter text |
| RecordsTable.KeepRecord | src/components/RecordsTable.tsx:264-282 | no contract of its own: the `data.filter` callback; RecordsTable.KeepRecordMeaning states it |
| RecordsTable.Survives | src/components/RecordsTable.tsx:264-282 | no contract of its own: the survival condition as a conjunction of the date, batch and status conditions, the reference that RecordsTable.KeepRecordMeaning and RecordsTable.FilteredData are proved against |
| RecordsTable.KeepRecordMeaning | src/components/RecordsTable.tsx:264-282 | the callback throws exactly on an unsearchable date under an active date filter; otherwise it keeps a record exactly when the date, batch and status conditions all hold |
| RecordsTable.FilteredData | src/components/RecordsTable.tsx:264-282 | `filteredData` is computed without an exception exactly when no record has an unsearchable date under an active date filter |
| RecordsTable.FilteredDataMeaning | src/components/RecordsTable.tsx:264-282 | when it does not throw, the result is the records meeting all three conditions, in their original order |
| RecordsTable.FilteredIsSubsequence | src/components/RecordsTable.tsx:264-282 | the shown rows are an order-preserving selection of the data, and a record is among them exactly when it meets the three conditions |
| RecordsTable.MissingDateExcluded | src/components/RecordsTable.tsx:269 | under an active date filter a record without a date never survives, and does not throw |
| RecordsTable.NonStringDateThrows | src/components/RecordsTable.tsx:269 | under an active date filter a record whose date is a number, a boolean or a `Date` makes the whole filter throw |
| RecordsTable.OnlyBatchFilter | src/components/RecordsTable.tsx:273-275 | with the date and status filters off, a record survives exactly when the batch filter is off or names its batch |
| RecordsTable.ChoosingBatch | src/components/RecordsTable.tsx:273-275 | selecting batch `b` shows exactly the records of batch `b`, in order, or every record for "All" |
| RecordsTable.ChoosingBatchOption | src/components/RecordsTable.tsx:141-147 | choosing any entry of the batch dropdown (for string batch values) shows exactly that batch's records, or every record for "All" |
| RecordsTable.BatchOptionNonEmpty | src/components/RecordsTable.tsx:230 | for any records, no dropdown entry has an empty value: falsy batch values are dropped and every truthy value, a `Date` included, prints as non-empty text |
| RecordsTable.FieldValues | src/components/RecordsTable.tsx:230 | one value per record, each the record's value of the field |
| RecordsTable.DistinctValues | src/components/RecordsTable.tsx:230 | each truthy value of the field appears exactly once, and nothing else appears |
| RecordsTable.DistinctValuesOrder | src/components/RecordsTable.tsx:230 | the distinct values, and so the batch numbers, come in the order in which the truthy values first appear in the records |
| RecordsTable.Strings | src/components/RecordsTable.tsx:230 | `.map((batch) => batch.toString())`: one string per value, position-wise |
| RecordsTable.BatchNumbers | src/components/RecordsTable.tsx:230 | one entry per distinct truthy `batchNo`, its `toString`, at the position of that value among the distinct values |
| RecordsTable.StringBatchesAreDistinct | src/components/RecordsTable.tsx:230 | for string batches the numbers are exactly the non-empty batch strings present, each once |
| RecordsTable.BatchOptions | src/components/RecordsTable.tsx:141-147 | "All" first, then one entry per batch number with that number as value and label |
| RecordsTable.VisibleRecords | src/components/RecordsTable.tsx:264-282 | the rows the table evidently means to show: an order-preserving selection of exactly the records meeting the three conditions; it never throws and agrees with `filteredData` whenever that does not throw |
| RecordsTable.FilteredAgreesWhenOk | src/components/RecordsTable.tsx:264-282 | whenever the filter as written succeeds, it yields the records meeting all three conditions |
| RecordsTable.UnsearchableDateHidden | src/components/RecordsTable.tsx:269 | in the corrected filter, a record whose date is not a string is not shown under an active date filter |
| RecordsTable.NumericDateCrashesFilter | src/components/RecordsTable.tsx:269 | a record dated by a Unix timestamp makes the filter as written throw once a date is picked; the corrected filter shows no rows |
| Columns.SpaceBeforeCapitals | src/pages/workspace/RecordsPage.tsx:69 | the replacement only adds spaces and leaves text without capitals unchanged |
| Columns.HeaderName | src/pages/workspace/RecordsPage.tsx:69 | the header is empty exactly when the field is; it starts with the field's first character upper-cased |
| Columns.JoinWordsInvertsSpacing | src/pages/workspace/RecordsPage.tsx:69 | removing each space that stands before a capital undoes the replacement |
| Columns.HeaderNameRoundTrip | src/pages/workspace/RecordsPage.tsx:69 | the field can be read back from its header when it does not start with a capital |
| Columns.HeaderNameInjective | src/pages/workspace/RecordsPage.tsx:69 | two such fields get the same header only if they are the same field |
| Columns.HeaderOfNumberField | src/pages/workspace/RecordsPage.tsx:69 | a lower-case word followed by "No" gets its first letter capitalised and " No" |
| Columns.HeaderOfLowerWord | src/pages/workspace/RecordsPage.tsx:69 | a lower-case word only gets its first letter capitalised |
| Columns.ReferenceNoHeader | src/pages/workspace/RecordsPage.tsx:56 | "referenceNo" gets the header "Reference No" |
| Columns.BatchNoHeader | src/pages/workspace/RecordsPage.tsx:58 | "batchNo" gets the header "Batch No" |
| Columns.DateHeader | src/pages/workspace/RecordsPage.tsx:57 | "date" gets the header "Date" |
| Columns.StatusHeader | src/pages/workspace/RecordsPage.tsx:59 | "status" gets the header "Status" |
| Columns.ResultHeader | src/pages/workspace/RecordsPage.tsx:60 | "result" gets the header "Result" |
| Columns.IsSortable | src/components/RecordsTable.tsx:259 | a column is sortable unless its configuration says `sortable: false` |
| Columns.ToGridColumn | src/components/RecordsTable.tsx:256-262 | field, header, flex and renderer are copied; sortable unless configured false |
| Columns.GridColumns | src/components/RecordsTable.tsx:256-262 | one grid column per configured column, in order |
| Columns.GridColumnRoundTrip | src/components/RecordsTable.tsx:256-262 | for a column whose `sortable` is given, the configuration can be read back from the grid column |
| ConfigRecordsTable.FirstOptionValue | src/components/dashboard/RecordsTable.tsx:189 | the first option's value exists exactly when the options are given and non-empty |
| ConfigRecordsTable.DefaultValue | src/components/dashboard/RecordsTable.tsx:153 | a non-empty `defaultValue` wins; an empty or missing one falls through to the first option, then to "" |
| ConfigRecordsTable.DefaultFilterValues | src/components/dashboard/RecordsTable.tsx:150-156 | the initial map has exactly the configured fields as keys |
| ConfigRecordsTable.DefaultOfLastFilter | src/components/dashboard/RecordsTable.tsx:152-154 | each field holds the default of the last filter naming it |
| ConfigRecordsTable.ResetFilters | src/components/dashboard/RecordsTable.tsx:167-174 | the reset map has exactly the configured fields as keys, whatever the state before; `onResetFilters` is called when given |
| ConfigRecordsTable.ResetRestoresDefaults | src/components/dashboard/RecordsTable.tsx:167-174 | after a reset each field holds its filter's default again, as in the initial state |
| ConfigRecordsTable.FilterPasses | src/components/dashboard/RecordsTable.tsx:186-193 | no contract of its own: one filter passes on an empty value, "All", the first option's value, or a strictly equal record value; ConfigRecordsTable.Every and FilteredData are stated through it |
| ConfigRecordsTable.Every | src/components/dashboard/RecordsTable.tsx:185-196 | `filters.every` holds exactly when every configured filter passes |
| ConfigRecordsTable.FilteredData | src/components/dashboard/RecordsTable.tsx:184-197 | the rows are an order-preserving selection, and a record is among them exactly when every filter's value is empty, "All", the first option's value, or strictly equal to the record's field |
| ConfigRecordsTable.FilteredDataIsConjunction | src/components/dashboard/RecordsTable.tsx:184-197 | the rows are `Filter` of the data by "every filter passes": in order, each passing record as often as it occurs |
| ConfigRecordsTable.NoFiltersKeepAll | src/components/dashboard/RecordsTable.tsx:143 | with the default empty filter list every record is kept, in order |
| ConfigRecordsTable.FirstOptionIsNoConstraint | src/components/dashboard/RecordsTable.tsx:189 | choosing a dropdown's first option filters exactly as clearing that field does |
| ConfigRecordsTable.OptionDefaultPasses | src/components/dashboard/RecordsTable.tsx:189 | a default taken from the options lets every record through that filter |
| ConfigRecordsTable.OptionDefaultsKeepAll | src/components/dashboard/RecordsTable.tsx:150-197 | when every default comes from the options, the initial state shows every record, in order |
| ConfigRecordsTable.PickedDateIsExactMatch | src/components/dashboard/RecordsTable.tsx:204-207 | a picked date keeps exactly the records whose field is the string `YYYY-MM-DD` of that day |
| ConfigRecordsTable.PickedDateSelectsDay | src/components/dashboard/RecordsTable.tsx:204-207 | among records dated by such text, exactly those of the picked day survive |
| RecordsPage.PageRenderer | src/pages/workspace/RecordsPage.tsx:9-39 | the status, date and JSON renderers are chosen exactly for those lower-cased field names |
| RecordsPage.JsonCell | src/pages/workspace/RecordsPage.tsx:16-19 | the JSON cell shows "-" exactly for a falsy value, in particular for "", null and undefined |
| RecordsPage.DataColumn | src/pages/workspace/RecordsPage.tsx:67-73 | a derived column names its field, is sortable and has flex 1 |
| RecordsPage.PageColumns | src/pages/workspace/RecordsPage.tsx:53-74 | missing or empty records give the five fixed columns; otherwise one column per key of the first record, in key order |
| RecordsPage.FallbackColumns | src/pages/workspace/RecordsPage.tsx:55-61 | no contract of its own: the five fixed columns; RecordsPage.FallbackMatchesTransform relates their headers to the transform |
| RecordsPage.FallbackMatchesTransform | src/pages/workspace/RecordsPage.tsx:55-61 | each fixed header is what the header transform makes of its field |
| RecordsPage.DataColumnHeadersRecoverFields | src/pages/workspace/RecordsPage.tsx:67-73 | each derived header gives back its field, for fields not starting with a capital |
| RecordsPage.FilterWhen | src/pages/workspace/RecordsPage.tsx:81-98 | an inactive filter step keeps its input; any step yields a subsequence |
| RecordsPage.DateMatches | src/pages/workspace/RecordsPage.tsx:81-85 | no contract of its own: the formatted date contains the filter text, both lower-cased |
| RecordsPage.PagePasses | src/pages/workspace/RecordsPage.tsx:76-101 | no contract of its own: the conjunction of the three filters, the reference that RecordsPage.PageFilterIsConjunction proves the sequential filtering equal to |
| RecordsPage.PageFilteredData | src/pages/workspace/RecordsPage.tsx:76-101 | missing records give no rows; otherwise an order-preserving selection of the records |
| RecordsPage.OptionalFilter | src/pages/workspace/RecordsPage.tsx:81-98 | a filter applied only when active is a filter by "inactive or passes" |
| RecordsPage.PageFilterIsConjunction | src/pages/workspace/RecordsPage.tsx:76-101 | the three filters in sequence keep exactly the records passing all three, in order |
| RecordsPage.ResetKeepsAll | src/pages/workspace/RecordsPage.tsx:107-109 | the reset map `{}` keeps every record, in order |
| AllRecordsPage.AllRenderer | src/pages/workspace/AllRecordsPage.tsx:6-13 | only a field named "status", in any case, gets a renderer, the status badge |
| AllRecordsPage.RenderersAgreeOnStatus | src/pages/workspace/AllRecordsPage.tsx:6-13 | both record pages give the status badge to exactly the same fields; a field the workspace records page renders as a date or a JSON button gets no renderer here |
| AllRecordsPage.DataFields | src/pages/workspace/AllRecordsPage.tsx:147 | the first record's keys other than "id", in order |
| AllRecordsPage.DynamicColumn | src/pages/workspace/AllRecordsPage.tsx:149-155 | a derived column names its field, is sortable and has flex 1 |
| AllRecordsPage.DynamicColumns | src/pages/workspace/AllRecordsPage.tsx:147-155 | one column per data field, in order |
| AllRecordsPage.DynamicColumnsCoverFields | src/pages/workspace/AllRecordsPage.tsx:147-155 | the columns name exactly the first record's fields other than "id", and each header gives its field back |
| AllRecordsPage.IsBatchKey | src/pages/workspace/AllRecordsPage.tsx:17 | no contract of its own: the lower-cased key contains "batch" or "batchno"; AllRecordsPage.BatchNoTestRedundant shows the second test never decides |
| AllRecordsPage.BatchNoTestRedundant | src/pages/workspace/AllRecordsPage.tsx:17 | the batch-key test holds exactly when the lower-cased key contains "batch" |
| AllRecordsPage.FirstBatchKey | src/pages/workspace/AllRecordsPage.tsx:17 | the first key passing the test, or none when no key does |
| AllRecordsPage.BatchField | src/pages/workspace/AllRecordsPage.tsx:17 | empty data has no batch field; a found field is a key of the first record mentioning "batch" |
| AllRecordsPage.GenerateBatchOptions | src/pages/workspace/AllRecordsPage.tsx:16-23 | "All" first; alone without a batch field, otherwise followed by each distinct truthy value of that field as its string, at that value's position among the distinct values |
| AllRecordsPage.BatchOptionsInFirstOccurrenceOrder | src/pages/workspace/AllRecordsPage.tsx:16-23 | the batch entries follow the order in which the truthy values of the batch field first appear in the records |
| AllRecordsPage.BatchOptionsComeFromData | src/pages/workspace/AllRecordsPage.tsx:21-22 | every entry after "All" is the string of a truthy value some record holds in the batch field |
| AllRecordsPage.BatchOptionsAgreeWithFixedTable | src/pages/workspace/AllRecordsPage.tsx:16-23 | when the batch field is `batchNo`, the dropdown equals the fixed table's batch dropdown |
| AllRecordsPage.SpecificFilters | src/pages/workspace/AllRecordsPage.tsx:157-183 | three filters on distinct fields: date, batch number, status |
| AllRecordsPage.SpecificDefaultsMatchFixedTable | src/pages/workspace/AllRecordsPage.tsx:157-183 | their defaults, which a reset installs, are the fixed table's initial values |
| AllRecordsPage.SpecificDefaultsKeepAll | src/pages/workspace/AllRecordsPage.tsx:157-183 | with those defaults every record is shown, in order |
| AllRecordsPage.MountedFiltersKeepAll | src/pages/workspace/AllRecordsPage.tsx:30-219 | the table mounts while the page has no filters, so its filter map starts empty; with the filters that arrive later and that empty map every record is shown, in order |
| AllRecordsPage.InitialPage | src/pages/workspace/AllRecordsPage.tsx:27-30 | no contract of its own: no data, columns or filters, and loading; AllRecordsPage.MountedFiltersKeepAll uses its empty filter list |
| AllRecordsPage.Loaded | src/pages/workspace/AllRecordsPage.tsx:143-190 | loading ends either way; data, columns and filters are set only for a non-empty list |
| UIStateContext.InitialUIState | src/contexts/UIStateContext.tsx:34-42 | no contract of its own: no playground, no option, both date ends null |
| UIStateContext.Apply | src/contexts/UIStateContext.tsx:44-71 | each setter replaces its own slice as given and leaves the other slice unchanged |
| UIStateContext.ClearIsSetNull | src/contexts/UIStateContext.tsx:54-62 | clearing is setting both playground fields to null |
| UIStateContext.ApplyIdempotent | src/contexts/UIStateContext.tsx:44-71 | applying a setter twice is applying it once |
| UIStateContext.PlaygroundAndDateCommute | src/contexts/UIStateContext.tsx:44-71 | a playground setter and `setDateRange` commute |
| UIStateContext.ApplyAll | src/contexts/UIStateContext.tsx:44-71 | no contract of its own: the setters applied in order; UIStateContext.ApplyAllIsLastWriter states the result |
| UIStateContext.ApplyAllIsLastWriter | src/contexts/UIStateContext.tsx:44-71 | after any run of setters each slice holds what the last setter for it put there |
| UIStateContext.UseUIStateContext | src/contexts/UIStateContext.tsx:87-93 | inside a provider the state; outside, the error with its message |
| UIStateContext.UsePlaygroundContext | src/contexts/UIStateContext.tsx:95-102 | exactly the playground slice, failing outside a provider |
| UIStateContext.UseDateRangeContext | src/contexts/UIStateContext.tsx:104-110 | exactly the date-range slice, failing outside a provider |
| DateRangePicker.Shortcuts | src/components/DateRangePicker.tsx:11-17 | five shortcuts, the last "Reset" clearing both ends; the others are neither "Reset" nor the placeholder |
| DateRangePicker.StartDateChange | src/components/DateRangePicker.tsx:25-27 | a new start, the end kept, with no ordering check |
| DateRangePicker.EndDateChange | src/components/DateRangePicker.tsx:29-31 | a new end, the start kept |
| DateRangePicker.HandlersCommute | src/components/DateRangePicker.tsx:25-31 | picking a start and an end in either order stores both |
| DateRangePicker.ShortcutClick | src/components/DateRangePicker.tsx:33-35 | the shortcut's range replaces the stored one; the playground is untouched |
| DateRangePicker.MatchesShortcut | src/components/DateRangePicker.tsx:44-49 | no contract of its own: both ends set and on the same days as the shortcut's ends |
| DateRangePicker.Candidate | src/components/DateRangePicker.tsx:42-50 | no contract of its own: a shortcut other than "Reset" that matches; DateRangePicker.FirstMatch is stated through it |
| DateRangePicker.FirstMatch | src/components/DateRangePicker.tsx:42-53 | the caption of the earliest non-Reset shortcut matching both ends by day, or none when none does |
| DateRangePicker.SpanLabel | src/components/DateRangePicker.tsx:55-68 | same day "MMM DD"; same year "MMM DD - MMM DD"; otherwise the year on the end date only |
| DateRangePicker.SelectionLabel | src/components/DateRangePicker.tsx:37-79 | placeholder for no range, the matching shortcut's caption, the span, "From …" or "Until …"; never "Reset" |
| DateRangePicker.PlaceholderIffEmpty | src/components/DateRangePicker.tsx:37-79 | the placeholder shows exactly when neither end is set |
| DateRangePicker.ResetShowsPlaceholder | src/components/DateRangePicker.tsx:16 | clicking "Reset" brings the placeholder back |
| DateRangePicker.ShortcutShowsCaption | src/components/DateRangePicker.tsx:42-53 | after clicking a computed shortcut the label is its caption or an earlier one covering the same days |
| SidebarNav.InitialExpanded | src/components/SidebarNav.tsx:52 | no contract of its own: only the playgrounds section starts expanded |
| SidebarNav.ToggleSection | src/components/SidebarNav.tsx:69-79 | the section's membership flips and every other section is unchanged |
| SidebarNav.ToggleTwice | src/components/SidebarNav.tsx:69-79 | toggling twice restores the set |
| SidebarNav.MatchPlaygroundPath | src/components/SidebarNav.tsx:58 | a match yields two non-empty slash-free segments forming a prefix of the path that ends it or is followed by a slash |
| SidebarNav.MatchOfBuiltPath | src/components/SidebarNav.tsx:58 | a path built from two such segments, and nothing or a slash after them, matches and captures them |
| SidebarNav.MatchIffPathMatches | src/components/SidebarNav.tsx:58 | the matcher captures `(a, b)` exactly when the path has that shape |
| SidebarNav.LocationEffect | src/components/SidebarNav.tsx:57-67 | a matching path makes the decoded name and the raw option current and adds "playgrounds" and the name to the expanded set, never removing any; a non-matching one clears the playground; malformed escapes throw |
| SidebarNav.RouteOf | src/components/SidebarNav.tsx:87-92 | only "Dashboard", "Flows" and "All Records" have a route, a non-empty slash-free segment |
| SidebarNav.RouteOfInjective | src/components/SidebarNav.tsx:87-91 | distinct options have distinct routes |
| SidebarNav.MenuOptionClick | src/components/SidebarNav.tsx:86-97 | a mapped option sets playground and option and navigates to its path; an unmapped one changes nothing |
| SidebarNav.AfterMenuClick | src/components/SidebarNav.tsx:57-97 | no contract of its own: a click, then the location effect only when the click changes the path |
| SidebarNav.ClickThenLocation | src/components/SidebarNav.tsx:57-67 | after a click the clicked playground is current; when the path changes the effect stores the route segment as the option and expands the name's section, when it does not the option keeps its name |
| SidebarNav.EmptyNameClearedByLocation | src/components/SidebarNav.tsx:57-67 | a click on a playground with an empty name is undone by the location effect when the path changes, and stands when the path was already that one |
| SidebarNav.MenuPath | src/components/SidebarNav.tsx:95 | no contract of its own: the prefix, the encoded name, a slash and the route; SidebarNav.MenuPathInjective and SidebarNav.MatchOfBuiltPath state it |
| SidebarNav.MenuPathInjective | src/components/SidebarNav.tsx:106 | the menu path determines its playground and route |
| SidebarNav.IsMenuActive | src/components/SidebarNav.tsx:99-107 | no contract of its own: the path equals the menu path of the playground and the option's route; SidebarNav.MenuActiveExactly states what it picks out |
| SidebarNav.MenuActiveExactly | src/components/SidebarNav.tsx:99-107 | after a click, exactly the clicked entry is highlighted |
| SidebarNav.PlaygroundsClick | src/components/SidebarNav.tsx:81-84 | the playground is cleared, the date range kept, and the list page opened |
| SidebarNav.IsMainPlaygroundsActive | src/components/SidebarNav.tsx:109-111 | no contract of its own: the path is "/playgrounds"; SidebarNav.PlaygroundsEntryExclusive relates it to the menu entries |
| SidebarNav.PlaygroundsEntryExclusive | src/components/SidebarNav.tsx:109-111 | the list entry and a menu entry are never highlighted together; arriving at the list clears the playground |
| Uri.EncodeURIComponent | src/components/SidebarNav.tsx:95 | the output holds only unreserved characters, "%" and upper-case hex digits; it is never shorter; a string of unreserved characters is unchanged |
| Uri.DecodeURIComponent | src/components/SidebarNav.tsx:60 | no contract of its own: percent-decoding of UTF-8, failing where the source throws; Uri.DecodeEncode and Uri.UriExamples state it |
| Uri.EncodedHasNoSlash | src/components/SidebarNav.tsx:95 | an encoded playground name never contains a slash |
| Uri.DecodeEncode | src/components/SidebarNav.tsx:60 | decoding undoes encoding, for every string |
| Uri.EncodeInjective | src/components/SidebarNav.tsx:95 | distinct names encode differently |
| DashboardPage.BreakdownVisible | src/pages/workspace/DashboardPage.tsx:63 | no contract of its own: the breakdown shows when it is switched on and a card triggered it; DashboardPage.ExpandKeepsConsistent and StartedClicksAlternate are stated through it |
| DashboardPage.StartedExpanded | src/pages/workspace/DashboardPage.tsx:42 | no contract of its own: `showBreakdown && triggerCard === "started"`; DashboardPage.StartedClicksAlternate states when it holds |
| DashboardPage.HandleExpand | src/pages/workspace/DashboardPage.tsx:14-22 | the open card closes everything; any other card opens its breakdown |
| DashboardPage.ExpandKeepsConsistent | src/pages/workspace/DashboardPage.tsx:14-22 | "breakdown shown" and "card recorded" stay in step; the breakdown shows exactly when another card was open or none was |
| DashboardPage.ExpandTwiceCloses | src/pages/workspace/DashboardPage.tsx:14-22 | expanding the same card twice closes the breakdown |
| DashboardPage.StartedClicksAlternate | src/pages/workspace/DashboardPage.tsx:40-42 | the Started card is expanded exactly after an odd number of clicks |
| DashboardPage.RunningCountExample | src/pages/workspace/DashboardPage.tsx:57 | "11789" formats as "11 789" |
| DashboardPage.CardCount | src/pages/workspace/DashboardPage.tsx:35-58 | no contract of its own: a card's text is `formatNumber` of its raw count; DashboardPage.CardCounts states the four texts |
| DashboardPage.CardCounts | src/pages/workspace/DashboardPage.tsx:35-61 | the four cards read "523k", "32 215", "5 000" and "11 789" |
| ApiErrors.IssueLines | src/api/errors.ts:18-22 | the issue text is empty exactly when there are no issues |
| ApiErrors.TryBlockMessage | src/api/errors.ts:15-31 | the `try` block throws a message exactly when the body is JSON |
| ApiErrors.HandleAPIResponse | src/api/errors.ts:3-41 | an ok response passes through unchanged; every other response throws |
| ApiErrors.ReadsText | src/api/errors.ts:5-7 | no contract of its own: a 403 whose content type is missing or not JSON has its body read as text |
| ApiErrors.MessageDependsOnlyOnStatus | src/api/errors.ts:32-37 | a failed 403 yields the expired-token message and any other status the unknown-error message, unless reading the text body rejects |
| ApiErrors.JsonBodyIgnored | src/api/errors.ts:15-37 | the JSON body never changes the outcome |
| ApiErrors.ValidationIssuesLost | src/api/errors.ts:17-23 | the validation issue lines are formatted but the caller sees the unknown-error message |
| ApiErrors.NewAPIError | src/api/errors.ts:48-54 | name "APIError", the given message, and status, validation and details copied from the options or absent |
| ApiErrors.NewAPIErrorKeepsOptions | src/api/errors.ts:48-54 | the options can be read back from the error |
| ApiClient.ReRoute | src/api/client.tsx:28-33 | on localhost the development server's address is prepended; elsewhere the route is unchanged |
| ApiClient.ReRouteKeepsRoute | src/api/client.tsx:28-33 | the route is always the tail of the result |
| ApiClient.AuthHeaders | src/api/client.tsx:35-47 | no headers while authentication is needed, otherwise exactly the mock bearer token |
| ApiHooks.RequestBody | src/api/hooks.ts:28-31 | "action" is the first key; a payload key overrides it; a null payload gives `{action}` alone |
| ApiHooks.PayloadActionOverrides | src/api/hooks.ts:28-31 | the body's action is the payload's when it has one, the hook's otherwise |
| ApiHooks.RequestHeaders | src/api/hooks.ts:24-27 | always the JSON content type; the bearer token exactly when authentication is not needed |
| ApiHooks.Unwrap | src/api/hooks.ts:37-40 | a truthy `ok` returns `data`; otherwise the error string as is, or "Unknown API error" for null or undefined |
| ApiHooks.EmptyErrorKept | src/api/hooks.ts:40 | an empty error string is thrown unchanged |
| ApiHooks.Fetched | src/api/hooks.ts:34-40 | the HTTP check first, its exception escaping; the envelope only for an ok response |
| ApiHooks.HttpCheckFirst | src/api/hooks.ts:34-35 | a failed response never reaches the envelope |
| ApiHooks.QueryKey | src/api/hooks.ts:20 | no contract of its own: the literal `[route, action, payload]`; ApiHooks.KeysIdentifyRequests states what it distinguishes |
| ApiHooks.MutationKey | src/api/hooks.ts:60 | no contract of its own: the literal `[route, action]`, which ApiHooks.KeysIdentifyRequests shows every query key of the same request extends |
| ApiHooks.KeysIdentifyRequests | src/api/hooks.ts:20 | a query key extends the mutation key, and two query key lists are equal exactly when route, action and payload are, the payload as an ordered property list |
| ApiHooks.ReorderedPayloadsKeyedApart | src/api/hooks.ts:20 | payloads differing only in property order give different key lists, although every property reads the same |
| MockData.BatchFilterActive | src/hooks/useMockData.ts:14 | no contract of its own: a batch is asked for and it is neither empty nor "All"; MockData.MockRecords is stated through it |
| MockData.MockRecords | src/hooks/useMockData.ts:11-18 | all records in order without an active batch; otherwise exactly that batch's records, in order |
| MockData.PlaygroundNameIrrelevant | src/hooks/useMockData.ts:5-18 | the playground name never changes the records returned |
| MockData.BatchRecordsCounted | src/hooks/useMockData.ts:14-16 | each record of the batch is returned as often as it occurs, others never |
| ErrorDisplay.Falsy | src/components/ErrorDisplay.tsx:9 | no contract of its own: `!error` holds for null and the empty string only; ErrorDisplay.Render's first clause is stated through it |
| ErrorDisplay.Render | src/components/ErrorDisplay.tsx:8-11 | nothing exactly for a falsy error; title defaults to "Error"; an array is the list, an `Error` its message, a string itself |
| ErrorDisplay.EmptyListStillRendered | src/components/ErrorDisplay.tsx:9-11 | an empty array still renders the title over an empty list |
| ErrorDisplay.SingleMessageListed | src/components/ErrorDisplay.tsx:11 | a truthy string or an `Error` lists exactly one message |
| ErrorDisplay.OneMessageThreeWays | src/components/ErrorDisplay.tsx:11 | a non-empty string, a one-element array of it and an `Error` with it as message render the same alert |
| ErrorDisplay.EmptyTextVersusEmptyError | src/components/ErrorDisplay.tsx:9-11 | the empty string renders nothing, while an `Error` with an empty message renders one empty line |

## Left out

- `formatDate`: the records page imports it from `src/utils.tsx`, which does not define it. It is a parameter of the page's filter: any function from a record's date to text.
- Utils.ThousandsBranch: integers are unbounded, so the floating-point behaviour of `parseInt` and `toString` beyond safe integers is not modelled.
- `toLowerCase` and `toUpperCase` map ASCII letters only; the Unicode case tables are not modelled. The `[A-Z]` class of the header transform is ASCII in the source too.
- Plain objects are ordered key lists. `Object.keys` puts integer-like keys first; that ordering is not modelled.
- The route table's lookup of names inherited from `Object.prototype`, such as "toString", is not modelled: such names are treated as unmapped.
- `Date` values compare by structure, not object identity, in the strict-equality tests.
- The shortcuts' ranges depend on the current time through dayjs week and month boundaries. They are parameters.
- ApiHooks.KeysIdentifyRequests: react-query compares keys by a hash that sorts object keys and drops `undefined` properties, so reordered payloads share a cache entry; the lemma compares the key lists themselves, and the cache is not modelled.
- I/O, timers, `fetch`, reading the response body, react-query caching and retries, MUI's grid (sorting, quick filter, pagination, CSV export), the JSON modal and `JSON.parse`, and the click-outside listener are not modelled. The response body is given as what reading it yields.
- The all-records page's filter-change and reset handlers only log. Its fixture list and timer are replaced by the loaded records as a parameter.
- `src/contexts/PlaygroundContext.tsx` and `src/contexts/DateRangeContext.tsx` are not part of this model; they behave as the matching slices of the UI state.
- MockData.MockRecords: the statement that the fixture list is copied and not mutated is implicit, since every value is immutable.
- `encodeURIComponent` on a lone surrogate throws a URIError. Dafny's `char` is a Unicode scalar value, so the case cannot arise.
- The six breakdown counts of the dashboard go through the same `formatNumber` and get no example lemmas of their own. Styling, theming and page composition are presentation and are not modelled.

## Findings

| source | as written | input that shows it | evidently intended | confidence | as-written member | corrected member |
|---|---|---|---|---|---|---|
| src/components/RecordsTable.tsx:269 | `record.date?.includes(dateFilter)` calls `includes` on whatever the date holds, although the record type allows numbers and `Date` objects | a record `{date: 1743897600}` with the date filter "2025-04-05": `includes` is not a function, so the filter throws a TypeError and the table cannot render | a date that cannot be searched excludes the record, as a missing date does | not executed; medium | RecordsTable.NumericDateCrashesFilter | RecordsTable.VisibleRecords |

=== FILE: all_records_page.dfy ===
/**
 * The all-records page (src/pages/workspace/AllRecordsPage.tsx): once its
 * records arrive it derives the table's columns from the first record, the
 * batch dropdown from the record field whose name mentions "batch", and
 * three filter configurations for the configurable records table.
 *
 * The page loads a fixed list after a timer; here the loaded records are a
 * parameter.
 */
module AllRecordsPage {
  import opened Wrappers
  import opened JsText
  import opened JsValues
  import opened Seqs
  import opened Columns
  import opened FilterState
  import RecordsTable
  import opened ConfigRecordsTable
  import RecordsPage

  // ---------------------------------------------------------------------
  // Columns

  /** This page's `getColumnRenderer`: only the status column gets a badge. */
  function AllRenderer(field: string): (r: Option<Renderer>)
    ensures r.Some? <==> Lower(field) == "status"
    ensures r.Some? ==> r.value == StatusBadge
  {
    if Lower(field) == "status" then Some(StatusBadge) else None
  }

  /** Both record pages put the status badge on exactly the same fields;
      the other renderers of the workspace records page, the date cell and
      the JSON button, are not used here, so those fields render as text. */
  lemma RenderersAgreeOnStatus(field: string)
    ensures AllRenderer(field) == Some(StatusBadge) <==> RecordsPage.PageRenderer(field) == Some(StatusBadge)
    ensures AllRenderer(field).Some? ==> AllRenderer(field) == RecordsPage.PageRenderer(field)
    ensures RecordsPage.PageRenderer(field) == Some(DateCell) ==> AllRenderer(field).None?
    ensures RecordsPage.PageRenderer(field) == Some(JsonButton) ==> AllRenderer(field).None?
  {
  }

  /** `Object.keys(firstRecord).filter((key) => key !== "id")`. */
  function DataFields(first: JsObject): (r: seq<string>)
    ensures "id" !in r
    ensures forall k :: k in r <==> k in Keys(first) && k != "id"
    ensures IsSubsequence(r, Keys(first))
  {
    Filter(Keys(first), (k: string) => k != "id")
  }

  function DynamicColumn(field: string): (c: ColumnConfig)
    ensures c.field == field && c.sortable == Some(true) && c.flex == Some(1)
  {
    ColumnConfig(field, HeaderName(field), Some(true), Some(1), AllRenderer(field))
  }

  /** `dynamicColumns`: one column per field of the first record except
      `id`, in key order. */
  function DynamicColumns(first: JsObject): (r: seq<ColumnConfig>)
    ensures |r| == |DataFields(first)|
    ensures forall i :: 0 <= i < |r| ==> r[i] == DynamicColumn(DataFields(first)[i])
  {
    var fields := DataFields(first);
    seq(|fields|, i requires 0 <= i < |fields| => DynamicColumn(fields[i]))
  }

  /** The columns name exactly the first record's fields other than `id`,
      each once, with a header that gives the field back when the field
      does not start with a capital. */
  lemma DynamicColumnsCoverFields(first: JsObject)
    ensures forall c :: c in DynamicColumns(first) ==> c.field != "id" && c.field in Keys(first)
    ensures forall k :: k in Keys(first) && k != "id" ==>
      exists i :: 0 <= i < |DynamicColumns(first)| && DynamicColumns(first)[i].field == k
    ensures forall i :: 0 <= i < |DynamicColumns(first)| ==>
      var f := DynamicColumns(first)[i].field;
      (f == [] || !IsAsciiUpper(f[0])) ==> FieldOfHeader(DynamicColumns(first)[i].headerName) == f
  {
    var cs, fs := DynamicColumns(first), DataFields(first);
    forall c | c in cs ensures c.field != "id" && c.field in Keys(first) {
      var i :| 0 <= i < |cs| && cs[i] == c;
      assert fs[i] in fs;
    }
    forall k | k in Keys(first) && k != "id"
      ensures exists i :: 0 <= i < |cs| && cs[i].field == k
    {
      var i :| 0 <= i < |fs| && fs[i] == k;
      assert cs[i].field == k;
    }
    forall i | 0 <= i < |cs| && (cs[i].field == [] || !IsAsciiUpper(cs[i].field[0]))
      ensures FieldOfHeader(cs[i].headerName) == cs[i].field
    {
      HeaderNameRoundTrip(cs[i].field);
    }
  }

  // ---------------------------------------------------------------------
  // The batch dropdown

  /** `key.toLowerCase().includes("batch") || key.toLowerCase().includes("batchno")`. */
  predicate IsBatchKey(key: string) {
    Includes(Lower(key), "batch") || Includes(Lower(key), "batchno")
  }

  /** The second half of the batch-key test never decides anything: a name
      containing "batchno" already contains "batch". */
  lemma BatchNoTestRedundant(key: string)
    ensures IsBatchKey(key) <==> Includes(Lower(key), "batch")
  {
    if Includes(Lower(key), "batchno") {
      IncludesPrefixOf(Lower(key), "batchno", "batch");
    }
  }

  /** None of the first `n` keys passes the batch test. */
  predicate NoBatchKeyBefore(keys: seq<string>, n: int)
    requires 0 <= n <= |keys|
  {
    forall j :: 0 <= j < n ==> !IsBatchKey(keys[j])
  }

  lemma NoBatchKeyCons(keys: seq<string>, n: int)
    requires 1 <= n <= |keys|
    ensures NoBatchKeyBefore(keys, n) <==> !IsBatchKey(keys[0]) && NoBatchKeyBefore(keys[1..], n - 1)
  {
    assert forall j :: 1 <= j < n ==> keys[1..][j - 1] == keys[j];
  }

  /** `keys.find(IsBatchKey)`. */
  function FirstBatchKey(keys: seq<string>): (r: Option<string>)
    ensures r.None? <==> NoBatchKeyBefore(keys, |keys|)
    ensures r.Some? ==> exists i :: (0 <= i < |keys| && keys[i] == r.value && IsBatchKey(r.value)
      && NoBatchKeyBefore(keys, i))
    ensures r.Some? ==> Includes(Lower(r.value), "batch")
    decreases |keys|
  {
    if keys == [] then None
    else if IsBatchKey(keys[0]) then
      BatchNoTestRedundant(keys[0]);
      Some(keys[0])
    else
      var rest := keys[1..];
      var r := FirstBatchKey(rest);
      NoBatchKeyCons(keys, |keys|);
      if r.Some? then
        var i :| (0 <= i < |rest| && rest[i] == r.value && IsBatchKey(r.value)
          && NoBatchKeyBefore(rest, i));
        NoBatchKeyCons(keys, i + 1);
        assert keys[i + 1] == r.value;
        r
      else r
  }

  /** `batchField`: searched among the keys of `data[0] || {}`, so there is
      none for an empty list. */
  function BatchField(data: seq<JsObject>): (r: Option<string>)
    ensures data == [] ==> r.None?
    ensures r.Some? ==> r.value in Keys(data[0]) && Includes(Lower(r.value), "batch")
  {
    if data == [] then None else FirstBatchKey(Keys(data[0]))
  }

  /** `generateBatchOptions`: "All" alone when there is no batch field,
      otherwise "All" followed by the distinct truthy values of that field,
      each as its string, in first-occurrence order. */
  function GenerateBatchOptions(data: seq<JsObject>): (r: seq<SelectOption>)
    ensures |r| >= 1 && r[0] == SelectOption("All", "All")
    ensures BatchField(data).None? ==> r == [SelectOption("All", "All")]
    ensures BatchField(data).Some? ==>
      var vs := RecordsTable.DistinctValues(data, BatchField(data).value);
      |r| == |vs| + 1
      && forall i :: 0 <= i < |vs| ==> r[i + 1] == SelectOption(ToString(vs[i]), ToString(vs[i]))
  {
    match BatchField(data)
    case None => [SelectOption("All", "All")]
    case Some(field) => RecordsTable.BatchOptions(RecordsTable.Strings(RecordsTable.DistinctValues(data, field)))
  }

  /** Every entry after "All" is the string of a truthy value some record
      holds in the batch field. */
  lemma BatchOptionsComeFromData(data: seq<JsObject>, k: int)
    requires 0 < k < |GenerateBatchOptions(data)|
    ensures BatchField(data).Some?
    ensures exists i :: (0 <= i < |data| && Truthy(Get(data[i], BatchField(data).value))
      && GenerateBatchOptions(data)[k].value == ToString(Get(data[i], BatchField(data).value)))
  {
    var vs := RecordsTable.DistinctValues(data, BatchField(data).value);
    assert vs[k - 1] in vs;
  }

  /** The batch entries follow the order in which the truthy values of the
      batch field first appear in the records. */
  lemma BatchOptionsInFirstOccurrenceOrder(data: seq<JsObject>)
    ensures BatchField(data).Some? ==>
      var order := FirstOccurrences(Filter(RecordsTable.FieldValues(data, BatchField(data).value), Truthy));
      GenerateBatchOptions(data) == RecordsTable.BatchOptions(RecordsTable.Strings(order))
  {
    if BatchField(data).Some? {
      RecordsTable.DistinctValuesOrder(data, BatchField(data).value);
    }
  }

  /** When the batch field is `batchNo`, this page offers the same batch
      dropdown as the fixed records table. */
  lemma BatchOptionsAgreeWithFixedTable(data: seq<JsObject>)
    requires BatchField(data) == Some("batchNo")
    ensures GenerateBatchOptions(data) == RecordsTable.BatchOptions(RecordsTable.BatchNumbers(data))
  {
  }

  // ---------------------------------------------------------------------
  // Filters

  /** `specificFilters`. */
  function SpecificFilters(data: seq<JsObject>): (r: seq<FilterConfig>)
    ensures |r| == 3 && DistinctFields(r)
    ensures r[0].field == "date" && r[1].field == "batchNo" && r[2].field == "status"
  {
    [FilterConfig("date", true, None, Some("")),
     FilterConfig("batchNo", false, Some(GenerateBatchOptions(data)), Some("All")),
     FilterConfig("status", false, Some(RecordsTable.StatusOptions), Some("All"))]
  }

  /** These filters' defaults, which a reset installs, are those the fixed
      records table starts with: no date, every batch, every status. */
  lemma SpecificDefaultsMatchFixedTable(data: seq<JsObject>)
    ensures DefaultFilterValues(SpecificFilters(data)) == RecordsTable.InitialFilterValues
  {
    var fs := SpecificFilters(data);
    assert DefaultValue(fs[0]) == "" && DefaultValue(fs[1]) == "All" && DefaultValue(fs[2]) == "All";
    assert fs[..2][..1] == fs[..1];
    assert DefaultFilterValues(fs[..1]) == map["date" := ""];
    assert DefaultFilterValues(fs[..2]) == map["date" := "", "batchNo" := "All"];
  }

  /** With those defaults, every record is shown, in order. */
  lemma SpecificDefaultsKeepAll(data: seq<JsObject>, shown: seq<JsObject>)
    ensures FilteredData(shown, SpecificFilters(data), DefaultFilterValues(SpecificFilters(data))) == shown
  {
    SpecificDefaultsMatchFixedTable(data);
    var fs, fv := SpecificFilters(data), RecordsTable.InitialFilterValues;
    forall n, i | 0 <= n < |shown| && 0 <= i < |fs| ensures FilterPasses(fv, fs[i], shown[n]) {
    }
    assert forall n :: 0 <= n < |shown| ==> Every(fs, fv, shown[n]);
  }

  /** The table's filter map is built once, when the table mounts, and at
      that moment the page has no filters yet, so the map is empty. The
      filters that arrive with the records do not rebuild it: until a reset
      or a choice, every field reads as blank and every record is shown. */
  lemma MountedFiltersKeepAll(data: seq<JsObject>, shown: seq<JsObject>)
    ensures DefaultFilterValues(InitialPage.filters) == map[]
    ensures FilteredData(shown, SpecificFilters(data), DefaultFilterValues(InitialPage.filters)) == shown
  {
    var fs, fv := SpecificFilters(data), DefaultFilterValues(InitialPage.filters);
    forall n, i | 0 <= n < |shown| && 0 <= i < |fs| ensures FilterPasses(fv, fs[i], shown[n]) {
      assert Selected(fv, fs[i].field) == "";
    }
    assert forall n :: 0 <= n < |shown| ==> Every(fs, fv, shown[n]);
  }

  // ---------------------------------------------------------------------
  // Loading

  datatype PageState = PageState(
    data: seq<JsObject>,
    columns: seq<ColumnConfig>,
    filters: seq<FilterConfig>,
    loading: bool)

  const InitialPage := PageState([], [], [], true)

  /** The effect's result once the records arrive: data, columns and
      filters are set only for a non-empty list; loading ends either way. */
  function Loaded(apiData: seq<JsObject>): (r: PageState)
    ensures !r.loading
    ensures apiData == [] ==> r == InitialPage.(loading := false)
    ensures apiData != [] ==> (r.data == apiData && r.filters == SpecificFilters(apiData)
      && r.columns == DynamicColumns(apiData[0]))
  {
    if |apiData| > 0 then
      PageState(apiData, DynamicColumns(apiData[0]), SpecificFilters(apiData), false)
    else InitialPage.(loading := false)
  }
}

=== FILE: api_client.dfy ===
/**
 * Request routing and authentication headers (src/api/client.tsx). The
 * page's hostname and the auth context's flag are parameters.
 */
module ApiClient {
  import opened JsText
  import opened JsValues

  const DevServer := "http://localhost:5173"

  /** `reRoute`: on localhost, requests go to the development server. */
  function ReRoute(hostname: string, route: string): (r: string)
    ensures hostname == "localhost" ==> r == DevServer + route
    ensures hostname != "localhost" ==> r == route
  {
    if hostname == "localhost" then DevServer + route else route
  }

  /** Whatever the host, the route is the tail of the rerouted address. */
  lemma ReRouteKeepsRoute(hostname: string, route: string)
    ensures var r := ReRoute(hostname, route); |route| <= |r| && r[|r| - |route|..] == route
  {
    var r := ReRoute(hostname, route);
    if hostname == "localhost" {
      assert r[|DevServer|..] == route;
    }
  }

  /** `useAuthHeaders`: nothing while authentication is needed, otherwise
      the mock bearer token. */
  function AuthHeaders(needsAuthentication: bool): (h: JsObject)
    ensures needsAuthentication ==> Keys(h) == []
    ensures !needsAuthentication ==> Keys(h) == ["Authorization"] && Get(h, "Authorization") == Str("Bearer mock-token")
  {
    if needsAuthentication then [] else Object1("Authorization", Str("Bearer mock-token"))
  }
}

=== FILE: api_errors.dfy ===
/**
 * HTTP error classification (src/api/errors.ts): `handleAPIResponse` as a
 * pure function of the response, and the `APIErrorHandler` error record.
 *
 * The response's body is given as what reading it would produce: the text
 * `response.text()` resolves to (or its rejection), and what
 * `response.json()` resolves to (or its rejection).
 */
module ApiErrors {
  import opened Wrappers
  import opened JsText
  import opened JsValues

  datatype Issue = Issue(field: Value, message: Value)

  /** The parts of `errorData.error` the handler looks at. */
  datatype ErrorField =
    | NoErrorField                                  // absent, null or another non-object
    | ErrorText(text: string)                       // a string
    | ErrorObject(issues: Option<seq<Issue>>, details: Value)  // `validation.issues` and `details`

  /** What `response.json()` resolves to, or `NotJson` when it rejects. */
  datatype JsonBody = NotJson | ErrorData(error: ErrorField)

  datatype Response = Response(
    ok: bool,
    status: int,
    contentType: Option<string>,
    text: Option<string>,       // None: `response.text()` rejects
    json: JsonBody)

  /** What the handler throws: an `Error` with a message, or the rejection
      of `response.text()`, which it does not catch. */
  datatype Thrown = ErrorMessage(message: string) | TextReadRejected

  const AuthExpired := "Your auth token has expired, please reload the page"
  const UnknownError := "An unknown error occurred"

  /** `issues.map((issue) => `${issue.field}: ${issue.message}`).join("\n")`. */
  function IssueLines(issues: seq<Issue>): (r: string)
    ensures issues == [] <==> r == []
    decreases |issues|
  {
    if issues == [] then []
    else
      var line := ToString(issues[0].field) + ": " + ToString(issues[0].message);
      if |issues| == 1 then line else line + "\n" + IssueLines(issues[1..])
  }

  /** The message the body of the `try` throws. Every path throws. */
  function TryBlockMessage(body: JsonBody): (r: Option<string>)
    ensures body.NotJson? <==> r.None?
  {
    match body
    case NotJson => None
    case ErrorData(ErrorObject(Some(issues), _)) => Some(IssueLines(issues))
    case ErrorData(ErrorObject(None, details)) =>
      Some(if Truthy(details) then ToString(details) else UnknownError)
    case ErrorData(ErrorText(t)) => Some(t)
    case ErrorData(NoErrorField) => Some(UnknownError)
  }

  /** `handleAPIResponse`'s 403 branch: without a JSON content type the body
      is read as text. */
  predicate ReadsText(resp: Response) {
    resp.status == 403
    && (resp.contentType.None? || resp.contentType.value == "" || !Includes(resp.contentType.value, "application/json"))
  }

  /** `handleAPIResponse`. A successful response passes through. Otherwise
      the 403 branch may throw the expired-token message early; after that,
      whatever the `try` block throws is replaced by the `catch`, which
      decides on the status alone. */
  function HandleAPIResponse(resp: Response): (r: Result<Response, Thrown>)
    ensures resp.ok <==> r.Ok?
    ensures r.Ok? ==> r.value == resp
  {
    if resp.ok then Ok(resp)
    else if ReadsText(resp) && resp.text.None? then Err(TextReadRejected)
    else if ReadsText(resp) && Trim(resp.text.value) == "Unauthorized" then Err(ErrorMessage(AuthExpired))
    else if resp.status == 403 then Err(ErrorMessage(AuthExpired)) else Err(ErrorMessage(UnknownError))
  }

  /** The surfaced message depends only on the status: 403 always means an
      expired token and everything else an unknown error, whatever the body
      said, unless reading the text body itself fails. */
  lemma MessageDependsOnlyOnStatus(resp: Response)
    requires !resp.ok
    ensures resp.status != 403 ==> HandleAPIResponse(resp) == Err(ErrorMessage(UnknownError))
    ensures resp.status == 403 && !(ReadsText(resp) && resp.text.None?) ==>
      HandleAPIResponse(resp) == Err(ErrorMessage(AuthExpired))
  {
  }

  /** Two failed responses with the same status, content type and text
      body are handled alike, whatever JSON they carry. */
  lemma JsonBodyIgnored(resp: Response, json: JsonBody)
    requires !resp.ok
    ensures HandleAPIResponse(resp.(json := json)) == HandleAPIResponse(resp)
  {
  }

  /** The validation issues are formatted but never surface: a 422 with
      issues produces the issue lines in the `try` and the unknown-error
      message outside. */
  lemma ValidationIssuesLost(resp: Response, issues: seq<Issue>)
    requires !resp.ok && resp.status == 422 && resp.json == ErrorData(ErrorObject(Some(issues), Undefined))
    ensures TryBlockMessage(resp.json) == Some(IssueLines(issues))
    ensures HandleAPIResponse(resp) == Err(ErrorMessage(UnknownError))
  {
  }

  // ---------------------------------------------------------------------
  // APIErrorHandler

  datatype ErrorOptions = ErrorOptions(status: Option<int>, validation: Option<seq<Issue>>, details: Option<string>)

  datatype APIError = APIError(
    name: string,
    message: string,
    status: Option<int>,
    validation: Option<seq<Issue>>,
    details: Option<string>)

  /** `new APIErrorHandler(message, options)`: named "APIError", each
      optional field copied from the options, absent when they are. */
  function NewAPIError(message: string, options: Option<ErrorOptions>): (e: APIError)
    ensures e.name == "APIError" && e.message == message
    ensures options.None? ==> e.status.None? && e.validation.None? && e.details.None?
    ensures options.Some? ==> (e.status == options.value.status
      && e.validation == options.value.validation && e.details == options.value.details)
  {
    match options
    case None => APIError("APIError", message, None, None, None)
    case Some(o) => APIError("APIError", message, o.status, o.validation, o.details)
  }

  /** The options can be read back from the error. */
  function OptionsOf(e: APIError): ErrorOptions {
    ErrorOptions(e.status, e.validation, e.details)
  }

  lemma NewAPIErrorKeepsOptions(message: string, o: ErrorOptions)
    ensures OptionsOf(NewAPIError(message, Some(o))) == o
    ensures OptionsOf(NewAPIError(message, None)) == ErrorOptions(None, None, None)
  {
  }
}

=== FILE: api_hooks.dfy ===
/**
 * The request hooks (src/api/hooks.ts): the request each hook sends, how
 * the reply's `{ok, data, error}` envelope is unwrapped after the HTTP
 * check, and the cache keys. `fetch` and the JSON reading are not
 * modelled: the response and its envelope are parameters.
 */
module ApiHooks {
  import opened Wrappers
  import opened JsText
  import opened JsValues
  import opened ApiErrors
  import opened ApiClient

  /** `{action, ...payload}`; a `null` payload spreads nothing. */
  function RequestBody(action: string, payload: Option<JsObject>): (r: JsObject)
    ensures |r| >= 1 && Keys(r)[0] == "action"
    ensures payload.None? ==> Keys(r) == ["action"] && Get(r, "action") == Str(action)
    ensures payload.Some? ==> forall k :: (Get(r, k) ==
      if k in Keys(payload.value) then Get(payload.value, k)
      else if k == "action" then Str(action)
      else Undefined)
  {
    var src := match payload case None => [] case Some(p) => p;
    var base := Object1("action", Str(action));
    var r := Spread(base, src);
    SpreadKeysPrefix(base, src);
    assert forall k :: Get(r, k) == if k in Keys(src) then Get(src, k) else Get(base, k) by {
      forall k { SpreadGet(base, src, k); }
    }
    assert Keys(r)[..1] == ["action"];
    assert forall k :: k != "action" ==> Get(base, k) == Undefined;
    r
  }

  /** A payload without an `action` key keeps the hook's action; one with
      it overrides the action. */
  lemma PayloadActionOverrides(action: string, payload: JsObject)
    ensures "action" !in Keys(payload) ==> Get(RequestBody(action, Some(payload)), "action") == Str(action)
    ensures "action" in Keys(payload) ==>
      Get(RequestBody(action, Some(payload)), "action") == Get(payload, "action")
  {
  }

  /** The request headers: the JSON content type, then the auth headers. */
  function RequestHeaders(needsAuthentication: bool): (h: JsObject)
    ensures Get(h, "Content-Type") == Str("application/json")
    ensures Get(h, "Authorization") == if needsAuthentication then Undefined else Str("Bearer mock-token")
  {
    var base, auth := Object1("Content-Type", Str("application/json")), AuthHeaders(needsAuthentication);
    SpreadGet(base, auth, "Content-Type");
    SpreadGet(base, auth, "Authorization");
    Spread(base, auth)
  }

  /** The parsed reply. */
  datatype Envelope = Envelope(ok: Value, data: Value, error: Value)

  const UnknownApiError := "Unknown API error"

  /** `if (data.ok) return data.data; throw new Error(data.error ?? "Unknown API error")`. */
  function Unwrap(env: Envelope): (r: Result<Value, string>)
    ensures Truthy(env.ok) <==> r.Ok?
    ensures r.Ok? ==> r.value == env.data
    ensures r.Err? && Nullish(env.error) ==> r.error == UnknownApiError
    ensures r.Err? && env.error.Str? ==> r.error == env.error.s
  {
    if Truthy(env.ok) then Ok(env.data)
    else if Nullish(env.error) then Err(UnknownApiError)
    else Err(ToString(env.error))
  }

  /** An empty error string is thrown as is: `??` only replaces null and
      undefined. */
  lemma EmptyErrorKept(data: Value)
    ensures Unwrap(Envelope(Bool(false), data, Str(""))) == Err("")
  {
  }

  datatype Failure = HttpFailure(thrown: Thrown) | ApiFailure(message: string)

  /** The body of `queryFn` and `mutationFn` once the response arrives: the
      HTTP check first, then the envelope. */
  function Fetched(resp: Response, env: Envelope): (r: Result<Value, Failure>)
    ensures !resp.ok ==> r.Err? && r.error.HttpFailure? && Err(r.error.thrown) == HandleAPIResponse(resp)
    ensures resp.ok ==> r == match Unwrap(env) case Ok(v) => Ok(v) case Err(m) => Err(ApiFailure(m))
  {
    match HandleAPIResponse(resp)
    case Err(t) => Err(HttpFailure(t))
    case Ok(_) =>
      match Unwrap(env)
      case Ok(v) => Ok(v)
      case Err(m) => Err(ApiFailure(m))
  }

  /** A failed HTTP response never reaches the envelope: the result is the
      same whatever envelope is supplied. */
  lemma HttpCheckFirst(resp: Response, e1: Envelope, e2: Envelope)
    requires !resp.ok
    ensures Fetched(resp, e1) == Fetched(resp, e2)
  {
  }

  // ---------------------------------------------------------------------
  // Cache keys

  datatype KeyPart = RouteKey(route: string) | ActionKey(action: string) | PayloadKey(payload: Option<JsObject>)

  /** `[route, action, payload]`: the route before rerouting. */
  function QueryKey(route: string, action: string, payload: Option<JsObject>): (k: seq<KeyPart>)
  {
    [RouteKey(route), ActionKey(action), PayloadKey(payload)]
  }

  /** `[route, action]`. */
  function MutationKey(route: string, action: string): (k: seq<KeyPart>)
  {
    [RouteKey(route), ActionKey(action)]
  }

  /** A query's key extends the mutation key of the same route and action,
      and two query key lists are equal exactly when route, action and
      payload are, the payload compared as an ordered list of properties. */
  lemma KeysIdentifyRequests(route: string, action: string, payload: Option<JsObject>,
                             route': string, action': string, payload': Option<JsObject>)
    ensures QueryKey(route, action, payload)[..2] == MutationKey(route, action)
    ensures QueryKey(route, action, payload) == QueryKey(route', action', payload')
      <==> route == route' && action == action' && payload == payload'
  {
    if QueryKey(route, action, payload) == QueryKey(route', action', payload') {
      assert QueryKey(route, action, payload)[0] == QueryKey(route', action', payload')[0];
      assert QueryKey(route, action, payload)[1] == QueryKey(route', action', payload')[1];
    }
  }

  /** The key lists tell apart two payloads that differ only in the order
      of their properties, although every property reads the same. */
  lemma ReorderedPayloadsKeyedApart(route: string, action: string)
    ensures var p: JsObject := [Field("a", Num(1)), Field("b", Num(2))];
      var q: JsObject := [Field("b", Num(2)), Field("a", Num(1))];
      (forall k :: Get(p, k) == Get(q, k))
      && QueryKey(route, action, Some(p)) != QueryKey(route, action, Some(q))
  {
    var p: JsObject := [Field("a", Num(1)), Field("b", Num(2))];
    var q: JsObject := [Field("b", Num(2)), Field("a", Num(1))];
    assert QueryKey(route, action, Some(p))[2] != QueryKey(route, action, Some(q))[2];
  }
}

=== FILE: columns.dfy ===
/**
 * Grid columns: the header name the record pages derive from a field name,
 * the cell renderers a page can attach, and the copy of a page's column
 * configuration into the data grid's column definitions
 * (src/components/RecordsTable.tsx).
 */
module Columns {
  import opened Wrappers
  import opened JsText

  /** The custom cell renderers the pages attach to a column. */
  datatype Renderer =
    | StatusBadge   // the status value inside a `status-<value>` badge
    | DateCell      // `formatDate(value)`
    | JsonButton    // "-" for a falsy value, otherwise a "View JSON" button

  /** A page's column configuration: `sortable`, `flex` and `renderCell` may be absent. */
  datatype ColumnConfig = ColumnConfig(
    field: string,
    headerName: string,
    sortable: Option<bool>,
    flex: Option<int>,
    renderCell: Option<Renderer>)

  /** The data grid's column definition. */
  datatype GridColumn = GridColumn(
    field: string,
    headerName: string,
    sortable: bool,
    flex: Option<int>,
    renderCell: Option<Renderer>)

  // ---------------------------------------------------------------------
  // Header names

  /** `s.replace(/([A-Z])/g, " $1")`: a space before every ASCII capital. */
  function SpaceBeforeCapitals(s: string): (r: string)
    ensures |r| >= |s|
    ensures forall c :: c in r ==> c in s || c == ' '
    ensures (forall i :: 0 <= i < |s| ==> !IsAsciiUpper(s[i])) ==> r == s
  {
    if s == [] then []
    else (if IsAsciiUpper(s[0]) then [' ', s[0]] else [s[0]]) + SpaceBeforeCapitals(s[1..])
  }

  /** The header a page shows for a field: the first character upper-cased,
      then the rest with a space before each capital. */
  function HeaderName(field: string): (r: string)
    ensures field == [] <==> r == []
    ensures r != [] ==> r[0] == UpperChar(field[0]) && !IsAsciiLower(r[0])
  {
    if field == [] then [] else [UpperChar(field[0])] + SpaceBeforeCapitals(field[1..])
  }

  /** Removes each space that stands right before a capital. */
  function JoinWords(t: string): (r: string)
    decreases |t|
  {
    if t == [] then []
    else if |t| >= 2 && t[0] == ' ' && IsAsciiUpper(t[1]) then [t[1]] + JoinWords(t[2..])
    else [t[0]] + JoinWords(t[1..])
  }

  /** The camel-case field name a header was made from. */
  function FieldOfHeader(h: string): string {
    if h == [] then [] else [LowerChar(h[0])] + JoinWords(h[1..])
  }

  /** The spaced text never starts with a capital: a leading capital gets a space before it. */
  lemma SpacedStartsWithoutCapital(s: string)
    requires s != []
    ensures !IsAsciiUpper(SpaceBeforeCapitals(s)[0])
  {
  }

  lemma JoinWordsSpaced(c: char, rest: string)
    requires IsAsciiUpper(c)
    ensures JoinWords([' ', c] + rest) == [c] + JoinWords(rest)
  {
    var t := [' ', c] + rest;
    assert t[2..] == rest;
  }

  lemma JoinWordsPlain(c: char, rest: string)
    requires c != ' ' || rest == [] || !IsAsciiUpper(rest[0])
    ensures JoinWords([c] + rest) == [c] + JoinWords(rest)
  {
    var t := [c] + rest;
    assert t[1..] == rest;
  }

  /** Every capital in the spaced text comes right after an inserted space,
      so removing the spaces before capitals gives the original back. */
  lemma {:induction false} JoinWordsInvertsSpacing(s: string)
    ensures JoinWords(SpaceBeforeCapitals(s)) == s
    decreases |s|
  {
    if s != [] {
      var rest := SpaceBeforeCapitals(s[1..]);
      JoinWordsInvertsSpacing(s[1..]);
      if IsAsciiUpper(s[0]) {
        JoinWordsSpaced(s[0], rest);
      } else {
        if s[1..] != [] {
          SpacedStartsWithoutCapital(s[1..]);
        }
        JoinWordsPlain(s[0], rest);
      }
      assert [s[0]] + s[1..] == s;
    }
  }

  /** The header transform loses nothing for a field that does not start
      with a capital: the camel-case name can be read back from it. */
  lemma HeaderNameRoundTrip(field: string)
    requires field == [] || !IsAsciiUpper(field[0])
    ensures FieldOfHeader(HeaderName(field)) == field
  {
    if field != [] {
      JoinWordsInvertsSpacing(field[1..]);
      var h := HeaderName(field);
      assert h[1..] == SpaceBeforeCapitals(field[1..]);
      assert [field[0]] + field[1..] == field;
    }
  }

  /** Two such fields get the same header only if they are the same field. */
  lemma HeaderNameInjective(a: string, b: string)
    requires a == [] || !IsAsciiUpper(a[0])
    requires b == [] || !IsAsciiUpper(b[0])
    requires HeaderName(a) == HeaderName(b)
    ensures a == b
  {
    HeaderNameRoundTrip(a);
    HeaderNameRoundTrip(b);
  }

  lemma {:induction false} SpaceBeforeCapitalsAppend(a: string, b: string)
    ensures SpaceBeforeCapitals(a + b) == SpaceBeforeCapitals(a) + SpaceBeforeCapitals(b)
    decreases |a|
  {
    if a == [] {
      assert a + b == b;
    } else {
      assert (a + b)[1..] == a[1..] + b;
      SpaceBeforeCapitalsAppend(a[1..], b);
    }
  }

  /** A lower-case word followed by "No", as in the record pages' field names. */
  lemma HeaderOfNumberField(word: string)
    requires word != [] && forall i :: 0 <= i < |word| ==> IsAsciiLower(word[i])
    ensures HeaderName(word + "No") == [UpperChar(word[0])] + word[1..] + " No"
  {
    var f := word + "No";
    assert f[1..] == word[1..] + "No";
    SpaceBeforeCapitalsAppend(word[1..], "No");
    assert SpaceBeforeCapitals("No") == " No" by {
      assert "No"[1..] == "o";
    }
  }

  /** A lower-case word only gets its first letter capitalised. */
  lemma HeaderOfLowerWord(word: string)
    requires word != [] && forall i :: 0 <= i < |word| ==> IsAsciiLower(word[i])
    ensures HeaderName(word) == [UpperChar(word[0])] + word[1..]
  {
  }

  /** The fallback columns' headers are what the transform gives their fields. */
  lemma ReferenceNoHeader()
    ensures HeaderName("referenceNo") == "Reference No"
  {
    HeaderOfNumberField("reference");
    assert "reference" + "No" == "referenceNo";
    assert [UpperChar('r')] + "eference" + " No" == "Reference No";
  }

  lemma BatchNoHeader()
    ensures HeaderName("batchNo") == "Batch No"
  {
    HeaderOfNumberField("batch");
    assert "batch" + "No" == "batchNo";
    assert [UpperChar('b')] + "atch" + " No" == "Batch No";
  }

  lemma DateHeader()
    ensures HeaderName("date") == "Date"
  {
    HeaderOfLowerWord("date");
    assert [UpperChar('d')] + "ate" == "Date";
  }

  lemma StatusHeader()
    ensures HeaderName("status") == "Status"
  {
    HeaderOfLowerWord("status");
    assert [UpperChar('s')] + "tatus" == "Status";
  }

  lemma ResultHeader()
    ensures HeaderName("result") == "Result"
  {
    HeaderOfLowerWord("result");
    assert [UpperChar('r')] + "esult" == "Result";
  }

  // ---------------------------------------------------------------------
  // Grid columns

  /** `col.sortable !== false`. */
  function IsSortable(sortable: Option<bool>): (r: bool)
    ensures !r <==> sortable == Some(false)
  {
    match sortable
    case None => true
    case Some(b) => b
  }

  function ToGridColumn(col: ColumnConfig): (g: GridColumn)
    ensures g.field == col.field && g.headerName == col.headerName
    ensures g.flex == col.flex && g.renderCell == col.renderCell
    ensures g.sortable <==> col.sortable != Some(false)
  {
    GridColumn(col.field, col.headerName, IsSortable(col.sortable), col.flex, col.renderCell)
  }

  /** `gridColumns`: one grid column per configured column, in order. */
  function GridColumns(cols: seq<ColumnConfig>): (r: seq<GridColumn>)
    ensures |r| == |cols|
    ensures forall i :: 0 <= i < |cols| ==> r[i] == ToGridColumn(cols[i])
  {
    seq(|cols|, i requires 0 <= i < |cols| => ToGridColumn(cols[i]))
  }

  /** Dropping the grid-only `sortable` flag back to its configured form
      loses nothing for a column whose `sortable` was given explicitly. */
  function ConfigOfGrid(g: GridColumn): ColumnConfig {
    ColumnConfig(g.field, g.headerName, Some(g.sortable), g.flex, g.renderCell)
  }

  lemma GridColumnRoundTrip(col: ColumnConfig)
    requires col.sortable.Some?
    ensures ConfigOfGrid(ToGridColumn(col)) == col
  {
  }
}

=== FILE: config_records_table.dfy ===
/**
 * The configurable records table (src/components/dashboard/RecordsTable.tsx):
 * a list of filter configurations, each naming a record field, drives the
 * default filter values and the record filter.
 */
module ConfigRecordsTable {
  import opened Wrappers
  import opened JsValues
  import opened Seqs
  import opened Dates
  import opened FilterState

  /** A filter configuration; `options` and `defaultValue` may be absent. */
  datatype FilterConfig = FilterConfig(
    field: string,
    isDate: bool,
    options: Option<seq<SelectOption>>,
    defaultValue: Option<string>)

  /** `filter.options?.[0]?.value`. */
  function FirstOptionValue(f: FilterConfig): (r: Option<string>)
    ensures r.Some? <==> f.options.Some? && f.options.value != []
    ensures r.Some? ==> r.value == f.options.value[0].value
  {
    match f.options
    case None => None
    case Some(opts) => if opts == [] then None else Some(opts[0].value)
  }

  /** `filter.defaultValue || filter.options?.[0]?.value || ""`: an empty
      default falls through to the first option, an empty first option to "". */
  function DefaultValue(f: FilterConfig): (r: string)
    ensures f.defaultValue.Some? && f.defaultValue.value != "" ==> r == f.defaultValue.value
    ensures (f.defaultValue.None? || f.defaultValue.value == "") ==>
      r == (if FirstOptionValue(f).Some? then FirstOptionValue(f).value else "")
  {
    if f.defaultValue.Some? && f.defaultValue.value != "" then f.defaultValue.value
    else match FirstOptionValue(f)
      case Some(v) => v
      case None => ""
  }

  /** No later filter names the same field as `filters[i]`. */
  predicate LastWithField(filters: seq<FilterConfig>, i: int)
    requires 0 <= i < |filters|
  {
    forall j :: i < j < |filters| ==> filters[j].field != filters[i].field
  }

  /** The map `filters.forEach` builds, both for the initial state and on
      reset: every configured field, set to its filter's default; when two
      filters name the same field the later one wins. */
  function DefaultFilterValues(filters: seq<FilterConfig>): (r: FilterValues)
    ensures forall k :: k in r <==> exists i :: 0 <= i < |filters| && filters[i].field == k
    decreases |filters|
  {
    if filters == [] then map[]
    else
      var init := filters[..|filters| - 1];
      var last := filters[|filters| - 1];
      assert forall i :: 0 <= i < |init| ==> init[i] == filters[i];
      DefaultFilterValues(init)[last.field := DefaultValue(last)]
  }

  /** Each field holds the default of the last filter naming it. */
  lemma {:induction false} DefaultOfLastFilter(filters: seq<FilterConfig>, i: int)
    requires 0 <= i < |filters| && LastWithField(filters, i)
    ensures DefaultFilterValues(filters)[filters[i].field] == DefaultValue(filters[i])
    decreases |filters|
  {
    var init := filters[..|filters| - 1];
    if i < |filters| - 1 {
      assert init[i] == filters[i];
      assert LastWithField(init, i);
      DefaultOfLastFilter(init, i);
    }
  }

  /** `resetFilters()`: the map is rebuilt from the configurations, so the
      state before the reset plays no part; the callback, when given, is
      called with no arguments. */
  function ResetFilters(filters: seq<FilterConfig>, fv: FilterValues, hasCallback: bool): (r: FilterReset)
    ensures forall k :: k in r.next <==> exists i :: 0 <= i < |filters| && filters[i].field == k
    ensures r.callbackCalled == hasCallback
  {
    FilterReset(DefaultFilterValues(filters), hasCallback)
  }

  /** After a reset each configured field holds its filter's default again,
      whatever changes were made before. */
  lemma ResetRestoresDefaults(filters: seq<FilterConfig>, fv: FilterValues, hasCallback: bool, i: int)
    requires 0 <= i < |filters| && LastWithField(filters, i)
    ensures ResetFilters(filters, fv, hasCallback).next[filters[i].field] == DefaultValue(filters[i])
  {
    DefaultOfLastFilter(filters, i);
  }

  /** One configured filter's test, the callback of `filters.every`. */
  predicate FilterPasses(fv: FilterValues, f: FilterConfig, record: JsObject) {
    var v := Selected(fv, f.field);
    v == "" || v == "All" || FirstOptionValue(f) == Some(v) || Get(record, f.field) == Str(v)
  }

  /** `filters.every(...)`, stopping at the first filter that fails. */
  function Every(filters: seq<FilterConfig>, fv: FilterValues, record: JsObject): (r: bool)
    ensures r <==> forall i :: 0 <= i < |filters| ==> FilterPasses(fv, filters[i], record)
    decreases |filters|
  {
    if filters == [] then true
    else if !FilterPasses(fv, filters[0], record) then false
    else
      assert forall i :: 1 <= i < |filters| ==> filters[1..][i - 1] == filters[i];
      Every(filters[1..], fv, record)
  }

  /** `filteredData`. */
  function FilteredData(data: seq<JsObject>, filters: seq<FilterConfig>, fv: FilterValues)
    : (r: seq<JsObject>)
    ensures IsSubsequence(r, data)
    ensures forall rec :: rec in r <==> rec in data && forall i :: 0 <= i < |filters| ==> FilterPasses(fv, filters[i], rec)
  {
    Filter(data, (rec: JsObject) => Every(filters, fv, rec))
  }

  /** The kept rows are exactly the records passing every filter, in their
      order and each as often as it occurs. */
  lemma FilteredDataIsConjunction(data: seq<JsObject>, filters: seq<FilterConfig>, fv: FilterValues)
    ensures FilteredData(data, filters, fv)
      == Filter(data, (rec: JsObject) => forall i :: 0 <= i < |filters| ==> FilterPasses(fv, filters[i], rec))
  {
    FilterCongruent(data, (rec: JsObject) => Every(filters, fv, rec),
      (rec: JsObject) => forall i :: 0 <= i < |filters| ==> FilterPasses(fv, filters[i], rec));
  }

  /** With no filters configured (the default) every record is kept, in order. */
  lemma NoFiltersKeepAll(data: seq<JsObject>, fv: FilterValues)
    ensures FilteredData(data, [], fv) == data
  {
  }

  /** Choosing the first option of a dropdown places no constraint on its
      field: it filters exactly as clearing the field does. */
  lemma FirstOptionIsNoConstraint(data: seq<JsObject>, filters: seq<FilterConfig>, fv: FilterValues, k: int)
    requires 0 <= k < |filters| && FirstOptionValue(filters[k]).Some?
    requires forall i :: 0 <= i < |filters| && filters[i].field == filters[k].field ==> filters[i] == filters[k]
    ensures var f := filters[k].field;
      FilteredData(data, filters, fv[f := FirstOptionValue(filters[k]).value]) == FilteredData(data, filters, fv[f := ""])
  {
    var f := filters[k].field;
    var chosen, cleared := fv[f := FirstOptionValue(filters[k]).value], fv[f := ""];
    forall rec: JsObject, i | 0 <= i < |filters|
      ensures FilterPasses(chosen, filters[i], rec) == FilterPasses(cleared, filters[i], rec)
    {
      if filters[i].field == f {
        assert filters[i] == filters[k];
      }
    }
    FilterCongruent(data, (rec: JsObject) => Every(filters, chosen, rec), (rec: JsObject) => Every(filters, cleared, rec));
  }

  predicate DistinctFields(filters: seq<FilterConfig>) {
    forall i, j :: 0 <= i < j < |filters| ==> filters[i].field != filters[j].field
  }

  /** A default that comes from the options lets every record through. */
  lemma OptionDefaultPasses(f: FilterConfig, fv: FilterValues, record: JsObject)
    requires f.defaultValue.None? || f.defaultValue == Some("")
    requires Selected(fv, f.field) == DefaultValue(f)
    ensures FilterPasses(fv, f, record)
  {
  }

  /** Defaults that come from the options (no `defaultValue`, or an empty
      one) keep every record, in order. */
  lemma OptionDefaultsKeepAll(data: seq<JsObject>, filters: seq<FilterConfig>)
    requires DistinctFields(filters)
    requires forall i :: 0 <= i < |filters| ==> filters[i].defaultValue.None? || filters[i].defaultValue == Some("")
    ensures FilteredData(data, filters, DefaultFilterValues(filters)) == data
  {
    var fv := DefaultFilterValues(filters);
    forall n, i | 0 <= n < |data| && 0 <= i < |filters| ensures FilterPasses(fv, filters[i], data[n]) {
      assert LastWithField(filters, i);
      DefaultOfLastFilter(filters, i);
      OptionDefaultPasses(filters[i], fv, data[n]);
    }
    assert forall n :: 0 <= n < |data| ==> Every(filters, fv, data[n]);
  }

  /** A picked date filters by exact text: a record survives a lone date
      filter on field `k` exactly when its value there is the string
      `YYYY-MM-DD` of the picked day. */
  lemma PickedDateIsExactMatch(f: FilterConfig, fv: FilterValues, picked: Moment, record: JsObject)
    requires f.isDate && f.options.None?
    requires Selected(fv, f.field) == PickedDate(Some(picked))
    ensures FilterPasses(fv, f, record) <==> Get(record, f.field) == Str(IsoDate(picked.date))
  {
  }

  /** So among records dated by `YYYY-MM-DD` text of four-digit years,
      exactly those of the picked day survive. */
  lemma PickedDateSelectsDay(f: FilterConfig, fv: FilterValues, picked: Moment, record: JsObject, d: CivilDate)
    requires f.isDate && f.options.None?
    requires Selected(fv, f.field) == PickedDate(Some(picked))
    requires Get(record, f.field) == Str(IsoDate(d))
    requires d.year < 10000 && picked.date.year < 10000
    ensures FilterPasses(fv, f, record) <==> d == picked.date
  {
    PickedDateIsExactMatch(f, fv, picked, record);
    if IsoDate(d) == IsoDate(picked.date) {
      IsoDateInjective(d, picked.date);
    }
  }
}

=== FILE: dashboard_page.dfy ===
/**
 * The dashboard's statistics cards (src/pages/workspace/DashboardPage.tsx):
 * which card's breakdown is open, and the counts the cards show.
 */
module DashboardPage {
  import opened Wrappers
  import opened JsText
  import opened Utils

  datatype CardKind = Started | Finished | Failed | Running

  /** `showBreakdown` and `triggerCard` (`null` is `None`). */
  datatype StatsState = StatsState(showBreakdown: bool, trigger: Option<CardKind>)

  const InitialStats := StatsState(false, None)

  /** `handleExpand`: the card already open closes everything; any other
      card opens its breakdown. */
  function HandleExpand(s: StatsState, card: Option<CardKind>): (r: StatsState)
    ensures s.trigger == card ==> r == InitialStats
    ensures s.trigger != card ==> r.showBreakdown && r.trigger == card
  {
    if s.trigger == card then StatsState(false, None) else StatsState(true, card)
  }

  /** The breakdown is shown exactly while a card is recorded. */
  predicate Consistent(s: StatsState) {
    s.showBreakdown <==> s.trigger.Some?
  }

  /** `showBreakdown && triggerCard`: the breakdown section is rendered. */
  predicate BreakdownVisible(s: StatsState) {
    s.showBreakdown && s.trigger.Some?
  }

  /** The Started card's `isExpanded`. */
  predicate StartedExpanded(s: StatsState) {
    s.showBreakdown && s.trigger == Some(Started)
  }

  /** Expanding a card keeps the two flags in step. */
  lemma ExpandKeepsConsistent(s: StatsState, card: CardKind)
    requires Consistent(s)
    ensures Consistent(HandleExpand(s, Some(card)))
    ensures BreakdownVisible(HandleExpand(s, Some(card))) <==> s.trigger != Some(card)
  {
  }

  /** Expanding the same card twice from any other state closes the
      breakdown, whatever was open before. */
  lemma ExpandTwiceCloses(s: StatsState, card: CardKind)
    requires s.trigger != Some(card)
    ensures HandleExpand(HandleExpand(s, Some(card)), Some(card)) == InitialStats
  {
  }

  /** The state after `n` clicks on the Started card's button, the only
      card wired to `handleExpand`. */
  function AfterStartedClicks(n: nat): StatsState {
    if n == 0 then InitialStats else HandleExpand(AfterStartedClicks(n - 1), Some(Started))
  }

  /** Clicking "See Breakdown" toggles: it is expanded exactly after an odd
      number of clicks, and the state never leaves the two it alternates
      between. */
  lemma {:induction false} StartedClicksAlternate(n: nat)
    ensures Consistent(AfterStartedClicks(n))
    ensures StartedExpanded(AfterStartedClicks(n)) <==> n % 2 == 1
    ensures BreakdownVisible(AfterStartedClicks(n)) <==> n % 2 == 1
    ensures AfterStartedClicks(n) == if n % 2 == 1 then StatsState(true, Some(Started)) else InitialStats
  {
    if n > 0 {
      StartedClicksAlternate(n - 1);
    }
  }

  // ---------------------------------------------------------------------
  // Counts

  /** The raw count each card is given before formatting. */
  function RawCount(card: CardKind): string {
    match card
    case Started => "523400"
    case Finished => "32215"
    case Failed => "5000"
    case Running => "11789"
  }

  /** The text a card shows. */
  function CardCount(card: CardKind): string {
    FormatNumber(RawCount(card))
  }

  lemma {:induction false} Decimal11789()
    ensures NatToDecimal(11789) == "11789"
  {
    assert NatToDecimal(1) == "1";
    assert NatToDecimal(11) == "11";
    assert NatToDecimal(117) == "117";
    assert NatToDecimal(1178) == "1178";
  }

  lemma RunningCountExample()
    ensures FormatNumber("11789") == "11 789"
  {
    Decimal11789();
    assert GroupThousands("11789") == "11 789" by {
      assert "11789"[..2] == "11" && "11789"[2..] == "789";
    }
    GroupedExample("11789", 11789, "11 789");
  }

  /** The four cards read "523k", "32 215", "5 000" and "11 789": only the
      count of one hundred thousand or more loses digits. */
  lemma CardCounts()
    ensures CardCount(Started) == "523k"
    ensures CardCount(Finished) == "32 215"
    ensures CardCount(Failed) == "5 000"
    ensures CardCount(Running) == "11 789"
  {
    StartedCountExample();
    FinishedCountExample();
    FailedCountExample();
    RunningCountExample();
  }
}

=== FILE: date_range_picker.dfy ===
/**
 * The date range picker (src/components/DateRangePicker.tsx): its two date
 * handlers, its shortcut buttons, and the label its trigger shows for the
 * range in the shared UI state.
 *
 * The shortcuts' ranges are computed from the current time, which is not
 * modelled: the four computed ranges are parameters.
 */
module DateRangePicker {
  import opened Wrappers
  import opened Dates
  import opened UIStateContext

  datatype Shortcut = Shortcut(caption: string, range: DateRange)

  const ResetCaption := "Reset"
  const Placeholder := "Select Date Range"

  /** `shortcuts`: four computed ranges, then "Reset", which clears both ends. */
  function Shortcuts(thisWeek: DateRange, lastWeek: DateRange, last7Days: DateRange, currentMonth: DateRange)
    : (r: seq<Shortcut>)
    ensures |r| == 5 && r[4] == Shortcut(ResetCaption, DateRange(None, None))
    ensures forall i :: 0 <= i < 4 ==> r[i].caption != ResetCaption && r[i].caption != Placeholder
  {
    [Shortcut("This Week", thisWeek), Shortcut("Last Week", lastWeek),
     Shortcut("Last 7 Days", last7Days), Shortcut("Current Month", currentMonth),
     Shortcut(ResetCaption, DateRange(None, None))]
  }

  // ---------------------------------------------------------------------
  // Handlers

  /** `handleStartDateChange`: a new start, the end kept. */
  function StartDateChange(range: DateRange, date: Option<Moment>): (r: DateRange)
    ensures r.start == date && r.end == range.end
  {
    DateRange(date, range.end)
  }

  /** `handleEndDateChange`: a new end, the start kept. */
  function EndDateChange(range: DateRange, date: Option<Moment>): (r: DateRange)
    ensures r.end == date && r.start == range.start
  {
    DateRange(range.start, date)
  }

  /** Picking a start and then an end, in either order, stores both. */
  lemma HandlersCommute(range: DateRange, s: Option<Moment>, e: Option<Moment>)
    ensures EndDateChange(StartDateChange(range, s), e) == DateRange(s, e)
    ensures StartDateChange(EndDateChange(range, e), s) == DateRange(s, e)
  {
  }

  /** `handleShortcutClick`: the shortcut's range replaces the state's, and
      nothing else in the UI state changes. */
  function ShortcutClick(state: UIState, sc: Shortcut): (r: UIState)
    ensures r.dateRange == sc.range && r.playground == state.playground
  {
    Apply(state, SetDateRange(sc.range))
  }

  // ---------------------------------------------------------------------
  // The trigger's label

  /** Both ends set and on the same days as the shortcut's two ends. */
  predicate MatchesShortcut(range: DateRange, sc: Shortcut) {
    range.start.Some? && range.end.Some? && sc.range.start.Some? && sc.range.end.Some?
    && SameDay(range.start.value, sc.range.start.value) && SameDay(range.end.value, sc.range.end.value)
  }

  /** A shortcut the label loop stops at: not "Reset", and matching the range. */
  predicate Candidate(range: DateRange, sc: Shortcut) {
    sc.caption != ResetCaption && MatchesShortcut(range, sc)
  }

  /** None of the first `n` shortcuts is a candidate. */
  predicate NoCandidateBefore(range: DateRange, shortcuts: seq<Shortcut>, n: int)
    requires 0 <= n <= |shortcuts|
  {
    forall j :: 0 <= j < n ==> !Candidate(range, shortcuts[j])
  }

  lemma NoCandidateCons(range: DateRange, shortcuts: seq<Shortcut>, n: int)
    requires 1 <= n <= |shortcuts|
    ensures NoCandidateBefore(range, shortcuts, n)
      <==> !Candidate(range, shortcuts[0]) && NoCandidateBefore(range, shortcuts[1..], n - 1)
  {
    assert forall j :: 1 <= j < n ==> shortcuts[1..][j - 1] == shortcuts[j];
  }

  /** The loop over the shortcuts: the caption of the first candidate. */
  function FirstMatch(range: DateRange, shortcuts: seq<Shortcut>): (r: Option<string>)
    ensures r.None? <==> NoCandidateBefore(range, shortcuts, |shortcuts|)
    ensures r.Some? ==> exists i :: (0 <= i < |shortcuts| && shortcuts[i].caption == r.value
      && Candidate(range, shortcuts[i]) && NoCandidateBefore(range, shortcuts, i))
    decreases |shortcuts|
  {
    if shortcuts == [] then None
    else if Candidate(range, shortcuts[0]) then
      Some(shortcuts[0].caption)
    else
      var rest := shortcuts[1..];
      var r := FirstMatch(range, rest);
      NoCandidateCons(range, shortcuts, |shortcuts|);
      if r.Some? then
        var i :| (0 <= i < |rest| && rest[i].caption == r.value
          && Candidate(range, rest[i]) && NoCandidateBefore(range, rest, i));
        NoCandidateCons(range, shortcuts, i + 1);
        assert shortcuts[i + 1] == rest[i];
        r
      else r
  }

  /** The label for a range with both ends set that no shortcut matches. */
  function SpanLabel(start: Moment, end: Moment): (r: string)
    ensures SameDay(start, end) ==> r == MonthDay(start.date)
    ensures !SameDay(start, end) ==> |r| > 9 && r[..9] == MonthDay(start.date) + " - "
    ensures !SameDay(start, end) && SameYear(start, end) ==> r[9..] == MonthDay(end.date)
    ensures !SameYear(start, end) ==> r[9..] == MonthDayYear(end.date)
  {
    var startFormatted := MonthDay(start.date);
    if SameDay(start, end) then startFormatted
    else if SameYear(start, end) then startFormatted + " - " + MonthDay(end.date)
    else startFormatted + " - " + MonthDayYear(end.date)
  }

  /** `getCurrentSelectionLabel`. */
  function SelectionLabel(range: DateRange, shortcuts: seq<Shortcut>): (r: string)
    ensures r != ResetCaption
    ensures range.start.None? && range.end.None? ==> r == Placeholder
    ensures FirstMatch(range, shortcuts).Some? ==> r == FirstMatch(range, shortcuts).value
    ensures FirstMatch(range, shortcuts).None? && range.start.Some? && range.end.Some? ==>
      r == SpanLabel(range.start.value, range.end.value)
    ensures range.start.Some? && range.end.None? ==> r == "From " + MonthDay(range.start.value.date)
    ensures range.start.None? && range.end.Some? ==> r == "Until " + MonthDay(range.end.value.date)
  {
    if range.start.None? && range.end.None? then Placeholder
    else match FirstMatch(range, shortcuts)
      case Some(caption) => caption
      case None =>
        if range.start.Some? && range.end.Some? then SpanLabel(range.start.value, range.end.value)
        else if range.start.Some? then "From " + MonthDay(range.start.value.date)
        else "Until " + MonthDay(range.end.value.date)
  }

  /** With the picker's own shortcuts, the placeholder shows exactly when
      neither end is set. */
  lemma PlaceholderIffEmpty(range: DateRange, a: DateRange, b: DateRange, c: DateRange, d: DateRange)
    ensures SelectionLabel(range, Shortcuts(a, b, c, d)) == Placeholder
      <==> range.start.None? && range.end.None?
  {
    var shortcuts := Shortcuts(a, b, c, d);
    var r := SelectionLabel(range, shortcuts);
    if !(range.start.None? && range.end.None?) {
      match FirstMatch(range, shortcuts)
      case Some(caption) =>
        var i :| 0 <= i < |shortcuts| && shortcuts[i].caption == caption && Candidate(range, shortcuts[i]);
      case None =>
        if range.start.Some? && range.end.Some? {
          var md := MonthDay(range.start.value.date);
          MonthAbbrevNotSel(range.start.value.date.month);
          assert |r| == 6 || r[..6] == md;
          assert md[..3] != Placeholder[..3];
        } else {
          assert r[0] != Placeholder[0];
        }
    }
  }

  lemma MonthAbbrevNotSel(m: Month)
    ensures MonthAbbrev(m) != Placeholder[..3]
  {
    assert Placeholder[..3] == "Sel";
  }

  /** Clicking "Reset" brings the placeholder back. */
  lemma ResetShowsPlaceholder(state: UIState, a: DateRange, b: DateRange, c: DateRange, d: DateRange)
    ensures var shortcuts := Shortcuts(a, b, c, d);
      SelectionLabel(ShortcutClick(state, shortcuts[4]).dateRange, shortcuts) == Placeholder
  {
  }

  /** Clicking a computed shortcut whose two ends are set shows a shortcut
      caption: its own, or that of an earlier shortcut covering the same days. */
  lemma ShortcutShowsCaption(state: UIState, a: DateRange, b: DateRange, c: DateRange, d: DateRange, k: int)
    requires 0 <= k < 4
    requires var sc := Shortcuts(a, b, c, d)[k]; sc.range.start.Some? && sc.range.end.Some?
    ensures var shortcuts := Shortcuts(a, b, c, d);
      exists j :: 0 <= j <= k && SelectionLabel(ShortcutClick(state, shortcuts[k]).dateRange, shortcuts)
        == shortcuts[j].caption
  {
    var shortcuts := Shortcuts(a, b, c, d);
    var range := shortcuts[k].range;
    assert MatchesShortcut(range, shortcuts[k]);
    var m := FirstMatch(range, shortcuts);
    assert Candidate(range, shortcuts[k]);
    var i :| (0 <= i < |shortcuts| && shortcuts[i].caption == m.value
      && Candidate(range, shortcuts[i]) && NoCandidateBefore(range, shortcuts, i));
    assert i <= k;
  }
}

=== FILE: dates.dfy ===
/**
 * Calendar dates as the date pickers hand them over: a civil
 * (year, month, day) triple and a moment on that day, with the
 * `YYYY-MM-DD`, `MMM DD` and `MMM DD, YYYY` formats (English month
 * abbreviations) the components print. Dates are not validated against
 * month lengths: nothing here depends on it.
 */
module Dates {
  import opened JsText

  type Month = m: int | 1 <= m <= 12 witness 1
  type Day = d: int | 1 <= d <= 31 witness 1

  datatype CivilDate = CivilDate(year: nat, month: Month, day: Day)

  /** A picked instant: its calendar day and the milliseconds into that day. */
  datatype Moment = Moment(date: CivilDate, msOfDay: nat)

  /** `a.isSame(b, "day")`. */
  predicate SameDay(a: Moment, b: Moment) {
    a.date == b.date
  }

  /** `a.isSame(b, "year")`. */
  predicate SameYear(a: Moment, b: Moment) {
    a.date.year == b.date.year
  }

  function MonthAbbrev(m: Month): (r: string)
    ensures |r| == 3
  {
    ["Jan", "Feb", "Mar", "Apr", "May", "Jun", "Jul", "Aug", "Sep", "Oct", "Nov", "Dec"][m - 1]
  }

  lemma MonthAbbrevInjective(a: Month, b: Month)
    requires MonthAbbrev(a) == MonthAbbrev(b)
    ensures a == b
  {
  }

  /** `String(n).padStart(2, "0")` for a number below 100. */
  function TwoDigits(n: nat): (r: string)
    requires n < 100
    ensures |r| == 2 && AllDigits(r)
  {
    [DigitChar(n / 10), DigitChar(n % 10)]
  }

  /** `String(n).padStart(4, "0")` for a number below 10000. */
  function FourDigits(n: nat): (r: string)
    requires n < 10000
    ensures |r| == 4 && AllDigits(r)
  {
    TwoDigits(n / 100) + TwoDigits(n % 100)
  }

  /** `YYYY`: the year padded to four digits; a longer year, whose decimal
      is already wider than that, prints in full. */
  function YearText(y: nat): (r: string)
    ensures AllDigits(r) && r != []
    ensures y < 10000 ==> |r| == 4
  {
    if y < 10000 then FourDigits(y) else NatToDecimal(y)
  }

  /** `format("MMM DD")`. */
  function MonthDay(d: CivilDate): (r: string)
    ensures |r| == 6 && r[3] == ' '
    ensures r[..3] == MonthAbbrev(d.month)
  {
    MonthAbbrev(d.month) + " " + TwoDigits(d.day)
  }

  /** `format("MMM DD, YYYY")`. */
  function MonthDayYear(d: CivilDate): (r: string)
    ensures |r| > 8 && r[..6] == MonthDay(d) && r[6..8] == ", "
  {
    MonthDay(d) + ", " + YearText(d.year)
  }

  /** `format("YYYY-MM-DD")`. */
  function IsoDate(d: CivilDate): (r: string)
    ensures d.year < 10000 ==> |r| == 10 && r[4] == '-' && r[7] == '-'
  {
    YearText(d.year) + "-" + TwoDigits(d.month) + "-" + TwoDigits(d.day)
  }

  /** Two-digit padding agrees with `padStart` on the shortest decimal. */
  lemma TwoDigitsIsPadded(n: nat)
    requires n < 100
    ensures TwoDigits(n) == PadZeros(NatToDecimal(n), 2)
  {
    if n < 10 {
      OneDigitPadded(n);
    } else {
      TwoDigitDecimal(n);
    }
  }

  lemma OneDigitPadded(n: nat)
    requires n < 10
    ensures TwoDigits(n) == PadZeros(NatToDecimal(n), 2)
  {
    var s := NatToDecimal(n);
    assert s == [DigitChar(n)];
    assert PadZeros(s, 2) == PadZeros("0" + s, 2) == "0" + s;
    assert DigitChar(0) == '0';
  }

  lemma TwoDigitDecimal(n: nat)
    requires 10 <= n < 100
    ensures TwoDigits(n) == PadZeros(NatToDecimal(n), 2)
  {
    assert NatToDecimal(n / 10) == [DigitChar(n / 10)];
    assert NatToDecimal(n) == [DigitChar(n / 10)] + [DigitChar(n % 10)];
  }

  lemma TwoDigitsValue(n: nat)
    requires n < 100
    ensures DigitsValue(TwoDigits(n)) == n
  {
    var r := TwoDigits(n);
    assert r[..1] == [DigitChar(n / 10)];
    assert r[..1][..0] == [];
    assert DigitsValue(r[..1]) == n / 10;
    assert DigitsValue(r) == DigitsValue(r[..1]) * 10 + n % 10;
  }

  lemma FourDigitsValue(n: nat)
    requires n < 10000
    ensures DigitsValue(FourDigits(n)) == n
  {
    var hi, lo := TwoDigits(n / 100), TwoDigits(n % 100);
    var r := hi + lo;
    TwoDigitsValue(n / 100);
    TwoDigitsValue(n % 100);
    assert r[..3] == hi + lo[..1];
    assert r[..3][..2] == hi;
    assert lo[..1][..0] == [];
    assert DigitsValue(lo) == DigitsValue(lo[..1]) * 10 + (lo[1] as int - '0' as int);
    assert DigitsValue(r[..3]) == DigitsValue(hi) * 10 + (lo[0] as int - '0' as int);
  }

  /** Reads a `YYYY-MM-DD` string back into its three numbers. */
  function IsoFields(s: string): (nat, nat, nat)
    requires |s| == 10 && AllDigits(s[..4]) && AllDigits(s[5..7]) && AllDigits(s[8..])
  {
    (DigitsValue(s[..4]), DigitsValue(s[5..7]), DigitsValue(s[8..]))
  }

  /** The `YYYY-MM-DD` text of a date of a four-digit year gives the date back. */
  lemma IsoDateRoundTrip(d: CivilDate)
    requires d.year < 10000
    ensures var s := IsoDate(d);
      |s| == 10 && AllDigits(s[..4]) && AllDigits(s[5..7]) && AllDigits(s[8..])
      && IsoFields(s) == (d.year, d.month as nat, d.day as nat)
  {
    var y, m, dd := FourDigits(d.year), TwoDigits(d.month), TwoDigits(d.day);
    var s := IsoDate(d);
    assert s == y + "-" + m + "-" + dd;
    assert s[..4] == y && s[5..7] == m && s[8..] == dd;
    FourDigitsValue(d.year);
    TwoDigitsValue(d.month);
    TwoDigitsValue(d.day);
  }

  /** Two dates of four-digit years print the same `YYYY-MM-DD` text only if they are equal. */
  lemma IsoDateInjective(a: CivilDate, b: CivilDate)
    requires a.year < 10000 && b.year < 10000
    requires IsoDate(a) == IsoDate(b)
    ensures a == b
  {
    IsoDateRoundTrip(a);
    IsoDateRoundTrip(b);
  }
}

=== FILE: error_display.dfy ===
/**
 * The error box (src/components/ErrorDisplay.tsx): which messages it lists
 * for the kinds of `error` it accepts, and its title.
 */
module ErrorDisplay {
  import opened Wrappers

  /** `string | string[] | Error | null`. */
  datatype ErrorProp =
    | NoError
    | Message(text: string)
    | Messages(texts: seq<string>)
    | ErrorObject(message: string)

  /** What is rendered: nothing, or an alert with a title and a list. */
  datatype Alert = Alert(title: string, messages: seq<string>)

  /** `!error`: null and the empty string are falsy; arrays and `Error`
      objects never are, even when empty. */
  predicate Falsy(e: ErrorProp) {
    e.NoError? || e == Message("")
  }

  /** `ErrorDisplay({error, title = "Error"})`. */
  function Render(error: ErrorProp, title: Option<string>): (r: Option<Alert>)
    ensures r.None? <==> Falsy(error)
    ensures r.Some? ==> r.value.title == (if title.Some? then title.value else "Error")
    ensures error.Messages? ==> r.Some? && r.value.messages == error.texts
    ensures error.ErrorObject? ==> r.Some? && r.value.messages == [error.message]
    ensures error.Message? && !Falsy(error) ==> r.Some? && r.value.messages == [error.text]
  {
    if Falsy(error) then None
    else
      var t := match title case Some(t) => t case None => "Error";
      var messages := match error
        case Messages(ms) => ms
        case ErrorObject(m) => [m]
        case Message(s) => [s]
        case NoError => [];
      Some(Alert(t, messages))
  }

  /** Every truthy error lists at least one message, except an empty array,
      which still shows the title over an empty list. */
  lemma EmptyListStillRendered(title: Option<string>)
    ensures Render(Messages([]), title).Some? && Render(Messages([]), title).value.messages == []
  {
  }

  /** A non-empty string, a one-element array holding it and an `Error`
      carrying it as its message all render the same alert. */
  lemma OneMessageThreeWays(text: string, title: Option<string>)
    requires text != ""
    ensures Render(Message(text), title) == Render(Messages([text]), title)
    ensures Render(ErrorObject(text), title) == Render(Messages([text]), title)
  {
  }

  /** The empty string shows nothing, while an `Error` whose message is
      empty is truthy and shows the title over one empty line. */
  lemma EmptyTextVersusEmptyError(title: Option<string>)
    ensures Render(Message(""), title).None?
    ensures Render(ErrorObject(""), title).Some? && Render(ErrorObject(""), title).value.messages == [""]
  {
  }

  lemma SingleMessageListed(error: ErrorProp, title: Option<string>)
    requires !Falsy(error) && !error.Messages?
    ensures |Render(error, title).value.messages| == 1
  {
  }
}

=== FILE: filter_state.dfy ===
/**
 * Filter state shared by both records tables (src/components/RecordsTable.tsx
 * and src/components/dashboard/RecordsTable.tsx): the map from filter field
 * to selected value, the update both tables apply when one filter changes,
 * dropdown entries, and the text their date pickers store.
 */
module FilterState {
  import opened Wrappers
  import opened JsText
  import opened Dates

  /** A table's `filterValues`: filter field to selected value. */
  type FilterValues = map<string, string>

  /** `filterValues[k]`: a missing entry reads as `undefined`, which the
      filter treats exactly like the empty string (both are falsy and are
      only ever tested for truthiness before being compared). */
  function Selected(fv: FilterValues, k: string): string {
    if k in fv then fv[k] else ""
  }

  /** What one filter change does: the table's new state, and the map
      handed to the page's `onFilterChange` callback when there is one. */
  datatype FilterChange = FilterChange(next: FilterValues, notified: Option<FilterValues>)

  /** `handleFilterChange(field, value)`. */
  function HandleFilterChange(fv: FilterValues, field: string, value: string, hasCallback: bool)
    : (r: FilterChange)
    ensures Selected(r.next, field) == value && field in r.next
    ensures forall k :: k != field ==> (k in r.next <==> k in fv)
    ensures forall k :: k != field && k in fv ==> r.next[k] == fv[k]
    ensures r.notified == if hasCallback then Some(r.next) else None
  {
    var next := fv[field := value];
    FilterChange(next, if hasCallback then Some(next) else None)
  }

  /** What a reset does: the new state, and whether `onResetFilters` is called. */
  datatype FilterReset = FilterReset(next: FilterValues, callbackCalled: bool)

  /** `dateFilter && dateFilter.trim() !== ""`. */
  predicate DateFilterActive(d: string) {
    d != "" && Trim(d) != ""
  }

  lemma DateFilterActiveIffNotBlank(d: string)
    ensures DateFilterActive(d) <==> !IsBlank(d)
  {
    TrimEmptyIffBlank(d);
  }

  /** `filter && filter !== "All"`, for the batch and status filters of both pages. */
  predicate ChoiceFilterActive(v: string) {
    v != "" && v != "All"
  }

  /** A dropdown entry. */
  datatype SelectOption = SelectOption(value: string, caption: string)

  /** The value the date picker stores: `date ? date.format("YYYY-MM-DD") : ""`. */
  function PickedDate(picked: Option<Moment>): (r: string)
    ensures picked.None? <==> r == ""
    ensures picked.Some? ==> r == IsoDate(picked.value.date)
  {
    match picked
    case None => ""
    case Some(m) => IsoDate(m.date)
  }
}

=== FILE: js_text.dfy ===
/** String primitives of the JavaScript runtime that the dashboard relies on:
    the `\s` / `trim()` whitespace class, `String.prototype.includes`, ASCII
    case mapping, and the decimal printing and `parseInt(s, 10)` of integers. */
module JsText {
  import opened Wrappers

  /** The characters matched by the regular-expression class `\s`, which is
      also the set `String.prototype.trim` and `parseInt` skip:
      WhiteSpace (TAB, VT, FF, SP, NBSP, ZWNBSP, every Zs character) and
      LineTerminator (LF, CR, LS, PS). */
  predicate IsJsSpace(c: char) {
    c == '\t' || c == '\n' || c == '\U{000B}' || c == '\U{000C}' || c == '\r' || c == ' '
    || c == '\U{00A0}' || c == '\U{1680}' || ('\U{2000}' <= c <= '\U{200A}')
    || c == '\U{2028}' || c == '\U{2029}' || c == '\U{202F}' || c == '\U{205F}'
    || c == '\U{3000}' || c == '\U{FEFF}'
  }

  predicate NoJsSpace(s: string) {
    forall i :: 0 <= i < |s| ==> !IsJsSpace(s[i])
  }

  /** `s.replace(/\s/g, "")`: every whitespace character removed. */
  function RemoveJsSpaces(s: string): (r: string)
    ensures NoJsSpace(r)
    ensures forall c :: c in r <==> c in s && !IsJsSpace(c)
    ensures NoJsSpace(s) ==> r == s
    ensures |r| <= |s|
  {
    if s == [] then []
    else if IsJsSpace(s[0]) then RemoveJsSpaces(s[1..])
    else [s[0]] + RemoveJsSpaces(s[1..])
  }

  lemma {:induction false} RemoveJsSpacesAppend(a: string, b: string)
    ensures RemoveJsSpaces(a + b) == RemoveJsSpaces(a) + RemoveJsSpaces(b)
    decreases |a|
  {
    if a == [] {
      assert a + b == b;
    } else {
      assert (a + b)[1..] == a[1..] + b;
      RemoveJsSpacesAppend(a[1..], b);
    }
  }

  function TrimStart(s: string): (r: string)
    ensures |r| <= |s| && r == s[|s| - |r|..]
    ensures r == [] || !IsJsSpace(r[0])
    ensures forall i :: 0 <= i < |s| - |r| ==> IsJsSpace(s[i])
  {
    if s != [] && IsJsSpace(s[0]) then TrimStart(s[1..]) else s
  }

  function TrimEnd(s: string): (r: string)
    ensures |r| <= |s| && r == s[..|r|]
    ensures r == [] || !IsJsSpace(r[|r| - 1])
    ensures forall i :: |r| <= i < |s| ==> IsJsSpace(s[i])
  {
    if s != [] && IsJsSpace(s[|s| - 1]) then TrimEnd(s[..|s| - 1]) else s
  }

  /** `String.prototype.trim`. */
  function Trim(s: string): string {
    TrimEnd(TrimStart(s))
  }

  predicate IsBlank(s: string) {
    forall i :: 0 <= i < |s| ==> IsJsSpace(s[i])
  }

  /** `s.trim() !== ""` exactly when `s` holds a non-whitespace character. */
  lemma TrimEmptyIffBlank(s: string)
    ensures Trim(s) == "" <==> IsBlank(s)
  {
    var t := TrimStart(s);
    if t != [] {
      assert t[0] == s[|s| - |t|];
      assert IsJsSpace(t[0]) || TrimEnd(t) != [];
    }
  }

  predicate IsPrefix(p: string, s: string) {
    |p| <= |s| && s[..|p|] == p
  }

  /** `s.includes(sub)`: `sub` occurs in `s` as a contiguous substring. */
  predicate Includes(s: string, sub: string)
    decreases |s|
  {
    IsPrefix(sub, s) || (s != [] && Includes(s[1..], sub))
  }

  /** `sub` sits in `s` at offset `i`. */
  predicate WindowAt(s: string, sub: string, i: int) {
    0 <= i && i + |sub| <= |s| && s[i..i + |sub|] == sub
  }

  /** An independent statement of `Includes`: some window of `s` equals `sub`. */
  lemma {:induction false} IncludesIffWindow(s: string, sub: string)
    ensures Includes(s, sub) <==> exists i :: WindowAt(s, sub, i)
    decreases |s|
  {
    if IsPrefix(sub, s) {
      assert WindowAt(s, sub, 0);
    } else if s != [] {
      IncludesIffWindow(s[1..], sub);
      if exists i :: WindowAt(s, sub, i) {
        var i :| WindowAt(s, sub, i);
        assert i != 0;
        assert s[1..][i - 1..i - 1 + |sub|] == s[i..i + |sub|];
        assert WindowAt(s[1..], sub, i - 1);
      }
      if Includes(s[1..], sub) {
        var j :| WindowAt(s[1..], sub, j);
        assert s[1..][j..j + |sub|] == s[j + 1..j + 1 + |sub|];
        assert WindowAt(s, sub, j + 1);
      }
    }
  }

  /** Whatever contains `sub` contains every prefix of `sub`. */
  lemma {:induction false} IncludesPrefixOf(s: string, sub: string, pre: string)
    requires IsPrefix(pre, sub) && Includes(s, sub)
    ensures Includes(s, pre)
    decreases |s|
  {
    if IsPrefix(sub, s) {
      assert s[..|pre|] == s[..|sub|][..|pre|];
    } else {
      IncludesPrefixOf(s[1..], sub, pre);
    }
  }

  predicate IsAsciiUpper(c: char) { 'A' <= c <= 'Z' }

  predicate IsAsciiLower(c: char) { 'a' <= c <= 'z' }

  /** `toUpperCase` on one character, for the ASCII letters. */
  function UpperChar(c: char): (r: char)
    ensures IsAsciiLower(c) ==> IsAsciiUpper(r) && r as int == c as int - 32
    ensures !IsAsciiLower(c) ==> r == c
  {
    if IsAsciiLower(c) then (c as int - 32) as char else c
  }

  function LowerChar(c: char): (r: char)
    ensures IsAsciiUpper(c) ==> IsAsciiLower(r) && r as int == c as int + 32
    ensures !IsAsciiUpper(c) ==> r == c
  {
    if IsAsciiUpper(c) then (c as int + 32) as char else c
  }

  /** `toLowerCase`, for the ASCII letters. */
  function Lower(s: string): (r: string)
    ensures |r| == |s|
    ensures forall i :: 0 <= i < |s| ==> r[i] == LowerChar(s[i])
  {
    if s == [] then [] else [LowerChar(s[0])] + Lower(s[1..])
  }

  // ---------------------------------------------------------------------
  // Decimal digits

  predicate IsDigit(c: char) { '0' <= c <= '9' }

  predicate AllDigits(s: string) {
    forall i :: 0 <= i < |s| ==> IsDigit(s[i])
  }

  function DigitChar(d: nat): (c: char)
    requires d < 10
    ensures IsDigit(c) && c as int - '0' as int == d
  {
    ('0' as int + d) as char
  }

  /** The shortest decimal spelling of a natural number, as `Number.prototype.toString`
      prints a non-negative safe integer. */
  function NatToDecimal(n: nat): (r: string)
    ensures r != [] && AllDigits(r)
    ensures |r| > 1 ==> r[0] != '0'
    ensures n < 10 <==> |r| == 1
    decreases n
  {
    if n < 10 then [DigitChar(n)] else NatToDecimal(n / 10) + [DigitChar(n % 10)]
  }

  /** `String(n)` for an integer: a minus sign for negative values (`-0` prints as `0`). */
  function IntToDecimal(n: int): (r: string)
    ensures r != [] && r[0] != '-' ==> n >= 0 && AllDigits(r)
    ensures n < 0 ==> |r| >= 2 && r[0] == '-' && AllDigits(r[1..])
    ensures NoJsSpace(r)
  {
    if n < 0 then "-" + NatToDecimal(-n) else NatToDecimal(n)
  }

  /** The value of a string of decimal digits, most significant first. */
  function DigitsValue(s: string): (v: nat)
    requires AllDigits(s)
    decreases |s|
  {
    if s == [] then 0 else DigitsValue(s[..|s| - 1]) * 10 + (s[|s| - 1] as int - '0' as int)
  }

  lemma {:induction false} DigitsValueOfDecimal(n: nat)
    ensures DigitsValue(NatToDecimal(n)) == n
    decreases n
  {
    if n >= 10 {
      var d := NatToDecimal(n);
      assert d[..|d| - 1] == NatToDecimal(n / 10);
      DigitsValueOfDecimal(n / 10);
    }
  }

  /** The longest prefix of `s` made of decimal digits. */
  function DigitPrefix(s: string): (r: string)
    ensures AllDigits(r) && IsPrefix(r, s)
    ensures |r| == |s| || !IsDigit(s[|r|])
    ensures AllDigits(s) ==> r == s
  {
    if s != [] && IsDigit(s[0]) then [s[0]] + DigitPrefix(s[1..]) else []
  }

  /** What `parseInt` reads digits from: the string after its sign character, if any. */
  function Unsigned(t: string): string {
    if t != [] && (t[0] == '+' || t[0] == '-') then t[1..] else t
  }

  /** `parseInt(s, 10)` on a safe integer: leading whitespace skipped, an
      optional sign, then the longest run of decimal digits; `None` stands for
      `NaN`, returned when that run is empty. */
  function ParseInt(s: string): (r: Option<int>)
    ensures r.None? <==> !(Unsigned(TrimStart(s)) != [] && IsDigit(Unsigned(TrimStart(s))[0]))
  {
    var t := TrimStart(s);
    var digits := DigitPrefix(Unsigned(t));
    var magnitude: int := if digits == [] then 0 else DigitsValue(digits);
    if digits == [] then None
    else if t[0] == '-' then Some(-magnitude)
    else Some(magnitude)
  }

  lemma TrimStartUnchanged(s: string)
    requires s != [] && !IsJsSpace(s[0])
    ensures TrimStart(s) == s
  {
  }

  /** `parseInt` on a string with no leading whitespace whose digits follow an optional sign. */
  lemma ParseIntOfSignedDigits(negative: bool, d: string)
    requires d != [] && AllDigits(d)
    ensures var v: int := DigitsValue(d);
            ParseInt((if negative then "-" else "") + d) == Some(if negative then -v else v)
  {
    assert IsDigit(d[0]);
    if negative {
      var s := "-" + d;
      assert s[0] == '-' && s[1..] == d;
      TrimStartUnchanged(s);
      assert Unsigned(s) == d;
    } else {
      assert "" + d == d;
      TrimStartUnchanged(d);
      assert Unsigned(d) == d;
    }
  }

  /** Printing an integer and parsing it back gives the integer. */
  lemma ParseIntOfDecimal(n: int)
    ensures ParseInt(IntToDecimal(n)) == Some(n)
  {
    var m: nat := if n < 0 then -n else n;
    DigitsValueOfDecimal(m);
    if n < 0 {
      ParseIntOfSignedDigits(true, NatToDecimal(m));
    } else {
      assert "" + NatToDecimal(m) == NatToDecimal(m);
      ParseIntOfSignedDigits(false, NatToDecimal(m));
    }
  }

  /** Zero-padding on the left to `width` characters, as `padStart(width, "0")`. */
  function PadZeros(s: string, width: nat): (r: string)
    ensures |r| == if |s| >= width then |s| else width
    ensures r[|r| - |s|..] == s
    ensures forall i :: 0 <= i < |r| - |s| ==> r[i] == '0'
    decreases width - |s|
  {
    if |s| >= width then s else PadZeros("0" + s, width)
  }
}

=== FILE: js_values.dfy ===
/** The JavaScript values the dashboard's records and request payloads hold,
    JavaScript truthiness, `String(v)`, and plain objects as ordered key/value
    lists with property lookup, property assignment and object spread. */
module JsValues {
  import opened Wrappers
  import opened JsText

  /** What `Date.prototype.toString` prints: host-dependent, but never
      empty ("Invalid Date" for an invalid instant). */
  type DateText = s: string | s != "" witness "Invalid Date"

  /** A JavaScript primitive or `Date`. Numbers are integers, unbounded
      here; a `Date` carries its instant and the text `toString()` prints. */
  datatype Value =
    | Undefined
    | Null
    | Bool(b: bool)
    | Num(n: int)
    | Str(s: string)
    | DateObj(epochMs: int, text: DateText)

  /** `Boolean(v)`: false exactly for undefined, null, false, 0 and "". */
  predicate Truthy(v: Value) {
    match v
    case Undefined => false
    case Null => false
    case Bool(b) => b
    case Num(n) => n != 0
    case Str(s) => s != ""
    case DateObj(_, _) => true
  }

  predicate Nullish(v: Value) {
    v.Undefined? || v.Null?
  }

  /** `String(v)`, which is also what a template literal and `v.toString()` produce. */
  function ToString(v: Value): (r: string)
    ensures v.Str? ==> r == v.s
    ensures v.Num? ==> ParseInt(r) == Some(v.n)
    ensures Truthy(v) ==> r != ""
  {
    match v
    case Undefined => "undefined"
    case Null => "null"
    case Bool(b) => if b then "true" else "false"
    case Num(n) => ParseIntOfDecimal(n); IntToDecimal(n)
    case Str(s) => s
    case DateObj(_, text) => text
  }

  datatype Field = Field(key: string, value: Value)

  /** No key occurs twice; stated head-first so that each use unfolds it one step. */
  predicate NoRepeats(ks: seq<string>)
    decreases |ks|
  {
    ks == [] || (ks[0] !in ks[1..] && NoRepeats(ks[1..]))
  }

  predicate DistinctKeys(fields: seq<Field>) {
    NoRepeats(Keys(fields))
  }

  lemma {:induction false} NoRepeatsAppend(ks: seq<string>, k: string)
    requires NoRepeats(ks) && k !in ks
    ensures NoRepeats(ks + [k])
    decreases |ks|
  {
    if ks != [] {
      assert (ks + [k])[1..] == ks[1..] + [k];
      NoRepeatsAppend(ks[1..], k);
    }
  }

  lemma {:induction false} NoRepeatsDistinct(ks: seq<string>, i: int, j: int)
    requires NoRepeats(ks) && 0 <= i < j < |ks|
    ensures ks[i] != ks[j]
    decreases |ks|
  {
    if i == 0 {
      assert ks[j] == ks[1..][j - 1];
    } else {
      NoRepeatsDistinct(ks[1..], i - 1, j - 1);
    }
  }

  lemma KeysTail(o: seq<Field>)
    requires o != []
    ensures Keys(o[1..]) == Keys(o)[1..]
  {
  }

  lemma KeysCons(f: Field, t: seq<Field>)
    ensures Keys([f] + t) == [f.key] + Keys(t)
  {
  }

  /** Looking up a property of a non-empty object: its first property, or the rest. */
  lemma GetCons(o: JsObject, k: string)
    requires o != []
    ensures Get(o, k) == if o[0].key == k then o[0].value else Get(Rest(o), k)
  {
  }

  /** The object without its first property. */
  function Rest(o: JsObject): (t: JsObject)
    requires o != []
    ensures t == o[1..] && Keys(t) == Keys(o)[1..]
  {
    KeysTail(o);
    o[1..]
  }

  /** A plain object: its own enumerable properties in `Object.keys` order. */
  type JsObject = fields: seq<Field> | DistinctKeys(fields) witness []

  function Keys(o: seq<Field>): (ks: seq<string>)
    ensures |ks| == |o|
    ensures forall i :: 0 <= i < |o| ==> ks[i] == o[i].key
  {
    seq(|o|, i requires 0 <= i < |o| => o[i].key)
  }

  /** `o[k]`: the value stored under `k`, or `undefined` when `o` has no such property. */
  function Get(o: JsObject, k: string): (v: Value)
    ensures k !in Keys(o) ==> v == Undefined
    ensures forall i :: 0 <= i < |o| && o[i].key == k ==> v == o[i].value
  {
    if o == [] then Undefined
    else
      var tail := Rest(o);
      if o[0].key == k then
        assert forall i :: 0 < i < |o| ==> o[i].key == Keys(o)[1..][i - 1];
        o[0].value
      else Get(tail, k)
  }

  /** `o[k] = v`: overwrites in place when `k` exists, otherwise appends a property. */
  function Assign(o: JsObject, k: string, v: Value): (r: JsObject)
    ensures Keys(r) == if k in Keys(o) then Keys(o) else Keys(o) + [k]
    decreases |o|
  {
    if o == [] then Object1(k, v)
    else
      var tail := Rest(o);
      KeysCons(o[0], tail);
      if o[0].key == k then
        KeysCons(Field(k, v), tail);
        [Field(k, v)] + tail
      else
        var t := Assign(tail, k, v);
        KeysCons(o[0], t);
        assert o[0].key !in Keys(t);
        [o[0]] + t
  }

  /** After `o[k] = v`, `k` reads `v` and every other property reads as before. */
  lemma {:induction false} AssignGet(o: JsObject, k: string, v: Value, k': string)
    ensures Get(Assign(o, k, v), k') == if k' == k then v else Get(o, k')
    decreases |o|
  {
    var r := Assign(o, k, v);
    if o != [] {
      var tail := Rest(o);
      GetCons(o, k');
      GetCons(r, k');
      if o[0].key != k {
        assert Rest(r) == Assign(tail, k, v);
        AssignGet(tail, k, v, k');
      } else {
        assert Rest(r) == tail;
      }
    }
  }

  /** `{...o, ...src}`: the properties of `src` assigned onto `o` in `src`'s key order.
      Spreading `null`/`undefined` is written with `src == []`. */
  function Spread(o: JsObject, src: JsObject): (r: JsObject)
    ensures |o| <= |r| <= |o| + |src|
    decreases |src|
  {
    if src == [] then o
    else
      var tail := Rest(src);
      Spread(Assign(o, src[0].key, src[0].value), tail)
  }

  /** A spread property comes from `src` when `src` has it, from `o` otherwise. */
  lemma {:induction false} SpreadGet(o: JsObject, src: JsObject, k: string)
    ensures Get(Spread(o, src), k) == if k in Keys(src) then Get(src, k) else Get(o, k)
    decreases |src|
  {
    if src != [] {
      var tail := Rest(src);
      var a := Assign(o, src[0].key, src[0].value);
      SpreadGet(a, tail, k);
      AssignGet(o, src[0].key, src[0].value, k);
      GetCons(src, k);
      assert src[0].key !in Keys(tail);
      assert k in Keys(src) <==> k == src[0].key || k in Keys(tail);
      assert k in Keys(tail) ==> Get(tail, k) == Get(src, k);
    }
  }

  /** Spreading keeps `o`'s keys first, in order. */
  lemma {:induction false} SpreadKeysPrefix(o: JsObject, src: JsObject)
    ensures Keys(Spread(o, src))[..|o|] == Keys(o)
    decreases |src|
  {
    if src != [] {
      var tail := Rest(src);
      var a := Assign(o, src[0].key, src[0].value);
      SpreadKeysPrefix(a, tail);
      var ka, kr := Keys(a), Keys(Spread(a, tail));
      assert ka[..|o|] == Keys(o);
      assert kr[..|o|] == kr[..|a|][..|o|];
    }
  }

  /** The spread object has exactly the keys of `o` and of `src`. */
  lemma {:induction false} SpreadKeysMembers(o: JsObject, src: JsObject, k: string)
    ensures k in Keys(Spread(o, src)) <==> k in Keys(o) || k in Keys(src)
    decreases |src|
  {
    if src != [] {
      var tail := Rest(src);
      SpreadKeysMembers(Assign(o, src[0].key, src[0].value), tail, k);
      assert k in Keys(src) <==> k == src[0].key || k in Keys(tail);
    }
  }

  /** An object literal `{k1: v1, ...}` with no repeated key. */
  function Object1(k: string, v: Value): (o: JsObject)
    ensures Keys(o) == [k] && Get(o, k) == v
  {
    assert Keys([Field(k, v)]) == [k] && [k][1..] == [];
    assert NoRepeats([k]);
    [Field(k, v)]
  }
}

=== FILE: mock_data.dfy ===
/**
 * The mock records hook (src/hooks/useMockData.ts): the optional batch
 * filter `useMockRecords` applies to the fixture list. The delay and the
 * query cache are not modelled; the fixture list is a parameter.
 */
module MockData {
  import opened Wrappers
  import opened JsValues
  import opened Seqs

  datatype MockOptions = MockOptions(playgroundName: Option<string>, batchNo: Option<string>)

  /** `options?.batchNo && options.batchNo !== "All"`. */
  predicate BatchFilterActive(options: Option<MockOptions>) {
    options.Some? && options.value.batchNo.Some?
    && options.value.batchNo.value != "" && options.value.batchNo.value != "All"
  }

  /** `useMockRecords`' result: a copy of the records, narrowed to one batch
      when a batch other than "All" is asked for. */
  function MockRecords(records: seq<JsObject>, options: Option<MockOptions>): (r: seq<JsObject>)
    ensures !BatchFilterActive(options) ==> r == records
    ensures IsSubsequence(r, records)
    ensures BatchFilterActive(options) ==>
      forall rec :: rec in r <==> rec in records && Get(rec, "batchNo") == Str(options.value.batchNo.value)
  {
    if BatchFilterActive(options) then
      var b := options.value.batchNo.value;
      Filter(records, (rec: JsObject) => Get(rec, "batchNo") == Str(b))
    else
      IsSubsequenceReflexive(records);
      records
  }

  /** The playground name is part of the query key only: it never changes
      the records returned. */
  lemma PlaygroundNameIrrelevant(records: seq<JsObject>, options: MockOptions, name: Option<string>)
    ensures MockRecords(records, Some(options.(playgroundName := name))) == MockRecords(records, Some(options))
  {
  }

  /** Every record of the requested batch is returned, as often as it
      occurs in the fixtures, and nothing else. */
  lemma BatchRecordsCounted(records: seq<JsObject>, options: Option<MockOptions>, rec: JsObject)
    requires BatchFilterActive(options)
    ensures multiset(MockRecords(records, options))[rec]
      == if Get(rec, "batchNo") == Str(options.value.batchNo.value) then multiset(records)[rec] else 0
  {
    var b := options.value.batchNo.value;
    FilterCounts(records, (r: JsObject) => Get(r, "batchNo") == Str(b), rec);
  }
}

=== FILE: records_page.dfy ===
/**
 * The workspace records page (src/pages/workspace/RecordsPage.tsx): the
 * columns it derives from the loaded records, the filter it applies before
 * handing the rows to the table, and its JSON cell.
 *
 * The page's `formatDate` comes from a module that does not define it, so
 * it is a parameter here: any function from a record's date to text.
 */
module RecordsPage {
  import opened Wrappers
  import opened JsText
  import opened JsValues
  import opened Seqs
  import opened Columns
  import opened FilterState

  // ---------------------------------------------------------------------
  // Columns

  /** `getColumnRenderer`: chosen by the lower-cased field name. */
  function PageRenderer(field: string): (r: Option<Renderer>)
    ensures r == Some(StatusBadge) <==> Lower(field) == "status"
    ensures r == Some(DateCell) <==> Lower(field) == "date"
    ensures r == Some(JsonButton) <==> Lower(field) == "json"
  {
    var key := Lower(field);
    if key == "status" then Some(StatusBadge)
    else if key == "date" then Some(DateCell)
    else if key == "json" then Some(JsonButton)
    else None
  }

  function FixedColumn(field: string, header: string): ColumnConfig {
    ColumnConfig(field, header, Some(true), Some(1), None)
  }

  /** The columns shown while there are no records. */
  const FallbackColumns: seq<ColumnConfig> := [
    FixedColumn("referenceNo", "Reference No"),
    FixedColumn("date", "Date"),
    FixedColumn("batchNo", "Batch No"),
    FixedColumn("status", "Status"),
    FixedColumn("result", "Result")]

  /** The column the page derives for one field of the first record. */
  function DataColumn(field: string): (c: ColumnConfig)
    ensures c.field == field && c.sortable == Some(true) && c.flex == Some(1)
  {
    ColumnConfig(field, HeaderName(field), Some(true), Some(1), PageRenderer(field))
  }

  /** `columns`: the fixed five when the records are missing or empty,
      otherwise one column per key of the first record, in key order. */
  function PageColumns(records: Option<seq<JsObject>>): (r: seq<ColumnConfig>)
    ensures records.None? || records.value == [] ==> r == FallbackColumns
    ensures records.Some? && records.value != [] ==>
      |r| == |records.value[0]|
      && forall i :: 0 <= i < |r| ==> r[i] == DataColumn(Keys(records.value[0])[i])
  {
    if records.None? || records.value == [] then FallbackColumns
    else
      var keys := Keys(records.value[0]);
      seq(|keys|, i requires 0 <= i < |keys| => DataColumn(keys[i]))
  }

  /** The fixed fallback headers are exactly what the header transform
      makes of their fields. */
  lemma FallbackMatchesTransform(i: nat)
    requires i < |FallbackColumns|
    ensures FallbackColumns[i].headerName == HeaderName(FallbackColumns[i].field)
  {
    if i == 0 {
      ReferenceNoHeader();
    } else if i == 1 {
      DateHeader();
    } else if i == 2 {
      BatchNoHeader();
    } else if i == 3 {
      StatusHeader();
    } else {
      ResultHeader();
    }
  }

  /** Every data column's header gives back its field, for fields that do
      not start with a capital. */
  lemma DataColumnHeadersRecoverFields(records: seq<JsObject>, i: int)
    requires records != [] && 0 <= i < |records[0]|
    requires var k := records[0][i].key; k == [] || !IsAsciiUpper(k[0])
    ensures var c := PageColumns(Some(records))[i];
      c.field == records[0][i].key && FieldOfHeader(c.headerName) == c.field
  {
    HeaderNameRoundTrip(records[0][i].key);
  }

  // ---------------------------------------------------------------------
  // Filtering

  /** The page's date condition: the formatted date contains the filter text,
      ignoring case. */
  predicate DateMatches(formatDate: Value -> string, d: string, item: JsObject) {
    Includes(Lower(formatDate(Get(item, "date"))), Lower(d))
  }

  /** One filter step of the page: `p` applied only when `active`. */
  function FilterWhen(xs: seq<JsObject>, active: bool, p: JsObject -> bool): (r: seq<JsObject>)
    ensures IsSubsequence(r, xs)
    ensures !active ==> r == xs
  {
    if active then Filter(xs, p)
    else
      IsSubsequenceReflexive(xs);
      xs
  }

  /** `filteredData`: the date, batch and status filters applied one after
      the other, each only when active. Missing records give no rows. */
  function PageFilteredData(records: Option<seq<JsObject>>, fv: FilterValues, formatDate: Value -> string)
    : (r: seq<JsObject>)
    ensures records.None? ==> r == []
    ensures records.Some? ==> IsSubsequence(r, records.value)
  {
    if records.None? then []
    else
      var d, b, st := Selected(fv, "date"), Selected(fv, "batchNo"), Selected(fv, "status");
      var byDate := FilterWhen(records.value, DateFilterActive(d),
        (item: JsObject) => DateMatches(formatDate, d, item));
      var byBatch := FilterWhen(byDate, ChoiceFilterActive(b),
        (item: JsObject) => Get(item, "batchNo") == Str(b));
      var byStatus := FilterWhen(byBatch, ChoiceFilterActive(st),
        (item: JsObject) => Get(item, "status") == Str(st));
      SubsequenceTransitive(byStatus, byBatch, byDate);
      SubsequenceTransitive(byStatus, byDate, records.value);
      byStatus
  }

  /** The reference condition: all three filters at once. */
  predicate PagePasses(fv: FilterValues, formatDate: Value -> string, item: JsObject) {
    var d, b, st := Selected(fv, "date"), Selected(fv, "batchNo"), Selected(fv, "status");
    (IsBlank(d) || DateMatches(formatDate, d, item))
    && (!ChoiceFilterActive(b) || Get(item, "batchNo") == Str(b))
    && (!ChoiceFilterActive(st) || Get(item, "status") == Str(st))
  }

  /** Applying a filter only when active is filtering by "inactive or passes". */
  lemma {:induction false} OptionalFilter(xs: seq<JsObject>, active: bool, p: JsObject -> bool, q: JsObject -> bool)
    requires forall x :: q(x) == (!active || p(x))
    ensures FilterWhen(xs, active, p) == Filter(xs, q)
  {
    if active {
      FilterCongruent(xs, p, q);
    } else {
      assert forall i :: 0 <= i < |xs| ==> q(xs[i]);
    }
  }

  /** Three optional filters in sequence are one filter by their conjunction. */
  lemma ThreeOptionalFilters(xs: seq<JsObject>, a1: bool, p1: JsObject -> bool, a2: bool, p2: JsObject -> bool,
                             a3: bool, p3: JsObject -> bool, q: JsObject -> bool)
    requires forall x :: q(x) == ((!a1 || p1(x)) && (!a2 || p2(x)) && (!a3 || p3(x)))
    ensures FilterWhen(FilterWhen(FilterWhen(xs, a1, p1), a2, p2), a3, p3) == Filter(xs, q)
  {
    var q1 := (x: JsObject) => !a1 || p1(x);
    var q2 := (x: JsObject) => !a2 || p2(x);
    var q3 := (x: JsObject) => !a3 || p3(x);
    var q12 := (x: JsObject) => q1(x) && q2(x);
    OptionalFilter(xs, a1, p1, q1);
    OptionalFilter(Filter(xs, q1), a2, p2, q2);
    FilterFilter(xs, q1, q2, q12);
    OptionalFilter(Filter(xs, q12), a3, p3, q3);
    FilterFilter(xs, q12, q3, q);
  }

  /** The three filters in sequence keep exactly the records passing all of
      them, in order: the order they are applied in does not matter. */
  lemma PageFilterIsConjunction(records: seq<JsObject>, fv: FilterValues, formatDate: Value -> string)
    ensures PageFilteredData(Some(records), fv, formatDate)
      == Filter(records, (item: JsObject) => PagePasses(fv, formatDate, item))
  {
    var d, b, st := Selected(fv, "date"), Selected(fv, "batchNo"), Selected(fv, "status");
    DateFilterActiveIffNotBlank(d);
    ThreeOptionalFilters(records,
      DateFilterActive(d), (item: JsObject) => DateMatches(formatDate, d, item),
      ChoiceFilterActive(b), (item: JsObject) => Get(item, "batchNo") == Str(b),
      ChoiceFilterActive(st), (item: JsObject) => Get(item, "status") == Str(st),
      (item: JsObject) => PagePasses(fv, formatDate, item));
  }

  /** Reset sets the filter map to `{}`, which keeps every record, in order. */
  lemma ResetKeepsAll(records: seq<JsObject>, formatDate: Value -> string)
    ensures PageFilteredData(Some(records), map[], formatDate) == records
  {
  }

  // ---------------------------------------------------------------------
  // The JSON cell

  datatype JsonCellView = Dash | ViewJsonButton

  /** The JSON column's cell: `!value || value === "" || value === null ||
      value === undefined` shows "-". */
  function JsonCell(value: Value): (r: JsonCellView)
    ensures r == Dash <==> !Truthy(value)
    ensures value == Str("") || Nullish(value) ==> r == Dash
  {
    if !Truthy(value) || value == Str("") || value == Null || value == Undefined then Dash
    else ViewJsonButton
  }
}

=== FILE: records_table.dfy ===
/**
 * The fixed three-filter records table (src/components/RecordsTable.tsx):
 * its filter state, the record filter it applies on every render, the
 * batch numbers its batch dropdown offers, and the value its date picker
 * stores.
 */
module RecordsTable {
  import opened Wrappers
  import opened JsText
  import opened JsValues
  import opened Seqs
  import opened Dates
  import opened FilterState

  /** The state the table starts in and returns to on reset. */
  const InitialFilterValues: FilterValues := map["date" := "", "batchNo" := "All", "status" := "All"]

  // ---------------------------------------------------------------------
  // Filter state

  /** `resetFilters()`, whatever the state before. */
  function ResetFilters(fv: FilterValues, hasCallback: bool): (r: FilterReset)
    ensures r.next.Keys == {"date", "batchNo", "status"}
    ensures Selected(r.next, "date") == "" && Selected(r.next, "batchNo") == "All"
    ensures Selected(r.next, "status") == "All"
    ensures r.callbackCalled == hasCallback
  {
    FilterReset(InitialFilterValues, hasCallback)
  }

  // ---------------------------------------------------------------------
  // The record filter

  /** The JavaScript exception the filter callback can raise. */
  datatype FilterError = TypeError

  /** `!record.date?.includes(dateFilter)` for an active date filter: a
      missing date excludes the record, a string date is searched, and any
      other value has no `includes` method, so the call throws. */
  function DateExcluded(date: Value, d: string): Result<bool, FilterError> {
    match date
    case Undefined => Ok(true)
    case Null => Ok(true)
    case Str(s) => Ok(!Includes(s, d))
    case _ => Err(TypeError)
  }

  /** The callback passed to `data.filter`. */
  function KeepRecord(fv: FilterValues, record: JsObject): Result<bool, FilterError> {
    var d, b, st := Selected(fv, "date"), Selected(fv, "batchNo"), Selected(fv, "status");
    var dateOutcome := if DateFilterActive(d) then DateExcluded(Get(record, "date"), d) else Ok(false);
    match dateOutcome
    case Err(e) => Err(e)
    case Ok(excluded) =>
      if excluded then Ok(false)
      else if ChoiceFilterActive(b) && Get(record, "batchNo") != Str(b) then Ok(false)
      else if ChoiceFilterActive(st) && Get(record, "status") != Str(st) then Ok(false)
      else Ok(true)
  }

  /** The filter evaluates without throwing on this record. */
  predicate DateReadable(fv: FilterValues, record: JsObject) {
    var date := Get(record, "date");
    !DateFilterActive(Selected(fv, "date")) || date.Str? || Nullish(date)
  }

  /** The survival condition, one conjunct per filter. */
  predicate Survives(fv: FilterValues, record: JsObject) {
    var d, b, st := Selected(fv, "date"), Selected(fv, "batchNo"), Selected(fv, "status");
    var date := Get(record, "date");
    (IsBlank(d) || (date.Str? && Includes(date.s, d)))
    && (!ChoiceFilterActive(b) || Get(record, "batchNo") == Str(b))
    && (!ChoiceFilterActive(st) || Get(record, "status") == Str(st))
  }

  lemma KeepRecordMeaning(fv: FilterValues, record: JsObject)
    ensures KeepRecord(fv, record).Ok? <==> DateReadable(fv, record)
    ensures KeepRecord(fv, record).Ok? ==> KeepRecord(fv, record).value == Survives(fv, record)
  {
    var d := Selected(fv, "date");
    DateFilterActiveIffNotBlank(d);
    if DateFilterActive(d) {
      DateExcludedMeaning(Get(record, "date"), d);
    }
  }

  /** The active date filter throws on a date that is neither a string nor
      nullish, and otherwise excludes every record whose date is not a
      string containing the filter text. */
  lemma DateExcludedMeaning(date: Value, d: string)
    ensures DateExcluded(date, d).Ok? <==> date.Str? || Nullish(date)
    ensures DateExcluded(date, d).Ok? ==> DateExcluded(date, d).value == !(date.Str? && Includes(date.s, d))
  {
  }

  predicate AllReadable(fv: FilterValues, data: seq<JsObject>) {
    forall i :: 0 <= i < |data| ==> DateReadable(fv, data[i])
  }

  /** `filteredData`: the records the callback keeps, in order; an error
      when the callback throws on some record. */
  function FilteredData(data: seq<JsObject>, fv: FilterValues): (r: Result<seq<JsObject>, FilterError>)
    ensures r.Ok? <==> AllReadable(fv, data)
    decreases |data|
  {
    if data == [] then Ok([])
    else
      KeepRecordMeaning(fv, data[0]);
      assert AllReadable(fv, data) <==> DateReadable(fv, data[0]) && AllReadable(fv, data[1..]) by {
        assert forall i :: 1 <= i < |data| ==> data[1..][i - 1] == data[i];
      }
      match KeepRecord(fv, data[0])
      case Err(e) => Err(e)
      case Ok(keep) =>
        match FilteredData(data[1..], fv)
        case Err(e) => Err(e)
        case Ok(rest) => Ok(if keep then [data[0]] + rest else rest)
  }

  /** When nothing throws, the table shows exactly the records meeting all
      three conditions, in their original order. */
  lemma {:induction false} FilteredDataMeaning(data: seq<JsObject>, fv: FilterValues)
    requires AllReadable(fv, data)
    ensures FilteredData(data, fv) == Ok(Filter(data, (rec: JsObject) => Survives(fv, rec)))
    decreases |data|
  {
    if data != [] {
      KeepRecordMeaning(fv, data[0]);
      assert AllReadable(fv, data[1..]) by {
        assert forall i :: 1 <= i < |data| ==> data[1..][i - 1] == data[i];
      }
      FilteredDataMeaning(data[1..], fv);
    }
  }

  /** The filtered rows are an order-preserving selection of the data. */
  lemma FilteredIsSubsequence(data: seq<JsObject>, fv: FilterValues)
    requires AllReadable(fv, data)
    ensures IsSubsequence(FilteredData(data, fv).value, data)
    ensures forall rec :: rec in FilteredData(data, fv).value <==> rec in data && Survives(fv, rec)
  {
    FilteredDataMeaning(data, fv);
  }

  /** With the initial (or reset) filter values every record is kept, in
      order, whatever the records hold. */
  lemma InitialFiltersKeepAll(data: seq<JsObject>)
    ensures FilteredData(data, InitialFilterValues) == Ok(data)
  {
    var fv := InitialFilterValues;
    assert Selected(fv, "date") == "" && Selected(fv, "batchNo") == "All" && Selected(fv, "status") == "All";
    assert IsBlank("");
    assert forall rec: JsObject :: Survives(fv, rec);
    assert AllReadable(fv, data);
    FilteredDataMeaning(data, fv);
  }

  lemma ResetKeepsAll(data: seq<JsObject>, fv: FilterValues, hasCallback: bool)
    ensures FilteredData(data, ResetFilters(fv, hasCallback).next) == Ok(data)
  {
    InitialFiltersKeepAll(data);
  }

  /** Under an active date filter a record without a date never survives. */
  lemma MissingDateExcluded(fv: FilterValues, record: JsObject)
    requires !IsBlank(Selected(fv, "date"))
    requires Nullish(Get(record, "date"))
    ensures DateReadable(fv, record) && !Survives(fv, record)
  {
    DateFilterActiveIffNotBlank(Selected(fv, "date"));
  }

  /** An active date filter on a record whose date is a number or a `Date`
      makes the whole filter throw. */
  lemma NonStringDateThrows(data: seq<JsObject>, fv: FilterValues, i: int)
    requires 0 <= i < |data| && !IsBlank(Selected(fv, "date"))
    requires var date := Get(data[i], "date"); date.Num? || date.DateObj? || date.Bool?
    ensures FilteredData(data, fv).Err?
  {
    DateFilterActiveIffNotBlank(Selected(fv, "date"));
  }

  // ---------------------------------------------------------------------
  // Batch numbers and the batch dropdown

  /** `data.map((item) => item[field])`. */
  function FieldValues(data: seq<JsObject>, field: string): (r: seq<Value>)
    ensures |r| == |data|
    ensures forall i :: 0 <= i < |data| ==> r[i] == Get(data[i], field)
  {
    seq(|data|, i requires 0 <= i < |data| => Get(data[i], field))
  }

  function Strings(vs: seq<Value>): (r: seq<string>)
    ensures |r| == |vs|
    ensures forall i :: 0 <= i < |vs| ==> r[i] == ToString(vs[i])
  {
    seq(|vs|, i requires 0 <= i < |vs| => ToString(vs[i]))
  }

  /** `[...new Set(values.filter(Boolean))]`: the distinct truthy values of
      one field, in first-occurrence order, before they are turned into
      strings. */
  function DistinctValues(data: seq<JsObject>, field: string): (r: seq<Value>)
    ensures NoDuplicates(r)
    ensures forall v :: v in r <==> Truthy(v) && exists i :: 0 <= i < |data| && Get(data[i], field) == v
  {
    var vs := FieldValues(data, field);
    var truthy := Filter(vs, Truthy);
    assert forall v :: v in vs <==> exists i :: 0 <= i < |data| && Get(data[i], field) == v by {
      forall v | v in vs ensures exists i :: 0 <= i < |data| && Get(data[i], field) == v {
        var i :| 0 <= i < |vs| && vs[i] == v;
      }
    }
    SetOrder(truthy)
  }


  /** `batchNumbers`: `Array.from(new Set(batchNo values .filter(Boolean)))`
      mapped through `toString`. The set dedups the raw values, so a number
      and a string with the same spelling give two equal entries. */
  function BatchNumbers(data: seq<JsObject>): (r: seq<string>)
    ensures |r| == |DistinctValues(data, "batchNo")|
    ensures forall i :: 0 <= i < |r| ==> r[i] == ToString(DistinctValues(data, "batchNo")[i])
  {
    Strings(SetOrder(Filter(FieldValues(data, "batchNo"), Truthy)))
  }

  /** The distinct values, and so the batch numbers, come in the order in
      which the truthy values of the field first appear in the records. */
  lemma DistinctValuesOrder(data: seq<JsObject>, field: string)
    ensures DistinctValues(data, field) == FirstOccurrences(Filter(FieldValues(data, field), Truthy))
    ensures BatchNumbers(data) == Strings(FirstOccurrences(Filter(FieldValues(data, "batchNo"), Truthy)))
  {
  }

  /** Every truthy batch value is a string. */
  predicate StringBatches(data: seq<JsObject>) {
    forall i :: 0 <= i < |data| ==> var v := Get(data[i], "batchNo"); Truthy(v) ==> v.Str?
  }

  /** When every truthy batch value is a string, each batch number is the
      string inside the distinct value at the same position. */
  lemma StringBatchesUnwrap(data: seq<JsObject>)
    requires StringBatches(data)
    ensures var ds, r := DistinctValues(data, "batchNo"), BatchNumbers(data);
      |r| == |ds| && forall i :: 0 <= i < |ds| ==> ds[i] == Str(r[i])
  {
    var ds := DistinctValues(data, "batchNo");
    var r := BatchNumbers(data);
    forall i | 0 <= i < |ds| ensures ds[i] == Str(r[i]) {
      assert ds[i] in ds;
    }
  }

  lemma StringBatchesNoDuplicates(data: seq<JsObject>)
    requires StringBatches(data)
    ensures NoDuplicates(BatchNumbers(data))
  {
    var ds := DistinctValues(data, "batchNo");
    var r := BatchNumbers(data);
    StringBatchesUnwrap(data);
    forall i, j | 0 <= i < j < |r| ensures r[i] != r[j] {
      assert ds[i] != ds[j];
    }
  }

  lemma StringBatchSound(data: seq<JsObject>, s: string)
    requires StringBatches(data) && s in BatchNumbers(data)
    ensures s != "" && exists i :: 0 <= i < |data| && Get(data[i], "batchNo") == Str(s)
  {
    var ds := DistinctValues(data, "batchNo");
    var r := BatchNumbers(data);
    StringBatchesUnwrap(data);
    var k :| 0 <= k < |r| && r[k] == s;
    assert ds[k] in ds;
  }

  lemma StringBatchComplete(data: seq<JsObject>, s: string, i: int)
    requires StringBatches(data) && s != ""
    requires 0 <= i < |data| && Get(data[i], "batchNo") == Str(s)
    ensures s in BatchNumbers(data)
  {
    var ds := DistinctValues(data, "batchNo");
    assert Truthy(Str(s)) && exists j :: 0 <= j < |data| && Get(data[j], "batchNo") == Str(s);
    assert Str(s) in ds;
    var k :| 0 <= k < |ds| && ds[k] == Str(s);
    StringBatchesUnwrap(data);
    assert BatchNumbers(data)[k] == s;
  }

  /** When every truthy batch value is a string, the batch numbers are
      exactly those strings, each once. */
  lemma StringBatchesAreDistinct(data: seq<JsObject>)
    requires StringBatches(data)
    ensures NoDuplicates(BatchNumbers(data))
    ensures forall s :: s in BatchNumbers(data) <==>
      s != "" && exists i :: 0 <= i < |data| && Get(data[i], "batchNo") == Str(s)
  {
    StringBatchesNoDuplicates(data);
    forall s ensures s in BatchNumbers(data) <==>
      s != "" && exists i :: 0 <= i < |data| && Get(data[i], "batchNo") == Str(s)
    {
      if s in BatchNumbers(data) {
        StringBatchSound(data, s);
      }
      if s != "" && exists i :: 0 <= i < |data| && Get(data[i], "batchNo") == Str(s) {
        var i :| 0 <= i < |data| && Get(data[i], "batchNo") == Str(s);
        StringBatchComplete(data, s, i);
      }
    }
  }

  /** The batch dropdown: "All", then one entry per batch number. */
  function BatchOptions(batchNumbers: seq<string>): (r: seq<SelectOption>)
    ensures |r| == |batchNumbers| + 1 && r[0] == SelectOption("All", "All")
    ensures forall i :: 0 <= i < |batchNumbers| ==> r[i + 1] == SelectOption(batchNumbers[i], batchNumbers[i])
  {
    [SelectOption("All", "All")]
      + seq(|batchNumbers|, i requires 0 <= i < |batchNumbers| => SelectOption(batchNumbers[i], batchNumbers[i]))
  }

  /** The fixed status dropdown. */
  const StatusOptions: seq<SelectOption> := [
    SelectOption("All", "All"), SelectOption("active", "Active"),
    SelectOption("failed", "Failed"), SelectOption("finished", "Finished")]

  /** With the date filter empty and the status filter on "All", the batch
      filter alone decides. */
  lemma OnlyBatchFilter(fv: FilterValues, rec: JsObject)
    requires Selected(fv, "date") == "" && Selected(fv, "status") == "All"
    ensures DateReadable(fv, rec)
    ensures Survives(fv, rec) <==>
      !ChoiceFilterActive(Selected(fv, "batchNo")) || Get(rec, "batchNo") == Str(Selected(fv, "batchNo"))
  {
    assert IsBlank("");
  }

  /** Choosing an entry of the batch dropdown (when batch values are
      strings) keeps exactly the records of that batch, or every record for
      "All", in order. */
  lemma ChoosingBatchOption(data: seq<JsObject>, fv: FilterValues, o: SelectOption)
    requires StringBatches(data)
    requires o in BatchOptions(BatchNumbers(data))
    requires Selected(fv, "date") == "" && Selected(fv, "status") == "All"
    ensures var next := HandleFilterChange(fv, "batchNo", o.value, false).next;
      FilteredData(data, next)
        == Ok(Filter(data, (rec: JsObject) => o.value == "All" || Get(rec, "batchNo") == Str(o.value)))
  {
    BatchOptionNonEmpty(data, o);
    var next := HandleFilterChange(fv, "batchNo", o.value, false).next;
    ChoosingBatch(data, next, o.value);
  }

  /** No entry of the batch dropdown has an empty value: falsy batch values
      are dropped, and every truthy value prints as non-empty text. */
  lemma BatchOptionNonEmpty(data: seq<JsObject>, o: SelectOption)
    requires o in BatchOptions(BatchNumbers(data))
    ensures o.value != ""
  {
    var ds := DistinctValues(data, "batchNo");
    var bs := BatchNumbers(data);
    var opts := BatchOptions(bs);
    var k :| 0 <= k < |opts| && opts[k] == o;
    if k > 0 {
      assert o.value == ToString(ds[k - 1]);
      assert ds[k - 1] in ds;
    }
  }

  lemma ChoosingBatch(data: seq<JsObject>, fv: FilterValues, b: string)
    requires b != ""
    requires Selected(fv, "date") == "" && Selected(fv, "status") == "All" && Selected(fv, "batchNo") == b
    ensures FilteredData(data, fv)
      == Ok(Filter(data, (rec: JsObject) => b == "All" || Get(rec, "batchNo") == Str(b)))
  {
    var p := (rec: JsObject) => Survives(fv, rec);
    var q := (rec: JsObject) => b == "All" || Get(rec, "batchNo") == Str(b);
    forall i | 0 <= i < |data| ensures DateReadable(fv, data[i]) && p(data[i]) == q(data[i]) {
      OnlyBatchFilter(fv, data[i]);
    }
    FilteredDataMeaning(data, fv);
    FilterCongruent(data, p, q);
  }

  // ---------------------------------------------------------------------
  // Dates that cannot be searched

  /** The rows the table evidently means to show: those meeting all three
      conditions, a record whose date is not a string being excluded under
      an active date filter just as a missing date is. Unlike the filter as
      written it never throws, and it agrees with it whenever that does not. */
  function VisibleRecords(data: seq<JsObject>, fv: FilterValues): (r: seq<JsObject>)
    ensures IsSubsequence(r, data)
    ensures forall rec :: rec in r <==> rec in data && Survives(fv, rec)
    ensures FilteredData(data, fv).Ok? ==> FilteredData(data, fv).value == r
  {
    FilteredAgreesWhenOk(data, fv);
    Filter(data, (rec: JsObject) => Survives(fv, rec))
  }

  lemma FilteredAgreesWhenOk(data: seq<JsObject>, fv: FilterValues)
    ensures FilteredData(data, fv).Ok? ==>
      FilteredData(data, fv).value == Filter(data, (rec: JsObject) => Survives(fv, rec))
  {
    if AllReadable(fv, data) {
      FilteredDataMeaning(data, fv);
    }
  }

  /** Under an active date filter, a record whose date is a number or a
      `Date` is not shown. */
  lemma UnsearchableDateHidden(data: seq<JsObject>, fv: FilterValues, rec: JsObject)
    requires !IsBlank(Selected(fv, "date"))
    requires !Get(rec, "date").Str?
    ensures rec !in VisibleRecords(data, fv)
  {
  }

  /** The filter as written throws on a record dated by a Unix timestamp,
      a shape `RecordData.date` allows and the mock records use, as soon as
      a date is picked. */
  lemma NumericDateCrashesFilter()
    ensures var data := [Object1("date", Num(1743897600))];
      var fv := map["date" := "2025-04-05"];
      FilteredData(data, fv) == Err(TypeError) && VisibleRecords(data, fv) == []
  {
    var rec := Object1("date", Num(1743897600));
    var data := [rec];
    var fv := map["date" := "2025-04-05"];
    assert Selected(fv, "date") == "2025-04-05";
    assert !IsBlank("2025-04-05") by {
      assert !IsJsSpace("2025-04-05"[0]);
    }
    assert Get(rec, "date") == Num(1743897600);
    NonStringDateThrows(data, fv, 0);
    assert !Survives(fv, rec);
  }
}

=== FILE: seqs.dfy ===
/** Sequence operations the components use: `Array.prototype.filter` and the
    iteration order of a JavaScript `Set` built from an array. */
module Seqs {

  /** `a` can be obtained from `b` by deleting elements, keeping the order. */
  predicate IsSubsequence<T(==,!new)>(a: seq<T>, b: seq<T>)
    decreases |b|
  {
    if a == [] then true
    else if b == [] then false
    else (a[0] == b[0] && IsSubsequence(a[1..], b[1..])) || IsSubsequence(a, b[1..])
  }

  lemma {:induction false} IsSubsequenceReflexive<T(!new)>(a: seq<T>)
    ensures IsSubsequence(a, a)
    decreases |a|
  {
    if a != [] {
      IsSubsequenceReflexive(a[1..]);
    }
  }

  /** A subsequence of a subsequence is a subsequence. */
  lemma {:induction false} SubsequenceTransitive<T(!new)>(a: seq<T>, b: seq<T>, c: seq<T>)
    requires IsSubsequence(a, b) && IsSubsequence(b, c)
    ensures IsSubsequence(a, c)
    decreases |c|
  {
    if a != [] {
      assert b != [] && c != [];
      if b[0] == c[0] && IsSubsequence(b[1..], c[1..]) {
        if a[0] == b[0] && IsSubsequence(a[1..], b[1..]) {
          SubsequenceTransitive(a[1..], b[1..], c[1..]);
        } else {
          SubsequenceTransitive(a, b[1..], c[1..]);
        }
      } else {
        SubsequenceTransitive(a, b, c[1..]);
      }
    }
  }

  /** `xs.filter(p)`: the elements satisfying `p`, each kept as often as it
      occurs and in the original order. */
  function Filter<T(==,!new)>(xs: seq<T>, p: T -> bool): (r: seq<T>)
    ensures |r| <= |xs|
    ensures forall i :: 0 <= i < |r| ==> p(r[i])
    ensures forall x :: x in r <==> x in xs && p(x)
    ensures IsSubsequence(r, xs)
    ensures (forall i :: 0 <= i < |xs| ==> p(xs[i])) ==> r == xs
    decreases |xs|
  {
    if xs == [] then []
    else
      var rest := Filter(xs[1..], p);
      assert xs == [xs[0]] + xs[1..];
      if p(xs[0]) then
        assert ([xs[0]] + rest)[1..] == rest;
        [xs[0]] + rest
      else rest
  }

  /** Filtering keeps every element satisfying `p` as often as it occurs,
      and drops every other. */
  lemma {:induction false} FilterCounts<T(!new)>(xs: seq<T>, p: T -> bool, x: T)
    ensures multiset(Filter(xs, p))[x] == if p(x) then multiset(xs)[x] else 0
    decreases |xs|
  {
    if xs != [] {
      var h, t := xs[0], xs[1..];
      var ft := Filter(t, p);
      FilterCounts(t, p, x);
      assert xs == [h] + t;
      assert multiset(xs) == multiset([h]) + multiset(t);
      if p(h) {
        assert Filter(xs, p) == [h] + ft;
        assert multiset([h] + ft) == multiset([h]) + multiset(ft);
      } else {
        assert Filter(xs, p) == ft;
      }
    }
  }

  /** Filtering depends only on the predicate's values on the elements. */
  lemma {:induction false} FilterCongruent<T(!new)>(xs: seq<T>, p: T -> bool, q: T -> bool)
    requires forall i :: 0 <= i < |xs| ==> p(xs[i]) == q(xs[i])
    ensures Filter(xs, p) == Filter(xs, q)
    decreases |xs|
  {
    if xs != [] {
      assert forall i :: 1 <= i < |xs| ==> xs[1..][i - 1] == xs[i];
      FilterCongruent(xs[1..], p, q);
    }
  }

  /** Filtering twice is filtering once by the conjunction: the order in which
      independent conditions are applied does not matter. */
  lemma {:induction false} FilterFilter<T(!new)>(xs: seq<T>, p: T -> bool, q: T -> bool, pq: T -> bool)
    requires forall x :: pq(x) == (p(x) && q(x))
    ensures Filter(Filter(xs, p), q) == Filter(xs, pq)
    decreases |xs|
  {
    if xs != [] {
      FilterFilter(xs[1..], p, q, pq);
      if p(xs[0]) {
        assert ([xs[0]] + Filter(xs[1..], p))[1..] == Filter(xs[1..], p);
      }
    }
  }

  predicate NoDuplicates<T(==,!new)>(xs: seq<T>) {
    forall i, j :: 0 <= i < j < |xs| ==> xs[i] != xs[j]
  }

  /** The reference meaning of "distinct values in first-occurrence order":
      `xs[i]` is kept exactly when it does not occur in `xs[..i]`. */
  function FirstOccurrences<T(==,!new)>(xs: seq<T>): (r: seq<T>)
    decreases |xs|
  {
    if xs == [] then []
    else
      var init := FirstOccurrences(xs[..|xs| - 1]);
      var last := xs[|xs| - 1];
      if last in xs[..|xs| - 1] then init else init + [last]
  }

  lemma {:induction false} FirstOccurrencesMembers<T(!new)>(xs: seq<T>)
    ensures forall x :: x in FirstOccurrences(xs) <==> x in xs
    decreases |xs|
  {
    if xs != [] {
      var init := xs[..|xs| - 1];
      FirstOccurrencesMembers(init);
      assert xs == init + [xs[|xs| - 1]];
    }
  }

  lemma {:induction false} FirstOccurrencesNoDuplicates<T(!new)>(xs: seq<T>)
    ensures NoDuplicates(FirstOccurrences(xs))
    decreases |xs|
  {
    if xs != [] {
      var init := xs[..|xs| - 1];
      FirstOccurrencesNoDuplicates(init);
      FirstOccurrencesMembers(init);
    }
  }

  /** `Set.prototype.add` on the insertion-ordered contents of a set. */
  function SetAdd<T(==,!new)>(order: seq<T>, x: T): seq<T> {
    if x in order then order else order + [x]
  }

  function SetAddAll<T(==,!new)>(order: seq<T>, xs: seq<T>): seq<T>
    decreases |xs|
  {
    if xs == [] then order else SetAddAll(SetAdd(order, xs[0]), xs[1..])
  }

  /** `[...new Set(xs)]`: the values of `xs` in the order a `Set` iterates them. */
  function SetOrder<T(==,!new)>(xs: seq<T>): (r: seq<T>)
    ensures r == FirstOccurrences(xs)
    ensures NoDuplicates(r)
    ensures forall x :: x in r <==> x in xs
  {
    SetOrderIsFirstOccurrences([], xs);
    FirstOccurrencesNoDuplicates(xs);
    FirstOccurrencesMembers(xs);
    assert [] + xs == xs;
    SetAddAll([], xs)
  }

  /** Adding one value to the set extends the first occurrences by it. */
  lemma SetAddFirstOccurrences<T(!new)>(ys: seq<T>, z: T)
    ensures SetAdd(FirstOccurrences(ys), z) == FirstOccurrences(ys + [z])
  {
    var ys' := ys + [z];
    assert ys'[..|ys'| - 1] == ys;
    FirstOccurrencesMembers(ys);
  }

  lemma {:induction false} SetOrderIsFirstOccurrences<T(!new)>(ys: seq<T>, zs: seq<T>)
    ensures SetAddAll(FirstOccurrences(ys), zs) == FirstOccurrences(ys + zs)
    decreases |zs|
  {
    if zs == [] {
      assert ys + zs == ys;
    } else {
      var ys' := ys + [zs[0]];
      SetAddFirstOccurrences(ys, zs[0]);
      SetOrderIsFirstOccurrences(ys', zs[1..]);
      assert ys' + zs[1..] == ys + zs;
    }
  }

  lemma {:induction false} FirstOccurrencesIsSubsequence<T(!new)>(xs: seq<T>)
    ensures IsSubsequence(FirstOccurrences(xs), xs)
    decreases |xs|
  {
    if xs != [] {
      var init := xs[..|xs| - 1];
      FirstOccurrencesIsSubsequence(init);
      SubsequenceAppend(FirstOccurrences(init), init, xs[|xs| - 1]);
      assert xs == init + [xs[|xs| - 1]];
    }
  }

  /** Appending to the longer sequence keeps a subsequence a subsequence, and
      appending the same element to both does too. */
  lemma {:induction false} SubsequenceAppend<T(!new)>(a: seq<T>, b: seq<T>, x: T)
    requires IsSubsequence(a, b)
    ensures IsSubsequence(a, b + [x])
    ensures IsSubsequence(a + [x], b + [x])
    decreases |b|
  {
    if a == [] {
      assert [] + [x] == [x];
      assert IsSubsequence([x], [x]) by {
        assert [x][1..] == [];
      }
      SubsequenceOfSuffix([x], b, [x]);
      assert b + [x] == b + [x];
    } else if b == [] {
    } else {
      assert (b + [x])[1..] == b[1..] + [x];
      assert (a + [x])[1..] == a[1..] + [x];
      if a[0] == b[0] && IsSubsequence(a[1..], b[1..]) {
        SubsequenceAppend(a[1..], b[1..], x);
      } else {
        SubsequenceAppend(a, b[1..], x);
      }
    }
  }

  /** A subsequence of a suffix is a subsequence of the whole. */
  lemma {:induction false} SubsequenceOfSuffix<T(!new)>(a: seq<T>, pre: seq<T>, b: seq<T>)
    requires IsSubsequence(a, b)
    ensures IsSubsequence(a, pre + b)
    decreases |pre|
  {
    if pre == [] {
      assert pre + b == b;
    } else if a != [] {
      SubsequenceOfSuffix(a, pre[1..], b);
      assert (pre + b)[1..] == pre[1..] + b;
    }
  }
}

=== FILE: sidebar_nav.dfy ===
/**
 * The sidebar (src/components/SidebarNav.tsx): which sections are
 * expanded, how a location path selects the current playground and menu
 * option, where a menu option navigates, and which entry is highlighted.
 *
 * Navigation and the location are values here: a click returns the path
 * it navigates to, and the location effect takes the current path.
 */
module SidebarNav {
  import opened Wrappers
  import opened JsText
  import opened Uri
  import opened UIStateContext

  // ---------------------------------------------------------------------
  // Expanded sections

  /** The sections expanded when the sidebar mounts. */
  const InitialExpanded: set<string> := {"playgrounds"}

  /** `toggleSection`: the section flips between expanded and collapsed,
      every other section stays as it was. */
  function ToggleSection(expanded: set<string>, id: string): (r: set<string>)
    ensures id in r <==> id !in expanded
    ensures forall k :: k != id ==> (k in r <==> k in expanded)
  {
    if id in expanded then expanded - {id} else expanded + {id}
  }

  lemma ToggleTwice(expanded: set<string>, id: string)
    ensures ToggleSection(ToggleSection(expanded, id), id) == expanded
  {
  }

  // ---------------------------------------------------------------------
  // Reading the location

  const PlaygroundPrefix := "/playground/"

  /** The longest prefix of `s` without a slash: what `[^/]+` takes, when
      non-empty. */
  function Segment(s: string): (r: string)
    ensures |r| <= |s| && r == s[..|r|]
    ensures '/' !in r
    ensures |r| == |s| || s[|r|] == '/'
    decreases |s|
  {
    if s == [] || s[0] == '/' then [] else [s[0]] + Segment(s[1..])
  }

  lemma {:induction false} SegmentOf(a: string, tail: string)
    requires '/' !in a && (tail == [] || tail[0] == '/')
    ensures Segment(a + tail) == a
    decreases |a|
  {
    if a != [] {
      assert (a + tail)[1..] == a[1..] + tail;
      SegmentOf(a[1..], tail);
    } else {
      assert a + tail == tail;
    }
  }

  /** `pathname.match(/^\/playground\/([^/]+)\/([^/]+)/)`: the two captured
      segments, or `None` when the path does not match. The expression is
      not anchored at the end, so anything from the next slash on is
      ignored. */
  function MatchPlaygroundPath(path: string): (r: Option<(string, string)>)
    ensures r.Some? ==> var (a, b) := r.value;
      var n := |PlaygroundPrefix + a + "/" + b|;
      a != [] && b != [] && '/' !in a && '/' !in b
      && n <= |path| && path[..n] == PlaygroundPrefix + a + "/" + b
      && (n == |path| || path[n] == '/')
  {
    if !IsPrefix(PlaygroundPrefix, path) then None
    else
      var rest := path[|PlaygroundPrefix|..];
      var a := Segment(rest);
      if a == [] || |a| == |rest| then None
      else
        var rest2 := rest[|a| + 1..];
        var b := Segment(rest2);
        if b == [] then None
        else
          MatchedPrefix(path, a, b);
          Some((a, b))
  }

  lemma SplitAround(s: string, n: nat)
    requires n < |s|
    ensures s == s[..n] + ([s[n]] + s[n + 1..])
  {
  }

  lemma TakeOfConcat(x: string, y: string)
    ensures (x + y)[..|x|] == x
    ensures y != [] ==> (x + y)[|x|] == y[0]
  {
  }

  lemma DropOfConcat(x: string, y: string)
    ensures (x + y)[|x|..] == y
  {
  }

  lemma ConcatFive(p: string, a: string, b: string, tail: string)
    ensures p + (a + ("/" + (b + tail))) == p + a + "/" + b + tail
  {
  }

  /** The two segments the matcher reads, put back together, are a prefix of
      the path that ends the path or is followed by a slash. */
  lemma MatchedPrefix(path: string, a: string, b: string)
    requires IsPrefix(PlaygroundPrefix, path)
    requires var rest := path[|PlaygroundPrefix|..];
      |a| < |rest| && a == rest[..|a|] && rest[|a|] == '/'
      && var rest2 := rest[|a| + 1..];
      |b| <= |rest2| && b == rest2[..|b|] && (|b| == |rest2| || rest2[|b|] == '/')
    ensures var n := |PlaygroundPrefix + a + "/" + b|;
      n <= |path| && path[..n] == PlaygroundPrefix + a + "/" + b
      && (n == |path| || path[n] == '/')
  {
    var rest := path[|PlaygroundPrefix|..];
    var rest2 := rest[|a| + 1..];
    var tail := rest2[|b|..];
    assert path == PlaygroundPrefix + rest;
    SplitAround(rest, |a|);
    assert rest2 == b + tail;
    assert [rest[|a|]] == "/";
    ConcatFive(PlaygroundPrefix, a, b, tail);
    assert path == PlaygroundPrefix + a + "/" + b + tail;
    TakeOfConcat(PlaygroundPrefix + a + "/" + b, tail);
  }

  /** The independent description of a match: the path is the prefix, a
      non-empty segment, a slash, a non-empty segment, and then nothing or
      a further slash. */
  ghost predicate PathMatches(path: string, a: string, b: string) {
    a != [] && b != [] && '/' !in a && '/' !in b
    && exists tail :: (tail == [] || tail[0] == '/') && path == PlaygroundPrefix + a + "/" + b + tail
  }

  /** A path built that way matches, and captures exactly its two segments. */
  lemma MatchOfBuiltPath(a: string, b: string, tail: string)
    requires a != [] && b != [] && '/' !in a && '/' !in b
    requires tail == [] || tail[0] == '/'
    ensures MatchPlaygroundPath(PlaygroundPrefix + a + "/" + b + tail) == Some((a, b))
  {
    var rest2 := b + tail;
    var rest := a + ("/" + rest2);
    ConcatFive(PlaygroundPrefix, a, b, tail);
    TakeOfConcat(PlaygroundPrefix, rest);
    DropOfConcat(PlaygroundPrefix, rest);
    SegmentOf(a, "/" + rest2);
    DropOfConcat(a + "/", rest2);
    assert rest == a + "/" + rest2;
    SegmentOf(b, tail);
  }

  /** The matcher agrees with the description, in both directions. */
  lemma MatchIffPathMatches(path: string, a: string, b: string)
    ensures MatchPlaygroundPath(path) == Some((a, b)) <==> PathMatches(path, a, b)
  {
    if MatchPlaygroundPath(path) == Some((a, b)) {
      var x := PlaygroundPrefix + a + "/" + b;
      var tail := path[|x|..];
      assert path == x + tail;
    }
    if PathMatches(path, a, b) {
      var tail :| (tail == [] || tail[0] == '/') && path == PlaygroundPrefix + a + "/" + b + tail;
      MatchOfBuiltPath(a, b, tail);
    }
  }

  datatype URIError = URIError

  /** What the sidebar keeps: its expanded sections and the shared UI state. */
  datatype NavState = NavState(expanded: set<string>, ui: UIState)

  /** The location effect. On a playground path the decoded playground name
      and the raw option segment become current and the name's section is
      expanded; on any other path the playground is cleared. A first segment
      that is not valid percent-encoding makes `decodeURIComponent` throw. */
  function LocationEffect(s: NavState, pathname: string): (r: Result<NavState, URIError>)
    ensures r.Ok? ==> r.value.ui.dateRange == s.ui.dateRange && s.expanded <= r.value.expanded
    ensures MatchPlaygroundPath(pathname).None? ==>
      r == Ok(s.(ui := Apply(s.ui, ClearPlayground)))
    ensures r.Err? <==> (MatchPlaygroundPath(pathname).Some?
      && DecodeURIComponent(MatchPlaygroundPath(pathname).value.0).None?)
    ensures r.Ok? && MatchPlaygroundPath(pathname).Some? ==>
      var (a, b) := MatchPlaygroundPath(pathname).value;
      var name := DecodeURIComponent(a).value;
      r.value.ui.playground == PlaygroundState(Some(name), Some(b))
      && r.value.expanded == s.expanded + {"playgrounds", name}
  {
    match MatchPlaygroundPath(pathname)
    case None => Ok(s.(ui := Apply(s.ui, ClearPlayground)))
    case Some((a, b)) =>
      match DecodeURIComponent(a)
      case None => Err(URIError)
      case Some(name) =>
        Ok(NavState(s.expanded + {"playgrounds", name}, Apply(s.ui, SetCurrentPlayground(Some(name), Some(b)))))
  }

  // ---------------------------------------------------------------------
  // Menu options

  /** `routeMap[optionName]` for the three menu options. */
  function RouteOf(option: string): (r: Option<string>)
    ensures r.Some? ==> r.value != [] && '/' !in r.value
    ensures r.Some? <==> option in {"Dashboard", "Flows", "All Records"}
  {
    if option == "Dashboard" then Some("dashboard")
    else if option == "Flows" then Some("flows")
    else if option == "All Records" then Some("all-records")
    else None
  }

  lemma RouteOfInjective(o1: string, o2: string)
    requires RouteOf(o1).Some? && RouteOf(o1) == RouteOf(o2)
    ensures o1 == o2
  {
  }

  /** `/playground/${encodeURIComponent(playgroundName)}/${route}`. */
  function MenuPath(playground: string, route: string): string {
    PlaygroundPrefix + EncodeURIComponent(playground) + "/" + route
  }

  datatype Click = Click(ui: UIState, navigateTo: Option<string>)

  /** `handleMenuOptionClick`: for a mapped option, the playground and the
      option's name become current and the page navigates to its path; an
      unmapped option does nothing. */
  function MenuOptionClick(ui: UIState, playground: string, option: string): (r: Click)
    ensures RouteOf(option).None? ==> r == Click(ui, None)
    ensures RouteOf(option).Some? ==>
      r.navigateTo == Some(MenuPath(playground, RouteOf(option).value))
      && r.ui.playground == PlaygroundState(Some(playground), Some(option))
      && r.ui.dateRange == ui.dateRange
  {
    match RouteOf(option)
    case None => Click(ui, None)
    case Some(route) =>
      Click(Apply(ui, SetCurrentPlayground(Some(playground), Some(option))), Some(MenuPath(playground, route)))
  }

  /** A menu click made while the location is `pathname`. The location
      effect depends on the path alone (its other dependencies are stable
      callbacks), so it runs again only when the click leads to a different
      path; otherwise the click's own state stands. */
  function AfterMenuClick(s: NavState, pathname: string, playground: string, option: string)
    : Result<NavState, URIError>
  {
    var click := MenuOptionClick(s.ui, playground, option);
    var clicked := s.(ui := click.ui);
    match click.navigateTo
    case None => Ok(clicked)
    case Some(to) => if to == pathname then Ok(clicked) else LocationEffect(clicked, to)
  }

  /** After a menu click the current playground is the clicked one. When
      the click changes the path, the location effect runs and stores the
      route segment as the option, and the name's section is expanded;
      when the path was already that entry's, the option keeps the name
      the click stored. */
  lemma ClickThenLocation(s: NavState, pathname: string, playground: string, option: string)
    requires playground != [] && RouteOf(option).Some?
    ensures var path := MenuPath(playground, RouteOf(option).value);
      var after := AfterMenuClick(s, pathname, playground, option);
      after.Ok?
      && after.value.ui.playground
        == PlaygroundState(Some(playground), Some(if pathname == path then option else RouteOf(option).value))
      && (pathname != path ==> playground in after.value.expanded)
  {
    var route := RouteOf(option).value;
    var enc := EncodeURIComponent(playground);
    EncodedHasNoSlash(playground);
    MatchOfBuiltPath(enc, route, []);
    assert MenuPath(playground, route) == PlaygroundPrefix + enc + "/" + route + [];
    DecodeEncode(playground);
  }

  /** An empty playground name encodes to an empty segment, which the
      location pattern does not accept: when the click changes the path,
      the effect clears the playground the click had just set. When the
      path was already that one, the effect does not run and the empty
      name stays current. */
  lemma EmptyNameClearedByLocation(s: NavState, pathname: string, option: string)
    requires RouteOf(option).Some?
    ensures var path := MenuPath("", RouteOf(option).value);
      var after := AfterMenuClick(s, pathname, "", option);
      after.Ok?
      && after.value.ui.playground
        == (if pathname == path then PlaygroundState(Some(""), Some(option)) else NoPlayground)
  {
    var route := RouteOf(option).value;
    assert EncodeURIComponent("") == "";
    var path := MenuPath("", route);
    assert path[|PlaygroundPrefix|..] == "/" + route;
  }

  /** `isMenuActive`: the path the option would navigate to; an unmapped
      option's route prints as "undefined". */
  predicate IsMenuActive(pathname: string, playground: string, option: string) {
    var route := match RouteOf(option) case Some(r) => r case None => "undefined";
    pathname == MenuPath(playground, route)
  }

  /** The menu path names its playground and route unambiguously. */
  lemma MenuPathInjective(p1: string, r1: string, p2: string, r2: string)
    requires MenuPath(p1, r1) == MenuPath(p2, r2)
    ensures p1 == p2 && r1 == r2
  {
    EncodedHasNoSlash(p1);
    EncodedHasNoSlash(p2);
    SplitAtSlash(PlaygroundPrefix, EncodeURIComponent(p1), r1, EncodeURIComponent(p2), r2);
    EncodeInjective(p1, p2);
  }

  /** Text ending in `a + "/" + r`, with no slash in `a`, fixes `a` and `r`. */
  lemma SplitAtSlash(pre: string, a1: string, r1: string, a2: string, r2: string)
    requires '/' !in a1 && '/' !in a2
    requires pre + a1 + "/" + r1 == pre + a2 + "/" + r2
    ensures a1 == a2 && r1 == r2
  {
    var t := pre + a1 + "/" + r1;
    var rest1, rest2 := a1 + ("/" + r1), a2 + ("/" + r2);
    assert t[|pre|..] == rest1;
    assert (pre + a2 + "/" + r2)[|pre|..] == rest2;
    SegmentOf(a1, "/" + r1);
    SegmentOf(a2, "/" + r2);
    assert rest1[|a1| + 1..] == r1;
    assert rest2[|a2| + 1..] == r2;
  }

  /** A menu entry is highlighted after its own click, and only that entry:
      the path names one playground and one option. */
  lemma MenuActiveExactly(playground: string, option: string, p: string, o: string)
    requires RouteOf(option).Some? && RouteOf(o).Some?
    ensures var path := MenuOptionClick(InitialUIState, playground, option).navigateTo.value;
      IsMenuActive(path, p, o) <==> p == playground && o == option
  {
    var r1, r2 := RouteOf(option).value, RouteOf(o).value;
    if MenuPath(playground, r1) == MenuPath(p, r2) {
      MenuPathInjective(playground, r1, p, r2);
      RouteOfInjective(option, o);
    }
  }

  // ---------------------------------------------------------------------
  // The playgrounds entry

  const PlaygroundsPath := "/playgrounds"

  /** `isMainPlaygroundsActive`. */
  predicate IsMainPlaygroundsActive(pathname: string) {
    pathname == PlaygroundsPath
  }

  /** `handlePlaygroundsClick`: clears the playground and goes to the list. */
  function PlaygroundsClick(ui: UIState): (r: Click)
    ensures r.ui.playground == NoPlayground && r.ui.dateRange == ui.dateRange
    ensures r.navigateTo == Some(PlaygroundsPath)
  {
    Click(Apply(ui, ClearPlayground), Some(PlaygroundsPath))
  }

  /** The list page and a playground's menu entry are never highlighted
      together, and arriving at the list keeps the playground cleared. */
  lemma PlaygroundsEntryExclusive(s: NavState, pathname: string, p: string, o: string)
    ensures !(IsMainPlaygroundsActive(pathname) && IsMenuActive(pathname, p, o))
    ensures LocationEffect(s, PlaygroundsPath) == Ok(s.(ui := Apply(s.ui, ClearPlayground)))
  {
    var route := match RouteOf(o) case Some(r) => r case None => "undefined";
    assert MenuPath(p, route)[11] == '/' != PlaygroundsPath[11];
    assert !IsPrefix(PlaygroundPrefix, PlaygroundsPath) by {
      assert PlaygroundsPath[11] != PlaygroundPrefix[11];
    }
  }
}

=== FILE: ui_state.dfy ===
/**
 * The shared UI state (src/contexts/UIStateContext.tsx): the selected
 * playground and menu option, and the picked date range. Each setter is a
 * transition on an immutable state; the context hooks read it and fail
 * outside a provider.
 */
module UIStateContext {
  import opened Wrappers
  import opened Dates

  /** `[start, end]`, either end possibly `null`. */
  datatype DateRange = DateRange(start: Option<Moment>, end: Option<Moment>)

  datatype PlaygroundState = PlaygroundState(currentPlayground: Option<string>, currentOption: Option<string>)

  datatype UIState = UIState(playground: PlaygroundState, dateRange: DateRange)

  const NoPlayground := PlaygroundState(None, None)

  /** The provider's initial state: nothing selected, no date range. */
  const InitialUIState := UIState(NoPlayground, DateRange(None, None))

  /** The three setters the context hands out. */
  datatype Action =
    | SetCurrentPlayground(playground: Option<string>, option: Option<string>)
    | ClearPlayground
    | SetDateRange(range: DateRange)

  predicate IsPlaygroundAction(a: Action) {
    a.SetCurrentPlayground? || a.ClearPlayground?
  }

  /** The state after one setter: the part it names is replaced, the other
      part is carried over from `prev`. */
  function Apply(prev: UIState, a: Action): (next: UIState)
    ensures IsPlaygroundAction(a) ==> next.dateRange == prev.dateRange
    ensures a.SetDateRange? ==> next.playground == prev.playground && next.dateRange == a.range
    ensures a.SetCurrentPlayground? ==>
      next.playground.currentPlayground == a.playground && next.playground.currentOption == a.option
    ensures a.ClearPlayground? ==> next.playground.currentPlayground.None? && next.playground.currentOption.None?
  {
    match a
    case SetCurrentPlayground(p, o) => prev.(playground := PlaygroundState(p, o))
    case ClearPlayground => prev.(playground := NoPlayground)
    case SetDateRange(r) => prev.(dateRange := r)
  }

  /** Clearing is setting both to `null`. */
  lemma ClearIsSetNull(s: UIState)
    ensures Apply(s, ClearPlayground) == Apply(s, SetCurrentPlayground(None, None))
  {
  }

  /** Every setter is idempotent: applying it twice is applying it once. */
  lemma ApplyIdempotent(s: UIState, a: Action)
    ensures Apply(Apply(s, a), a) == Apply(s, a)
  {
  }

  /** A playground setter and a date-range setter touch disjoint parts, so
      their order does not matter. */
  lemma PlaygroundAndDateCommute(s: UIState, a: Action, b: Action)
    requires IsPlaygroundAction(a) && b.SetDateRange?
    ensures Apply(Apply(s, a), b) == Apply(Apply(s, b), a)
  {
  }

  /** The state after a run of setters. */
  function ApplyAll(s: UIState, actions: seq<Action>): UIState
    decreases |actions|
  {
    if actions == [] then s else ApplyAll(Apply(s, actions[0]), actions[1..])
  }

  /** The reference definition of the date range after a run of setters:
      the last one set, or the starting one when none was. */
  function LastDateRange(start: DateRange, actions: seq<Action>): DateRange
    decreases |actions|
  {
    if actions == [] then start
    else
      var last := actions[|actions| - 1];
      if last.SetDateRange? then last.range else LastDateRange(start, actions[..|actions| - 1])
  }

  /** The reference playground after a run of setters: the last playground
      setter decides; clearing counts as setting both to `null`. */
  function LastPlayground(start: PlaygroundState, actions: seq<Action>): PlaygroundState
    decreases |actions|
  {
    if actions == [] then start
    else
      match actions[|actions| - 1]
      case SetCurrentPlayground(p, o) => PlaygroundState(p, o)
      case ClearPlayground => NoPlayground
      case SetDateRange(_) => LastPlayground(start, actions[..|actions| - 1])
  }

  lemma {:induction false} ApplyAllSnoc(s: UIState, actions: seq<Action>, a: Action)
    ensures ApplyAll(s, actions + [a]) == Apply(ApplyAll(s, actions), a)
    decreases |actions|
  {
    if actions == [] {
      assert [] + [a] == [a];
    } else {
      assert (actions + [a])[1..] == actions[1..] + [a];
      ApplyAllSnoc(Apply(s, actions[0]), actions[1..], a);
    }
  }

  /** After any run of setters each part of the state is what the last
      setter for that part put there: the two parts never interfere. */
  lemma {:induction false} ApplyAllIsLastWriter(s: UIState, actions: seq<Action>)
    ensures ApplyAll(s, actions).dateRange == LastDateRange(s.dateRange, actions)
    ensures ApplyAll(s, actions).playground == LastPlayground(s.playground, actions)
    decreases |actions|
  {
    if actions != [] {
      var init, last := actions[..|actions| - 1], actions[|actions| - 1];
      ApplyAllIsLastWriter(s, init);
      assert init + [last] == actions;
      ApplyAllSnoc(s, init, last);
    }
  }

  // ---------------------------------------------------------------------
  // The context hooks

  const OutsideProviderMessage := "useUIStateContext must be used within a UIStateProvider"

  /** What `useContext` sees: the provider's state, or `undefined` outside one. */
  datatype Context = NoProvider | Provided(state: UIState)

  /** `useUIStateContext`: the state inside a provider, the error otherwise. */
  function UseUIStateContext(ctx: Context): (r: Result<UIState, string>)
    ensures r.Err? <==> ctx.NoProvider?
    ensures r.Err? ==> r.error == OutsideProviderMessage
    ensures r.Ok? ==> r.value == ctx.state
  {
    match ctx
    case NoProvider => Err(OutsideProviderMessage)
    case Provided(s) => Ok(s)
  }

  /** `usePlaygroundContext`: the playground part, failing as above. */
  function UsePlaygroundContext(ctx: Context): (r: Result<PlaygroundState, string>)
    ensures r.Err? <==> ctx.NoProvider?
    ensures r.Err? ==> r.error == OutsideProviderMessage
    ensures r.Ok? ==> r.value == ctx.state.playground
  {
    match UseUIStateContext(ctx)
    case Err(e) => Err(e)
    case Ok(s) => Ok(s.playground)
  }

  /** `useDateRangeContext`: the date-range part, failing as above. */
  function UseDateRangeContext(ctx: Context): (r: Result<DateRange, string>)
    ensures r.Err? <==> ctx.NoProvider?
    ensures r.Err? ==> r.error == OutsideProviderMessage
    ensures r.Ok? ==> r.value == ctx.state.dateRange
  {
    match UseUIStateContext(ctx)
    case Err(e) => Err(e)
    case Ok(s) => Ok(s.dateRange)
  }
}

=== FILE: uri.dfy ===
/**
 * `encodeURIComponent` and `decodeURIComponent` as ECMAScript defines them
 * (the Encode and Decode abstract operations of ECMA-262, section 19.2.6):
 * every character outside the unreserved set becomes the `%XX` escapes of
 * its UTF-8 bytes, with upper-case hexadecimal digits, and decoding reverses
 * that, failing with a URIError on a malformed escape or byte sequence.
 *
 * Dafny's `char` is a Unicode scalar value, so the lone surrogate that makes
 * `encodeURIComponent` throw cannot occur and encoding is total.
 */
module Uri {
  import opened Wrappers

  type Byte = b: int | 0 <= b < 256

  /** The characters `encodeURIComponent` leaves alone: ASCII letters and
      digits and `- _ . ! ~ * ' ( )`. */
  predicate Unreserved(c: char) {
    ('A' <= c <= 'Z') || ('a' <= c <= 'z') || ('0' <= c <= '9')
    || c == '-' || c == '_' || c == '.' || c == '!' || c == '~'
    || c == '*' || c == '\'' || c == '(' || c == ')'
  }

  predicate IsUpperHexDigit(c: char) {
    ('0' <= c <= '9') || ('A' <= c <= 'F')
  }

  function HexDigit(d: int): (c: char)
    requires 0 <= d < 16
    ensures IsUpperHexDigit(c)
  {
    if d < 10 then ('0' as int + d) as char else ('A' as int + d - 10) as char
  }

  /** The value of one hexadecimal digit of either case. */
  function HexValue(c: char): (r: Option<int>)
    ensures r.Some? ==> 0 <= r.value < 16
    ensures IsUpperHexDigit(c) ==> r.Some?
  {
    if '0' <= c <= '9' then Some(c as int - '0' as int)
    else if 'A' <= c <= 'F' then Some(c as int - 'A' as int + 10)
    else if 'a' <= c <= 'f' then Some(c as int - 'a' as int + 10)
    else None
  }

  lemma HexValueOfDigit(d: int)
    requires 0 <= d < 16
    ensures HexValue(HexDigit(d)) == Some(d)
  {
  }

  /** The UTF-8 encoding of a scalar value (RFC 3629, section 3). */
  function Utf8(c: char): (r: seq<Byte>)
    ensures 1 <= |r| <= 4
  {
    var v := c as int;
    var q1 := v / 64;
    var q2 := q1 / 64;
    if v < 0x80 then [v]
    else if v < 0x800 then
      assert q1 < 32;
      [0xC0 + q1, 0x80 + v % 64]
    else if v < 0x10000 then
      assert q2 < 16;
      [0xE0 + q2, 0x80 + q1 % 64, 0x80 + v % 64]
    else
      assert q2 / 64 < 8;
      [0xF0 + q2 / 64, 0x80 + q2 % 64, 0x80 + q1 % 64, 0x80 + v % 64]
  }

  /** The length of the UTF-8 sequence a leading byte announces, or 0 when
      the byte cannot start one (a continuation byte or 0xF8 and above). */
  function SequenceLength(b: Byte): (n: nat)
    ensures n <= 4 && n != 1 <==> 0x80 <= b
  {
    if b < 0x80 then 1
    else if b < 0xC0 then 0
    else if b < 0xE0 then 2
    else if b < 0xF0 then 3
    else if b < 0xF8 then 4
    else 0
  }

  predicate IsContinuation(b: Byte) {
    0x80 <= b < 0xC0
  }

  /** The payload bits of a sequence whose shape has been checked. */
  function Payload(bs: seq<Byte>): int
    requires 1 <= |bs| <= 4
  {
    var b0 := bs[0] as int;
    if |bs| == 1 then b0
    else if |bs| == 2 then (b0 - 0xC0) * 64 + (bs[1] as int - 0x80)
    else if |bs| == 3 then (b0 - 0xE0) * 4096 + (bs[1] as int - 0x80) * 64 + (bs[2] as int - 0x80)
    else (b0 - 0xF0) * 262144 + (bs[1] as int - 0x80) * 4096 + (bs[2] as int - 0x80) * 64 + (bs[3] as int - 0x80)
  }

  /** The smallest payload each sequence length may carry: a smaller one
      is an overlong encoding. */
  function MinPayload(n: int): int {
    if n <= 1 then 0 else if n == 2 then 0x80 else if n == 3 then 0x800 else 0x10000
  }

  predicate IsScalarValue(v: int) {
    (0 <= v < 0xD800) || (0xE000 <= v <= 0x10FFFF)
  }

  /** Decoding one UTF-8 sequence: None unless it is well formed. */
  function Utf8Decode(bs: seq<Byte>): (r: Option<char>)
    ensures r.Some? ==> Utf8(r.value) == bs
  {
    if 1 <= |bs| <= 4 && SequenceLength(bs[0]) == |bs|
       && (forall i :: 1 <= i < |bs| ==> IsContinuation(bs[i]))
       && MinPayload(|bs|) <= Payload(bs) && IsScalarValue(Payload(bs))
    then
      Utf8OfPayload(bs);
      Some(Payload(bs) as char)
    else None
  }

  lemma Split2(a: int, b: int)
    requires 0 <= b < 64
    ensures (a * 64 + b) / 64 == a && (a * 64 + b) % 64 == b
  {
  }

  lemma Utf8OfPayload2(bs: seq<Byte>)
    requires |bs| == 2 && SequenceLength(bs[0]) == 2 && IsContinuation(bs[1])
    requires MinPayload(2) <= Payload(bs)
    ensures Utf8(Payload(bs) as char) == bs
  {
    Split2(bs[0] - 0xC0, bs[1] - 0x80);
  }

  lemma Utf8OfPayload3(bs: seq<Byte>)
    requires |bs| == 3 && SequenceLength(bs[0]) == 3 && IsContinuation(bs[1]) && IsContinuation(bs[2])
    requires MinPayload(3) <= Payload(bs) && IsScalarValue(Payload(bs))
    ensures Utf8(Payload(bs) as char) == bs
  {
    var a: int, b: int, c: int := bs[0] - 0xE0, bs[1] - 0x80, bs[2] - 0x80;
    assert Payload(bs) == (a * 64 + b) * 64 + c;
    Split2(a * 64 + b, c);
    Split2(a, b);
  }

  lemma Utf8OfPayload4(bs: seq<Byte>)
    requires |bs| == 4 && SequenceLength(bs[0]) == 4
    requires IsContinuation(bs[1]) && IsContinuation(bs[2]) && IsContinuation(bs[3])
    requires MinPayload(4) <= Payload(bs) && IsScalarValue(Payload(bs))
    ensures Utf8(Payload(bs) as char) == bs
  {
    var a: int, b: int, c: int, d: int := bs[0] - 0xF0, bs[1] - 0x80, bs[2] - 0x80, bs[3] - 0x80;
    assert Payload(bs) == ((a * 64 + b) * 64 + c) * 64 + d;
    Split2((a * 64 + b) * 64 + c, d);
    Split2(a * 64 + b, c);
    Split2(a, b);
  }

  lemma Utf8OfPayload(bs: seq<Byte>)
    requires 1 <= |bs| <= 4 && SequenceLength(bs[0]) == |bs|
    requires forall i :: 1 <= i < |bs| ==> IsContinuation(bs[i])
    requires MinPayload(|bs|) <= Payload(bs) && IsScalarValue(Payload(bs))
    ensures Utf8(Payload(bs) as char) == bs
  {
    if |bs| == 2 {
      assert IsContinuation(bs[1]);
      Utf8OfPayload2(bs);
    } else if |bs| == 3 {
      assert IsContinuation(bs[1]) && IsContinuation(bs[2]);
      Utf8OfPayload3(bs);
    } else if |bs| == 4 {
      assert IsContinuation(bs[1]) && IsContinuation(bs[2]) && IsContinuation(bs[3]);
      Utf8OfPayload4(bs);
    }
  }

  lemma Utf8Decodes2(c: char)
    requires 0x80 <= c as int < 0x800
    ensures Utf8Decode(Utf8(c)) == Some(c)
  {
    var v := c as int;
    assert Payload(Utf8(c)) == (v / 64) * 64 + v % 64 == v;
  }

  lemma Utf8Decodes3(c: char)
    requires 0x800 <= c as int < 0x10000
    ensures Utf8Decode(Utf8(c)) == Some(c)
  {
    var v := c as int;
    var q1 := v / 64;
    assert v == q1 * 64 + v % 64 && q1 == q1 / 64 * 64 + q1 % 64;
    assert Payload(Utf8(c)) == v;
  }

  lemma Utf8Decodes4(c: char)
    requires 0x10000 <= c as int
    ensures Utf8Decode(Utf8(c)) == Some(c)
  {
    var v := c as int;
    var q1 := v / 64;
    var q2 := q1 / 64;
    assert v == q1 * 64 + v % 64 && q1 == q2 * 64 + q1 % 64 && q2 == q2 / 64 * 64 + q2 % 64;
    assert q2 / 64 <= 4;
    assert Payload(Utf8(c)) == v;
  }

  lemma Utf8Decodes(c: char)
    ensures Utf8Decode(Utf8(c)) == Some(c)
  {
    var v := c as int;
    if v < 0x80 {
    } else if v < 0x800 {
      Utf8Decodes2(c);
    } else if v < 0x10000 {
      Utf8Decodes3(c);
    } else {
      Utf8Decodes4(c);
    }
  }

  /** `%XX` for one byte. */
  function PercentByte(b: Byte): string {
    ['%', HexDigit(b / 16), HexDigit(b % 16)]
  }

  function PercentBytes(bs: seq<Byte>): (r: string)
    ensures |r| == 3 * |bs|
    ensures forall c :: c in r ==> c == '%' || IsUpperHexDigit(c)
  {
    if bs == [] then [] else PercentByte(bs[0]) + PercentBytes(bs[1..])
  }

  function EncodeChar(c: char): string {
    if Unreserved(c) then [c] else PercentBytes(Utf8(c))
  }

  /** `encodeURIComponent(s)`. */
  function EncodeURIComponent(s: string): (r: string)
    ensures forall c :: c in r ==> Unreserved(c) || c == '%' || IsUpperHexDigit(c)
    ensures |r| >= |s|
    ensures (forall i :: 0 <= i < |s| ==> Unreserved(s[i])) ==> r == s
  {
    if s == [] then [] else EncodeChar(s[0]) + EncodeURIComponent(s[1..])
  }

  /** An encoded component never contains a path separator. */
  lemma EncodedHasNoSlash(s: string)
    ensures '/' !in EncodeURIComponent(s)
  {
  }

  /** Reads one `%XX` escape at the start of `s`. */
  function ReadEscape(s: string): (r: Option<Byte>)
    ensures r.Some? ==> |s| >= 3
  {
    if |s| >= 3 && s[0] == '%' && HexValue(s[1]).Some? && HexValue(s[2]).Some?
    then Some(HexValue(s[1]).value * 16 + HexValue(s[2]).value)
    else None
  }

  /** Reads `m` consecutive escapes at the start of `s`. */
  function ReadEscapes(s: string, m: nat): (r: Option<seq<Byte>>)
    ensures r.Some? ==> |r.value| == m && 3 * m <= |s|
    ensures r.Some? && m > 0 ==> ReadEscape(s) == Some(r.value[0])
    decreases m
  {
    if m == 0 then Some([])
    else match ReadEscape(s)
      case None => None
      case Some(b) =>
        match ReadEscapes(s[3..], m - 1)
        case None => None
        case Some(bs) => Some([b] + bs)
  }

  function Prepend(c: char, o: Option<string>): Option<string> {
    match o
    case None => None
    case Some(t) => Some([c] + t)
  }

  /** `decodeURIComponent(s)`; None stands for the URIError it throws. */
  function DecodeURIComponent(s: string): (r: Option<string>)
    decreases |s|
  {
    if s == [] then Some([])
    else if s[0] != '%' then Prepend(s[0], DecodeURIComponent(s[1..]))
    else match ReadEscape(s)
      case None => None
      case Some(b) =>
        var n := SequenceLength(b);
        if n == 0 then None
        else match ReadEscapes(s, n)
          case None => None
          case Some(bs) =>
            match Utf8Decode(bs)
            case None => None
            case Some(c) => Prepend(c, DecodeURIComponent(s[3 * n..]))
  }

  /** Text without any `%` decodes to itself. */
  lemma {:induction false} DecodeUnescaped(s: string)
    requires '%' !in s
    ensures DecodeURIComponent(s) == Some(s)
    decreases |s|
  {
    if s != [] {
      assert s[0] in s;
      assert forall c :: c in s[1..] ==> c in s;
      DecodeUnescaped(s[1..]);
      assert [s[0]] + s[1..] == s;
    }
  }

  lemma ReadPercentByte(b: Byte, rest: string)
    ensures ReadEscape(PercentByte(b) + rest) == Some(b)
  {
    HexValueOfDigit(b / 16);
    HexValueOfDigit(b % 16);
    var s := PercentByte(b) + rest;
    assert s[0] == '%' && s[1] == HexDigit(b / 16) && s[2] == HexDigit(b % 16);
  }

  lemma PercentBytesCons(bs: seq<Byte>, rest: string)
    requires bs != []
    ensures PercentBytes(bs) + rest == PercentByte(bs[0]) + (PercentBytes(bs[1..]) + rest)
    ensures (PercentBytes(bs) + rest)[3..] == PercentBytes(bs[1..]) + rest
  {
  }

  lemma ReadEscapesStep(s: string, m: nat, b: Byte, bs: seq<Byte>)
    requires m > 0 && ReadEscape(s) == Some(b) && ReadEscapes(s[3..], m - 1) == Some(bs)
    ensures ReadEscapes(s, m) == Some([b] + bs)
  {
  }

  lemma {:induction false} ReadPercentBytes(bs: seq<Byte>, rest: string)
    ensures ReadEscapes(PercentBytes(bs) + rest, |bs|) == Some(bs)
    decreases |bs|
  {
    if bs != [] {
      var s := PercentBytes(bs) + rest;
      PercentBytesCons(bs, rest);
      ReadPercentByte(bs[0], PercentBytes(bs[1..]) + rest);
      ReadPercentBytes(bs[1..], rest);
      ReadEscapesStep(s, |bs|, bs[0], bs[1..]);
      assert [bs[0]] + bs[1..] == bs;
    }
  }

  lemma DecodeEncodedChar(c: char, rest: string)
    ensures DecodeURIComponent(EncodeChar(c) + rest) == Prepend(c, DecodeURIComponent(rest))
  {
    var s := EncodeChar(c) + rest;
    if Unreserved(c) {
      assert s[1..] == rest;
    } else {
      var bs := Utf8(c);
      ReadPercentBytes(bs, rest);
      Utf8Decodes(c);
      assert SequenceLength(bs[0]) == |bs| by {
        assert Utf8Decode(bs).Some?;
      }
      assert s[3 * |bs|..] == rest;
    }
  }

  /** Decoding undoes encoding, for every string. */
  lemma {:induction false} DecodeEncode(s: string)
    ensures DecodeURIComponent(EncodeURIComponent(s)) == Some(s)
    decreases |s|
  {
    if s != [] {
      DecodeEncode(s[1..]);
      DecodeEncodedChar(s[0], EncodeURIComponent(s[1..]));
      assert [s[0]] + s[1..] == s;
    }
  }

  /** Encoding is injective, because decoding undoes it. */
  lemma EncodeInjective(a: string, b: string)
    requires EncodeURIComponent(a) == EncodeURIComponent(b)
    ensures a == b
  {
    DecodeEncode(a);
    DecodeEncode(b);
  }

  lemma EncodeSpaceExample()
    ensures EncodeURIComponent("a b") == "a%20b"
  {
    assert EncodeChar(' ') == "%20";
  }

  lemma EncodeSlashExample()
    ensures EncodeURIComponent("/") == "%2F"
  {
    assert EncodeChar('/') == "%2F";
  }

  lemma StrayPercentExample()
    ensures DecodeURIComponent("%") == None
  {
  }

  lemma DecodeLetterExample()
    ensures DecodeURIComponent("%41") == Some("A")
  {
    var bs: seq<Byte> := [0x41];
    assert PercentBytes(bs) == "%41";
    ReadPercentBytes(bs, []);
    assert PercentBytes(bs) + [] == "%41";
    assert ReadEscape("%41") == Some(0x41);
    assert SequenceLength(0x41) == 1;
    assert Utf8Decode(bs) == Some('A') by {
      Utf8Decodes('A');
      assert Utf8('A') == bs;
    }
    assert "%41"[3..] == [];
    assert ['A'] + [] == "A";
  }

  /** Examples: a space and a slash are escaped; a stray `%` fails to decode. */
  lemma UriExamples()
    ensures EncodeURIComponent("a b") == "a%20b"
    ensures EncodeURIComponent("/") == "%2F"
    ensures DecodeURIComponent("%") == None
    ensures DecodeURIComponent("%41") == Some("A")
  {
    EncodeSpaceExample();
    EncodeSlashExample();
    StrayPercentExample();
    DecodeLetterExample();
  }
}

=== FILE: utils.dfy ===
/** `formatNumber` from src/utils.tsx: the dashboard's count formatter. The
    input's whitespace is removed, an integer prefix is parsed; values of one
    hundred thousand or more print as thousands with a `k` suffix, smaller
    ones print with a space between groups of three digits. */
module Utils {
  import opened Wrappers
  import opened JsText

  // ---------------------------------------------------------------------
  // The grouping regular expression /\B(?=(\d{3})+(?!\d))/g, position by position

  predicate IsWordChar(c: char) {
    ('A' <= c <= 'Z') || ('a' <= c <= 'z') || ('0' <= c <= '9') || c == '_'
  }

  /** `\B` at position `i`: the characters on both sides are both word
      characters or both not (outside the string counts as not). */
  predicate NotWordBoundary(t: string, i: nat)
    requires i <= |t|
  {
    (i > 0 && IsWordChar(t[i - 1])) == (i < |t| && IsWordChar(t[i]))
  }

  /** The lookahead `(?=(\d{3})+(?!\d))` at position `i`: one or more groups
      of three digits, then a character that is not a digit (or the end). */
  predicate TriplesAhead(t: string, i: nat)
    decreases |t| - i
  {
    && i + 3 <= |t| && IsDigit(t[i]) && IsDigit(t[i + 1]) && IsDigit(t[i + 2])
    && (i + 3 == |t| || !IsDigit(t[i + 3]) || TriplesAhead(t, i + 3))
  }

  /** The regular expression matches (with zero width) at position `i`. */
  predicate GroupSeparatorAt(t: string, i: nat)
    requires i <= |t|
  {
    NotWordBoundary(t, i) && TriplesAhead(t, i)
  }

  /** `t.replace(/\B(?=(\d{3})+(?!\d))/g, " ")` applied from position `i` on:
      a space is inserted before every character at which the expression matches. */
  function InsertSeparators(t: string, i: nat): (r: string)
    requires i <= |t|
    decreases |t| - i
  {
    if i == |t| then ""
    else (if GroupSeparatorAt(t, i) then " " else "") + [t[i]] + InsertSeparators(t, i + 1)
  }

  // ---------------------------------------------------------------------
  // The reference reading: groups of three digits counted from the right

  /** Digits split into groups of three counted from the right, joined by single spaces. */
  function GroupThousands(d: string): string
    decreases |d|
  {
    if |d| <= 3 then d else GroupThousands(d[..|d| - 3]) + " " + d[|d| - 3..]
  }

  /** A space before each successive group of three characters. */
  function SpacedTriples(e: string): string
    requires |e| % 3 == 0
    decreases |e|
  {
    if e == [] then "" else " " + e[..3] + SpacedTriples(e[3..])
  }

  /** How the slices of `e` taken by the two recursions relate. */
  lemma TripleSlices(e: string)
    requires |e| >= 6
    ensures e[3..][..|e[3..]| - 3] == e[..|e| - 3][3..]
    ensures e[3..][|e[3..]| - 3..] == e[|e| - 3..]
    ensures e[..|e| - 3][..3] == e[..3]
  {
  }

  lemma Associate(a: string, b: string, c: string, d: string)
    ensures a + (b + c + d) == (a + b) + c + d
  {
  }

  lemma {:induction false} SpacedTriplesFromRight(e: string)
    requires |e| % 3 == 0 && |e| >= 3
    ensures SpacedTriples(e) == SpacedTriples(e[..|e| - 3]) + " " + e[|e| - 3..]
    decreases |e|
  {
    if |e| == 3 {
      assert e[3..] == [] && e[..0] == [] && e[0..] == e[..3];
    } else {
      var head, tail, mid, last := e[..3], e[3..], e[..|e| - 3], e[|e| - 3..];
      TripleSlices(e);
      SpacedTriplesFromRight(tail);
      assert SpacedTriples(tail) == SpacedTriples(mid[3..]) + " " + last;
      assert SpacedTriples(mid) == " " + head + SpacedTriples(mid[3..]);
      Associate(" " + head, SpacedTriples(mid[3..]), " ", last);
    }
  }

  /** The length of the leftmost group: between one and three digits. */
  function LeadLength(n: nat): (k: nat)
    requires n > 0
    ensures 1 <= k <= 3 && k <= n && (n - k) % 3 == 0
    decreases n
  {
    if n <= 3 then n else LeadLength(n - 3)
  }

  /** How the slices of `d` after its leftmost group relate once the last group is dropped. */
  lemma LeadSlices(d: string, k: nat)
    requires k + 3 <= |d|
    ensures d[k..][..|d[k..]| - 3] == d[..|d| - 3][k..]
    ensures d[k..][|d[k..]| - 3..] == d[|d| - 3..]
    ensures d[..|d| - 3][..k] == d[..k]
  {
  }

  lemma LeadLengthDrop(n: nat)
    requires n > 3
    ensures LeadLength(n - 3) == LeadLength(n) && LeadLength(n) + 3 <= n
  {
  }

  lemma GroupThousandsStep(d: string)
    requires |d| > 3
    ensures GroupThousands(d) == GroupThousands(d[..|d| - 3]) + " " + d[|d| - 3..]
  {
  }

  /** Spaced triples of a suffix, with the last group split off. */
  lemma SpacedSuffixFromRight(d: string, k: nat)
    requires k + 3 <= |d| && (|d| - k) % 3 == 0
    ensures SpacedTriples(d[k..]) == SpacedTriples(d[..|d| - 3][k..]) + " " + d[|d| - 3..]
  {
    LeadSlices(d, k);
    SpacedTriplesFromRight(d[k..]);
  }

  lemma {:induction false} GroupThousandsLeftToRight(d: string)
    requires d != []
    ensures GroupThousands(d) == d[..LeadLength(|d|)] + SpacedTriples(d[LeadLength(|d|)..])
    decreases |d|
  {
    var k := LeadLength(|d|);
    if |d| <= 3 {
      assert d[..k] == d && d[k..] == [];
    } else {
      var d', last := d[..|d| - 3], d[|d| - 3..];
      LeadLengthDrop(|d|);
      GroupThousandsLeftToRight(d');
      GroupThousandsStep(d);
      SpacedSuffixFromRight(d, k);
      assert d'[..k] == d[..k];
      Associate(d[..k], SpacedTriples(d'[k..]), " ", last);
    }
  }

  // ---------------------------------------------------------------------
  // The regular expression agrees with the reference on printed integers

  /** `t` from `o` on is a non-empty digit run with no word character just before it. */
  predicate DigitTail(t: string, o: nat) {
    o < |t| && (forall j :: o <= j < |t| ==> IsDigit(t[j])) && (o == 0 || !IsWordChar(t[o - 1]))
  }

  /** Inside a run of digits that reaches the end, the lookahead holds
      exactly where the number of remaining digits is a multiple of three. */
  lemma {:induction false} TriplesAheadInDigits(t: string, j: nat)
    requires j <= |t| && forall i :: j <= i < |t| ==> IsDigit(t[i])
    ensures TriplesAhead(t, j) <==> j < |t| && (|t| - j) % 3 == 0
    decreases |t| - j
  {
    if j + 3 <= |t| {
      TriplesAheadInDigits(t, j + 3);
    }
  }

  lemma SeparatorInDigitTail(t: string, o: nat, j: nat)
    requires DigitTail(t, o) && o <= j < |t|
    ensures GroupSeparatorAt(t, j) <==> j > o && (|t| - j) % 3 == 0
  {
    TriplesAheadInDigits(t, j);
  }

  /** The placement the regular expression makes on a digit run starting at
      `o`, without the regular expression: a space before every digit past
      the first from which a multiple of three digits remain. */
  function SpaceDigits(t: string, o: nat, j: nat): string
    requires j <= |t|
    decreases |t| - j
  {
    if j == |t| then ""
    else (if j > o && (|t| - j) % 3 == 0 then " " else "") + [t[j]] + SpaceDigits(t, o, j + 1)
  }

  lemma {:induction false} InsertSeparatorsInDigits(t: string, o: nat, j: nat)
    requires DigitTail(t, o) && o <= j <= |t|
    ensures InsertSeparators(t, j) == SpaceDigits(t, o, j)
    decreases |t| - j
  {
    if j < |t| {
      SeparatorInDigitTail(t, o, j);
      InsertSeparatorsInDigits(t, o, j + 1);
    }
  }

  lemma GlueTriple(t: string, j: nat, rest: string)
    requires j + 3 <= |t|
    ensures " " + [t[j]] + ([t[j + 1]] + ([t[j + 2]] + rest)) == " " + t[j..j + 3] + rest
  {
    assert t[j..j + 3] == [t[j], t[j + 1], t[j + 2]];
  }

  lemma ThreeApart(n: int)
    requires n >= 3 && n % 3 == 0
    ensures (n - 1) % 3 == 2 && (n - 2) % 3 == 1 && (n - 3) % 3 == 0
  {
  }

  lemma SpaceDigitsSpaced(t: string, o: nat, j: nat)
    requires o < j < |t| && (|t| - j) % 3 == 0
    ensures SpaceDigits(t, o, j) == " " + [t[j]] + SpaceDigits(t, o, j + 1)
  {
  }

  lemma SpaceDigitsPlain(t: string, o: nat, j: nat)
    requires j < |t| && !(j > o && (|t| - j) % 3 == 0)
    ensures SpaceDigits(t, o, j) == [t[j]] + SpaceDigits(t, o, j + 1)
  {
  }

  /** Past the leftmost group, each group of three gets one space in front. */
  lemma TripleStep(t: string, o: nat, j: nat)
    requires o < j && j + 3 <= |t| && (|t| - j) % 3 == 0
    ensures SpaceDigits(t, o, j) == " " + t[j..j + 3] + SpaceDigits(t, o, j + 3)
  {
    ThreeApart(|t| - j);
    SpaceDigitsSpaced(t, o, j);
    SpaceDigitsPlain(t, o, j + 1);
    SpaceDigitsPlain(t, o, j + 2);
    GlueTriple(t, j, SpaceDigits(t, o, j + 3));
  }

  lemma SuffixTriple(t: string, j: nat)
    requires j + 3 <= |t|
    ensures t[j..][..3] == t[j..j + 3] && t[j..][3..] == t[j + 3..]
  {
  }

  lemma {:induction false} SeparatorsOnTriples(t: string, o: nat, j: nat)
    requires o < j <= |t| && (|t| - j) % 3 == 0
    ensures SpaceDigits(t, o, j) == SpacedTriples(t[j..])
    decreases |t| - j
  {
    if j == |t| {
      assert t[j..] == [];
    } else {
      ThreeApart(|t| - j);
      TripleStep(t, o, j);
      SeparatorsOnTriples(t, o, j + 3);
      SuffixTriple(t, j);
      assert SpacedTriples(t[j..]) == " " + t[j..j + 3] + SpacedTriples(t[j + 3..]);
    }
  }

  /** Inside the leftmost group no space is placed. */
  lemma NoSeparatorInLead(t: string, o: nat, j: nat)
    requires o < |t| && o <= j < o + LeadLength(|t| - o)
    ensures !(j > o && (|t| - j) % 3 == 0)
  {
    var x := |t| - o;
    var lead := LeadLength(x);
    if j > o {
      assert 0 < lead - (j - o) < 3;
      assert (|t| - j) % 3 == (lead - (j - o)) % 3;
    }
  }

  lemma ConsSlice(t: string, j: nat, e: nat, rest: string)
    requires j < e <= |t|
    ensures [t[j]] + (t[j + 1..e] + rest) == t[j..e] + rest
  {
    assert t[j..e] == [t[j]] + t[j + 1..e];
  }

  lemma {:induction false} SeparatorsInLead(t: string, o: nat, j: nat)
    requires o < |t| && o <= j <= o + LeadLength(|t| - o)
    ensures o + LeadLength(|t| - o) <= |t|
    ensures SpaceDigits(t, o, j) == t[j..o + LeadLength(|t| - o)] + SpaceDigits(t, o, o + LeadLength(|t| - o))
    decreases o + LeadLength(|t| - o) - j
  {
    var e := o + LeadLength(|t| - o);
    if j < e {
      NoSeparatorInLead(t, o, j);
      SpaceDigitsPlain(t, o, j);
      SeparatorsInLead(t, o, j + 1);
      ConsSlice(t, j, e, SpaceDigits(t, o, e));
    } else {
      assert t[j..e] == [];
    }
  }

  lemma SplitSuffix(t: string, o: nat, k: nat)
    requires o + k <= |t|
    ensures t[o..][..k] == t[o..o + k] && t[o..][k..] == t[o + k..]
  {
  }

  /** The regex-free placement: the leftmost group, then spaced triples. */
  lemma SpaceDigitsLeftToRight(t: string, o: nat)
    requires o < |t|
    ensures o + LeadLength(|t| - o) <= |t|
    ensures SpaceDigits(t, o, o)
         == t[o..o + LeadLength(|t| - o)] + SpacedTriples(t[o + LeadLength(|t| - o)..])
  {
    var e := o + LeadLength(|t| - o);
    SeparatorsInLead(t, o, o);
    SeparatorsOnTriples(t, o, e);
  }

  /** The reference grouping of a suffix, read left to right. */
  lemma SuffixGroupsLeftToRight(t: string, o: nat)
    requires o < |t|
    ensures o + LeadLength(|t| - o) <= |t|
    ensures GroupThousands(t[o..])
         == t[o..o + LeadLength(|t| - o)] + SpacedTriples(t[o + LeadLength(|t| - o)..])
  {
    var d := t[o..];
    var k := LeadLength(|d|);
    GroupThousandsLeftToRight(d);
    SplitSuffix(t, o, k);
  }

  /** The regex-free placement is the right-to-left grouping in threes. */
  lemma SpaceDigitsAreThousands(t: string, o: nat)
    requires o < |t|
    ensures SpaceDigits(t, o, o) == GroupThousands(t[o..])
  {
    SpaceDigitsLeftToRight(t, o);
    SuffixGroupsLeftToRight(t, o);
  }

  /** On a digit run the regular expression inserts exactly the reference's spaces. */
  lemma SeparatorsAreThousands(t: string, o: nat)
    requires DigitTail(t, o)
    ensures InsertSeparators(t, o) == GroupThousands(t[o..])
  {
    InsertSeparatorsInDigits(t, o, o);
    SpaceDigitsAreThousands(t, o);
  }

  /** The regular expression only ever inserts spaces. */
  lemma {:induction false} SeparatorsOnlyAddSpaces(t: string, i: nat)
    requires i <= |t|
    ensures RemoveJsSpaces(InsertSeparators(t, i)) == RemoveJsSpaces(t[i..])
    decreases |t| - i
  {
    if i < |t| {
      SeparatorsOnlyAddSpaces(t, i + 1);
      var sep := if GroupSeparatorAt(t, i) then " " else "";
      var c, tail := [t[i]], InsertSeparators(t, i + 1);
      assert InsertSeparators(t, i) == sep + (c + tail);
      SpaceOrNothingRemoved(sep, c + tail);
      RemoveJsSpacesAppend(c, tail);
      RemoveJsSpacesAppend(c, t[i + 1..]);
      assert t[i..] == c + t[i + 1..];
    }
  }

  lemma SpaceOrNothingRemoved(sep: string, x: string)
    requires sep == " " || sep == ""
    ensures RemoveJsSpaces(sep + x) == RemoveJsSpaces(x)
  {
    if sep == "" {
      assert sep + x == x;
    } else {
      var s := sep + x;
      assert s[0] == ' ' && s[1..] == x;
    }
  }

  /** What `num.toString().replace(...)` prints for an integer: the sign, then
      the magnitude's digits grouped in threes from the right. */
  lemma GroupedDecimal(n: int)
    ensures InsertSeparators(IntToDecimal(n), 0)
         == (if n < 0 then "-" else "") + GroupThousands(NatToDecimal(if n < 0 then -n else n))
  {
    var t := IntToDecimal(n);
    if n < 0 {
      SeparatorsAreThousands(t, 1);
      assert !GroupSeparatorAt(t, 0);
      assert t[1..] == NatToDecimal(-n);
    } else {
      SeparatorsAreThousands(t, 0);
      assert t[0..] == t;
    }
  }

  // ---------------------------------------------------------------------
  // formatNumber

  /** The number `formatNumber` reads from its input, `None` for `NaN`: a
      plain run of digits reads as its value, and input that is only
      whitespace reads as nothing. */
  function ParsedValue(input: string): (r: Option<int>)
    ensures input != [] && AllDigits(input) ==> r == Some(DigitsValue(input))
    ensures RemoveJsSpaces(input) == [] ==> r.None?
  {
    PlainDigitsParse(input);
    ParseInt(RemoveJsSpaces(input))
  }

  lemma PlainDigitsParse(input: string)
    ensures input != [] && AllDigits(input) ==> ParseInt(RemoveJsSpaces(input)) == Some(DigitsValue(input))
  {
    if input != [] && AllDigits(input) {
      DigitsHaveNoSpace(input);
      ParseIntOfDigitsThen(input, []);
      assert input + [] == input;
    }
  }

  /** How `formatNumber` prints a parsed value. */
  function PrintParsed(n: int): string {
    if n >= 100000 then IntToDecimal(n / 1000) + "k"
    else InsertSeparators(IntToDecimal(n), 0)
  }

  /** `formatNumber`: text with no integer comes back as it is; a value of
      one hundred thousand or more becomes its thousands followed by `k`;
      a smaller one becomes its digits with spaces between groups of three. */
  function FormatNumber(input: string): (r: string)
    ensures ParsedValue(input).None? ==> r == input
    ensures ParsedValue(input).Some? && ParsedValue(input).value >= 100000 ==>
      |r| >= 2 && r[|r| - 1] == 'k' && ParseInt(r[..|r| - 1]) == Some(ParsedValue(input).value / 1000)
    ensures ParsedValue(input).Some? && ParsedValue(input).value < 100000 ==>
      RemoveJsSpaces(r) == IntToDecimal(ParsedValue(input).value)
  {
    match ParsedValue(input)
    case None => input
    case Some(n) =>
      if n >= 100000 then ThousandsBranch(n); PrintParsed(n)
      else GroupedBranch(n); PrintParsed(n)
  }

  /** Values of one hundred thousand or more print as the whole number of
      thousands (rounded down) followed by `k`. */
  lemma ThousandsBranch(n: int)
    requires n >= 100000
    ensures var r := PrintParsed(n);
            && |r| >= 2 && r[|r| - 1] == 'k'
            && ParseInt(r[..|r| - 1]) == Some(n / 1000)
            && (n / 1000) * 1000 <= n < (n / 1000 + 1) * 1000
  {
    var r := PrintParsed(n);
    ParseIntOfDecimal(n / 1000);
    assert r[..|r| - 1] == IntToDecimal(n / 1000);
  }

  /** Smaller values print as the sign and the magnitude's digits grouped in
      threes from the right; taking the spaces out gives back `String(n)`. */
  lemma GroupedBranch(n: int)
    requires n < 100000
    ensures RemoveJsSpaces(PrintParsed(n)) == IntToDecimal(n)
    ensures PrintParsed(n) == (if n < 0 then "-" else "") + GroupThousands(NatToDecimal(if n < 0 then -n else n))
  {
    SeparatorsOnlyAddSpaces(IntToDecimal(n), 0);
    assert IntToDecimal(n)[0..] == IntToDecimal(n);
    GroupedDecimal(n);
  }

  /** When no integer can be read, the input comes back unchanged, whitespace included. */
  lemma NaNBranch(input: string)
    requires ParsedValue(input).None?
    ensures FormatNumber(input) == input
  {
  }

  /** Whitespace is removed before parsing: inputs that differ only in
      whitespace format identically, unless neither parses. */
  lemma WhitespaceInsensitive(a: string, b: string)
    requires RemoveJsSpaces(a) == RemoveJsSpaces(b)
    requires ParsedValue(a).Some?
    ensures FormatNumber(a) == FormatNumber(b)
  {
  }

  /** Only the leading integer matters: anything after it that does not
      start with a digit (once whitespace is gone) is ignored. */
  lemma TrailingTextIgnored(digits: string, rest: string)
    requires digits != [] && AllDigits(digits)
    requires RemoveJsSpaces(rest) == [] || !IsDigit(RemoveJsSpaces(rest)[0])
    ensures FormatNumber(digits + rest) == FormatNumber(digits)
  {
    ParsedDigitsThen(digits, rest);
    ParsedDigitsThen(digits, []);
    assert digits + [] == digits;
  }

  /** Digits followed by text that, once whitespace is gone, does not start
      with a digit read as the digits' value. */
  lemma ParsedDigitsThen(digits: string, rest: string)
    requires digits != [] && AllDigits(digits)
    requires RemoveJsSpaces(rest) == [] || !IsDigit(RemoveJsSpaces(rest)[0])
    ensures ParsedValue(digits + rest) == Some(DigitsValue(digits))
  {
    var x := RemoveJsSpaces(rest);
    DigitsHaveNoSpace(digits);
    RemoveJsSpacesAppend(digits, rest);
    assert RemoveJsSpaces(digits + rest) == digits + x;
    ParseIntOfDigitsThen(digits, x);
  }

  lemma DigitsHaveNoSpace(digits: string)
    requires AllDigits(digits)
    ensures RemoveJsSpaces(digits) == digits
  {
    assert NoJsSpace(digits);
  }

  lemma ParseIntOfDigitsThen(d: string, x: string)
    requires d != [] && AllDigits(d)
    requires x == [] || !IsDigit(x[0])
    ensures ParseInt(d + x) == Some(DigitsValue(d))
  {
    var s := d + x;
    assert s[0] == d[0];
    TrimStartUnchanged(s);
    assert Unsigned(s) == s;
    DigitPrefixOfConcat(d, x);
  }

  lemma {:induction false} DigitPrefixOfConcat(d: string, rest: string)
    requires AllDigits(d)
    requires rest == [] || !IsDigit(rest[0])
    ensures DigitPrefix(d + rest) == d
    decreases |d|
  {
    if d == [] {
      assert d + rest == rest;
    } else {
      DigitPrefixOfConcat(d[1..], rest);
      assert (d + rest)[1..] == d[1..] + rest;
    }
  }

  /** Values from 0 to 999 come back as their plain digits. */
  lemma SmallValuesUngrouped(n: int)
    requires 0 <= n < 1000
    ensures PrintParsed(n) == NatToDecimal(n)
  {
    GroupedBranch(n);
  }

  /** On the grouped branch `formatNumber` is idempotent: its output reads
      back as the same number and is printed the same way. */
  lemma GroupedIdempotent(input: string)
    requires ParsedValue(input).Some? && ParsedValue(input).value < 100000
    ensures FormatNumber(FormatNumber(input)) == FormatNumber(input)
  {
    var n := ParsedValue(input).value;
    GroupedBranch(n);
    ParseIntOfDecimal(n);
    assert ParsedValue(PrintParsed(n)) == Some(n);
  }

  /** A string of at most three digits formats as itself. */
  lemma SmallDigitsUnchanged(s: string, n: nat)
    requires s == NatToDecimal(n) && n < 1000
    ensures FormatNumber(s) == s
  {
    assert RemoveJsSpaces(s) == s;
    ParseIntOfDecimal(n);
    SmallValuesUngrouped(n);
  }

  /** The `k` branch is not idempotent: "523400" prints as "523k", which reads back as 523. */
  lemma ThousandsNotIdempotent()
    ensures FormatNumber(FormatNumber("523400")) != FormatNumber("523400")
  {
    StartedCountExample();
    ReformatStartedCount();
  }

  lemma ReformatStartedCount()
    ensures FormatNumber("523k") == "523"
  {
    Decimal523400();
    assert RemoveJsSpaces("k") == "k" by {
      assert NoJsSpace("k");
    }
    assert "523" + "k" == "523k";
    TrailingTextIgnored("523", "k");
    SmallDigitsUnchanged("523", 523);
  }

  lemma DecimalAppend(n: nat, d: nat)
    requires 0 < n && d < 10
    ensures NatToDecimal(n * 10 + d) == NatToDecimal(n) + [DigitChar(d)]
  {
    assert (n * 10 + d) / 10 == n && (n * 10 + d) % 10 == d;
  }

  /** A printed natural number is read back by `formatNumber` as that number. */
  lemma FormatOfDecimal(s: string, n: nat)
    requires s == NatToDecimal(n)
    ensures FormatNumber(s) == PrintParsed(n)
  {
    ParseIntOfDecimal(n);
    assert RemoveJsSpaces(s) == s;
  }

  lemma ThousandsExample(s: string, n: nat, thousands: string)
    requires s == NatToDecimal(n) && n >= 100000 && thousands == NatToDecimal(n / 1000)
    ensures FormatNumber(s) == thousands + "k"
  {
    FormatOfDecimal(s, n);
  }

  lemma GroupedExample(s: string, n: nat, grouped: string)
    requires s == NatToDecimal(n) && n < 100000 && grouped == GroupThousands(s)
    ensures FormatNumber(s) == grouped
  {
    FormatOfDecimal(s, n);
    GroupedBranch(n);
    assert "" + grouped == grouped;
  }

  lemma {:induction false} Decimal523400()
    ensures NatToDecimal(523) == "523" && NatToDecimal(523400) == "523400"
  {
    DecimalAppend(5, 2); DecimalAppend(52, 3); DecimalAppend(523, 4);
    DecimalAppend(5234, 0); DecimalAppend(52340, 0);
  }

  lemma {:induction false} Decimal100000()
    ensures NatToDecimal(100) == "100" && NatToDecimal(100000) == "100000"
  {
    DecimalAppend(1, 0); DecimalAppend(10, 0); DecimalAppend(100, 0);
    DecimalAppend(1000, 0); DecimalAppend(10000, 0);
  }

  lemma {:induction false} Decimal32215()
    ensures NatToDecimal(32215) == "32215"
  {
    DecimalAppend(3, 2); DecimalAppend(32, 2); DecimalAppend(322, 1); DecimalAppend(3221, 5);
  }

  lemma {:induction false} Decimal5000()
    ensures NatToDecimal(5000) == "5000"
  {
    DecimalAppend(5, 0); DecimalAppend(50, 0); DecimalAppend(500, 0);
  }

  lemma {:induction false} Decimal99999()
    ensures NatToDecimal(99999) == "99999"
  {
    DecimalAppend(9, 9); DecimalAppend(99, 9); DecimalAppend(999, 9); DecimalAppend(9999, 9);
  }

  /** The "Started" card: 523400 prints as "523k". */
  lemma StartedCountExample()
    ensures FormatNumber("523400") == "523k"
  {
    Decimal523400();
    var n: nat := 523400;
    assert n / 1000 == 523;
    ThousandsExample(NatToDecimal(n), n, NatToDecimal(n / 1000));
    assert "523" + "k" == "523k";
  }

  /** The smallest value on the `k` branch. */
  lemma HundredThousandExample()
    ensures FormatNumber("100000") == "100k"
  {
    Decimal100000();
    var n: nat := 100000;
    assert n / 1000 == 100;
    ThousandsExample(NatToDecimal(n), n, NatToDecimal(n / 1000));
    assert "100" + "k" == "100k";
  }

  /** The "Finished" card: 32215 prints as "32 215". */
  lemma FinishedCountExample()
    ensures FormatNumber("32215") == "32 215"
  {
    Decimal32215();
    assert GroupThousands("32215") == "32 215" by {
      assert "32215"[..2] == "32" && "32215"[2..] == "215";
    }
    GroupedExample("32215", 32215, "32 215");
  }

  /** The "Failed" card: 5000 prints as "5 000". */
  lemma FailedCountExample()
    ensures FormatNumber("5000") == "5 000"
  {
    Decimal5000();
    assert GroupThousands("5000") == "5 000" by {
      assert "5000"[..1] == "5" && "5000"[1..] == "000";
    }
    GroupedExample("5000", 5000, "5 000");
  }

  /** The largest value on the grouped branch. */
  lemma LargestGroupedExample()
    ensures FormatNumber("99999") == "99 999"
  {
    Decimal99999();
    assert GroupThousands("99999") == "99 999" by {
      assert "99999"[..2] == "99" && "99999"[2..] == "999";
    }
    GroupedExample("99999", 99999, "99 999");
  }

  lemma RemoveOneSpace(a: string, b: string)
    requires NoJsSpace(a) && NoJsSpace(b)
    ensures RemoveJsSpaces(a + " " + b) == a + b
  {
    RemoveJsSpacesAppend(a + " ", b);
    RemoveJsSpacesAppend(a, " ");
    assert RemoveJsSpaces(" ") == [];
    assert a + [] == a;
  }

  lemma SpacesRemovedExample()
    ensures RemoveJsSpaces("32 215") == "32215"
  {
    GroupsHaveNoSpace();
    RemoveOneSpace("32", "215");
    GroupsConcatenate();
  }

  lemma GroupsHaveNoSpace()
    ensures NoJsSpace("32") && NoJsSpace("215")
  {
  }

  lemma GroupsConcatenate()
    ensures "32" + " " + "215" == "32 215" && "32" + "215" == "32215"
  {
  }

  /** A space-separated input reads the same as the unspaced one. */
  lemma SpacedInputExample()
    ensures FormatNumber("32 215") == "32 215"
  {
    SpacesRemovedExample();
    Decimal32215();
    ParseIntOfDecimal(32215);
    assert ParsedValue("32 215") == Some(32215);
    FinishedCountExample();
    FormatOfDecimal("32215", 32215);
  }
}

=== FILE: wrappers.dfy ===
/** Failure-carrying datatypes shared by every module: an optional value
    (JavaScript's null/undefined or "no match") and a value-or-thrown-error. */
module Wrappers {

  datatype Option<+T> = None | Some(value: T)

  datatype Result<+T, +E> = Ok(value: T) | Err(error: E)
}
